=== FILE: README.md ===
# Meta ads generator — a Dafny model of its core

This project models the server routes, the client state logic and the cron worker of
a Next.js application that generates advertising images and videos. Prompts are
kept in a Google Sheet and a Supabase prompt library. Images come from Gemini, and
videos from Veo and Kling. The results are stored in a gallery and in a
favourites store, and the browser bundles them into ZIP archives.

Every network call is an oracle supplied by the caller of the model: the sheet,
the Gemini and Veo endpoints, Kling, Supabase, and `fetch` from the browser. An
oracle is a `Fetch<T>` value, a `Result`, or a function `nat -> …` that gives the
k-th response. Bounded poll and retry loops are recursions over those oracle
sequences. Waits are recorded as numbers of milliseconds instead of being slept.
Tables are sequences of records. Sheet rows are maps from header to cell in the
TypeScript routes, and raw rows clipped to columns A..I in the Python worker.

One module per source file:

- `ImageJob` — the image job (`app/api/generate/route.ts`): it reads the sheet with 503 retries, picks the first row that is not generated and the product images of its group, normalises the format, and rotates through the API keys when a key is rate limited.
- `CronRoute` and `CronWorker` — the TypeScript and Python cron jobs that generate one Veo video per run and write the terminal status back to the sheet.
- `VeoPoll` and `VeoComplete` — classifying one poll of a long-running Veo operation, choosing the key by index, and marking the sheet row once the browser holds the video.
- `Kling` — the JWT claims and the three-segment token, starting a task with its inline polls, and the single client poll.
- `AnalyzeSite` — fetching a brand's page and cleaning its text, calling the model and stripping the Markdown fences from its answer, and storing the returned prompts as pending rows.
- `Gallery`, `Favorites`, `Prompts` — the Supabase-backed stores: file names that encode time, media type and a slug, per-client records, and prompt rows.
- `Workspace`, `PromptsTable`, `FavoritesPanel` — the state transformations of the main page, the prompt table and the favourites panel.
- `Base`, `Text`, `Decimal`, `Tables` — shared vocabulary. These give JavaScript's string operations, `String(n)`, `parseInt` and the truncating `%` explicit definitions, and define the filter, order and limit steps of database queries.

The base64 payload of a data URL is taken as `split(',')[1]`: the text between the first
and the second comma, or all of the text after the first comma when there is only one.
`Workspace.Payload` and `ImageJob.Payload` model that piece, each with its own answer
for a URL without a comma.

## Model

| member | source | states |
|---|---|---|
| AnalyzeSite.NormalizeUrl | app/api/analyze-site/route.ts:54-57 | an address not starting with "http" gets "https://" in front, one that does is kept as is, so the fetched address always starts with "http" |
| AnalyzeSite.NormalizeIdempotent | app/api/analyze-site/route.ts:54-57 | normalising an already normalised address changes nothing |
| AnalyzeSite.StripTags | app/api/analyze-site/route.ts:77 | replacing each tag by one space never makes the text longer, and every character left is one of the text or a space |
| AnalyzeSite.StripTagsPlain | app/api/analyze-site/route.ts:77 | text without '<' holds no tag and passes tag removal unchanged |
| AnalyzeSite.AmpBeforeLt | app/api/analyze-site/route.ts:79-83 | since "&amp;" is decoded before "&lt;", the doubly encoded "&amp;lt;" ends as "<" |
| AnalyzeSite.CleanText | app/api/analyze-site/route.ts:72-85 | the text sent to the model is a prefix of the trimmed, decoded, whitespace-collapsed, tag-free page, at most 15000 characters long, all of it when it fits, and never starts with whitespace |
| AnalyzeSite.FetchWebsite | app/api/analyze-site/route.ts:52-93 | a thrown fetch error or a non-2xx status becomes "Impossible de charger le site: " followed by the message or "HTTP <status>"; a 2xx page gives exactly its cleaned text, with the script, style, nav and footer blocks removed |
| AnalyzeSite.UnfencedIsTrimmed | app/api/analyze-site/route.ts:147-151 | an answer without Markdown fences is only trimmed before parsing |
| AnalyzeSite.CallModel | app/api/analyze-site/route.ts:96-159 | without a key the error is "ANTHROPIC_API_KEY non configurée"; a non-2xx reply gives "Claude API error: <status>"; a result exists exactly when the key is set, the reply is 2xx and readable and its unfenced text parses, and it is that parse |
| AnalyzeSite.RowFor | app/api/analyze-site/route.ts:163-172 | each stored row holds the brand and prompt, format "9:16" and type "photo" when those are empty, angle and concept as null when empty, status "pending" and no image |
| AnalyzeSite.RowsFor | app/api/analyze-site/route.ts:162-172 | one row per generated prompt, in the answer's order |
| AnalyzeSite.ExistingCount | app/api/analyze-site/route.ts:189-201 | a failed count query or a missing count counts as 0; otherwise the count is returned |
| AnalyzeSite.Post | app/api/analyze-site/route.ts:203-254 | without an address nothing is fetched or stored; the fetched address is the normalised one; a page error, a model error or a refused insert ("Erreur insertion Supabase: " and its message) is the failure reply; otherwise the reply carries the model's answer and the inserted rows, one per prompt, with the override brand when given and the analysed name otherwise, and the total is the existing count plus the rows added; an unreadable body fails with its error |
| AnalyzeSite.StoredRowsArePending | app/api/analyze-site/route.ts:162-185 | every row the route inserts is pending, has no image and carries the reply's brand |
| AnalyzeSite.TagBecomesSpace | app/api/analyze-site/route.ts:77 | the first tag of a text is replaced by one space, the text before it kept and the rest stripped in turn |
| AnalyzeSite.StripTagsKeeps | app/api/analyze-site/route.ts:77 | a character other than '<' is kept as it is, ahead of the rest stripped |
| AnalyzeSite.TagAtStart | app/api/analyze-site/route.ts:77 | a text that opens with a tag loses the whole tag for one space |
| Gallery.KeepSlugChars | app/api/gallery/route.ts:90 | exactly the ASCII letters and digits, the listed accented letters, whitespace and '-' survive, as the order-keeping filter of the text by that character class |
| Gallery.SlugText | app/api/gallery/route.ts:88-91 | the kept, trimmed text of the prompt's first 60 characters holds no '_' or '.' and neither starts nor ends with whitespace |
| Gallery.Slug | app/api/gallery/route.ts:88-92 | the slug that goes into the file name holds no whitespace |
| Gallery.SlugReadsBack | app/api/gallery/route.ts:55 | reading each "__" of the slug back as a space gives the kept text with each whitespace run written as one space |
| Gallery.LastDot | app/api/gallery/route.ts:50 | finds the last '.' of a name, with no '.' after it, or reports that there is none |
| Gallery.StripExtension | app/api/gallery/route.ts:50 | removing the extension leaves a prefix of the name |
| Gallery.LastDotOf | app/api/gallery/route.ts:50 | in "base.ext" with a dot-free extension the last '.' is the one before the extension |
| Gallery.StripExtensionOf | app/api/gallery/route.ts:50 | removing the extension of "base.ext" gives "base" back |
| Gallery.ParseName | app/api/gallery/route.ts:50-55 | the name without its extension is split at '_'; the time is the first piece's number when it is a non-zero number and the current time otherwise; the media type is the second piece when present and non-empty and "image" otherwise, never empty and without '_'; the prompt is the pieces after the second joined by '_' with every "__" read as a space, or empty when there are none |
| Gallery.ReadParts | app/api/gallery/route.ts:51-55 | the same three readings for any non-empty list of pieces: the first piece's non-zero number or else the current time, the second piece when non-empty or else "image", and the join of the remaining pieces with "__" read as a space |
| Gallery.SplitFileName | app/api/gallery/route.ts:51-122 | a written name without its extension splits into the digits, the media type and the pieces of the slug |
| Gallery.NameParts | app/api/gallery/route.ts:50-122 | the pieces the listing sees for a written name are its time, its media type and the slug's pieces |
| Gallery.ReadWrittenParts | app/api/gallery/route.ts:52-55 | those pieces read back as the time, the media type and the slug with "__" read as a space |
| Gallery.ParseFileName | app/api/gallery/route.ts:50-122 | any non-zero time, media type without '_' and dot-free extension written into a name by the upload is read back by the listing |
| Gallery.NameRoundTrip | app/api/gallery/route.ts:50-122 | a stored name reads back as its time, its media type and the prompt's kept text with whitespace runs as single spaces |
| Gallery.DataMime | app/api/gallery/route.ts:100-102 | a type is found only in a "data:" address, and it is non-empty and holds no ';' |
| Gallery.DataMimeOfDataUrl | app/api/gallery/route.ts:100-102 | the type written into a base64 data URL is the type found in it |
| Gallery.Extension | app/api/gallery/route.ts:103-117 | the extension is "jpg" exactly for a JPEG type ("jpeg", or "jpg" where the alias is accepted), "mp4" exactly for another type naming "video", "webp" exactly for another naming "webp", "png" exactly for the rest; "mp4" goes with the type "video/mp4", every other extension keeps the content type |
| Gallery.Post | app/api/gallery/route.ts:74-151 | a missing data URL gives 400 and no upload; an address that is neither "data:" nor "http" gives 400 and no upload; a data URL without a comma is a library error; a data URL without its own type is uploaded as PNG, one with a type by that type; a fetched address is uploaded under the fetched content type, PNG by default, and a fetch error is the failure reply; the upload goes to "<client>/<time>_<type>[_<slug>].<ext>"; a refused store is the upload failure |
| Gallery.StoredFileListsBack | app/api/gallery/route.ts:50-122 | a file the upload stored is listed again with its upload time, its media type and its prompt's kept text |
| Gallery.StoredNameListsBack | app/api/gallery/route.ts:50-122 | the same for any of the four extensions the upload can choose |
| Gallery.Visible | app/api/gallery/route.ts:47 | the listing keeps exactly the names that do not start with '.', in order and with their repetitions |
| Gallery.List | app/api/gallery/route.ts:29-71 | a listing error is passed on; otherwise entry i is the i-th visible file, with its public address under the client's folder and the time, type and prompt read from its name |
| Gallery.Delete | app/api/gallery/route.ts:154-180 | a missing name gives 400 and removes nothing; otherwise at most the one path "<client>/<name>" is removed, and a storage error is the failure reply with nothing removed |
| Base.ClientId | app/api/gallery/route.ts:14-16 | the client folder is CLIENT_ID when set and non-empty, "default" otherwise, so never empty |
| Favorites.Shown | app/api/favorites/route.ts:60-66 | a listed favourite keeps its id, address and creation time, shows "" for a missing prompt, and its media type, which is "image" exactly when it has none |
| Favorites.Mine | app/api/favorites/route.ts:46-49 | exactly the rows of the given client are selected |
| Favorites.List | app/api/favorites/route.ts:41-72 | a missing table lists as empty and any other error is passed on; otherwise the listing is the client's rows, all of them and no others, newest first, each in its listed form |
| Favorites.ListOrder | app/api/favorites/route.ts:46-60 | the listing is read in an order that holds exactly the client's rows and is newest first |
| Favorites.ListedAreMine | app/api/favorites/route.ts:46-66 | every listed favourite is the listed form of one of this client's rows |
| Favorites.MineAreListed | app/api/favorites/route.ts:46-66 | every row of this client is listed |
| Favorites.ListedNewestFirst | app/api/favorites/route.ts:50 | listed timestamps never increase down the list |
| Favorites.FindDuplicate | app/api/favorites/route.ts:87-92 | the duplicate search finds a row of this client with this prompt, or reports that none exists |
| Favorites.NewFavorite | app/api/favorites/route.ts:98-105 | a new row holds the client, the address, the prompt ("" when missing) and the media type ("image" when absent) |
| Favorites.Add | app/api/favorites/route.ts:75-117 | without an address nothing changes; a prompt this client already filed gives back the earlier favourite's id as a duplicate, and only then; otherwise an accepted insert answers with the new id and the table gains exactly that favourite at its end, a refused insert answers with the store's error and leaves the table; an unreadable body is the thrown error with nothing changed |
| Favorites.FindDuplicateAppend | app/api/favorites/route.ts:87-92 | a row appended to the table is found by the duplicate search only when no earlier row matches |
| Favorites.AddTwiceIsDuplicate | app/api/favorites/route.ts:86-96 | sending the same favourite again returns the first one's id as a duplicate and stores nothing |
| Favorites.Remove | app/api/favorites/route.ts:120-156 | a missing id gives 400 and removes nothing; the table changes only when the delete succeeds, and then exactly the client's rows with that id, or all the client's rows for "all", are removed, the rest staying in order |
| Favorites.RemoveSparesOtherClients | app/api/favorites/route.ts:132-146 | other clients' favourites are untouched by any delete, "all" included |
| Favorites.RemoveTwiceIsOnce | app/api/favorites/route.ts:142-146 | deleting the same id twice removes no more than deleting it once |
| Prompts.TextOrNull | app/api/prompts/add/route.ts:41-43 | an empty or missing value is stored as null, any other as its text |
| Prompts.RowLimit | app/api/prompts/route.ts:16 | without a limit parameter the listing is capped at 500 rows |
| Prompts.Matching | app/api/prompts/route.ts:24-26 | exactly the rows with the requested status pass, or all rows when no status is given |
| Prompts.List | app/api/prompts/route.ts:12-46 | a database error is passed on; a limit the database refuses is an error; otherwise the reply is the first rows, no more than the limit, of a newest-first order of exactly the matching rows |
| Prompts.ListOrder | app/api/prompts/route.ts:18-26 | the listing is the limited prefix of a newest-first arrangement of the matching rows |
| Prompts.ListedMatch | app/api/prompts/route.ts:18-26 | every listed row is in the table and has the requested status, and the listing is newest first |
| Prompts.ListKeepsNewest | app/api/prompts/route.ts:21-22 | a matching row is left out only when the listing is full and every listed row is at least as new |
| Prompts.ListAllWhenRoom | app/api/prompts/route.ts:21-22 | when the matching rows fit within the limit every one of them is listed |
| Prompts.Updated | app/api/prompts/route.ts:52-60 | an update sets every supplied field and keeps every other field, the id and the creation time |
| Prompts.CountId | app/api/prompts/route.ts:61-63 | counts the rows with an id; none exactly when no row has it |
| Prompts.Patch | app/api/prompts/route.ts:49-72 | a missing id gives 400 and nothing changes; the update succeeds exactly when one row has that id, and otherwise the "not single" reply leaves the table; that row gets the supplied fields and is returned, and every other row stays as it was; a store failure or unreadable body is the failure reply |
| Prompts.OnlyOneId | app/api/prompts/route.ts:61-63 | when exactly one row has an id, it is the only one |
| Prompts.PatchTwiceIsOnce | app/api/prompts/route.ts:58-63 | applying the same update a second time changes nothing more |
| Prompts.SameIds | app/api/prompts/route.ts:60-61 | an update that keeps every row's id keeps the count of rows with any id |
| Prompts.Delete | app/api/prompts/route.ts:75-93 | a missing id gives 400 and nothing changes; with an id the delete succeeds exactly when the store reports no error, and then exactly the rows with that id go, the rest staying in order; a store error is the failure reply with the table unchanged |
| Prompts.NewFields | app/api/prompts/add/route.ts:27-45 | a new row holds the server's client id, the trimmed prompt, status "pending", format "9:16", type "photo" and brand "" when absent, and null for an empty angle, concept or product group |
| Prompts.Add | app/api/prompts/add/route.ts:19-58 | without CLIENT_ID nothing is stored and the reply is an error; a missing or blank prompt gives 400; the table changes only on success, and then gains exactly the new row at its end |
| Prompts.AddedIsListedPending | app/api/prompts/add/route.ts:35-45 | a prompt just added is listed by the pending listing when fewer than 500 prompts were pending |
| VeoPoll.First | app/api/veo-poll/route.ts:97-99 | the first entry of an optional list is found only in a present, non-empty list |
| VeoPoll.VideoUri | app/api/veo-poll/route.ts:96-99 | the video address is the official sample's when it is set, then the generated video's, then the older videos'; it is missing only when none of the three is set, and never empty |
| VeoPoll.Classify | app/api/veo-poll/route.ts:38-150 | a 429 is still pending; a 404 is the expired-operation error; any other non-2xx status is "Polling échoué: HTTP <status>"; thrown and unreadable replies are network errors; a finished operation's error reports its own message; a video is reported exactly when the operation finished cleanly, was not held back by the safety screen and has an address; pending exactly on 429 or an unfinished operation |
| VeoPoll.TruncRem | app/api/veo-poll/route.ts:26 | the remainder of JavaScript's `%` lies strictly between -n and n, equals the mathematical remainder for non-negative numbers and is never positive for negative ones |
| VeoPoll.Keys | app/api/veo-poll/route.ts:24 | splitting the key list always gives at least one key |
| VeoPoll.IndexedKey | app/api/veo-poll/route.ts:25-26 | without an index the first key is used; a non-negative index chooses the key at that index modulo the number of keys; an index that is not a number chooses no key |
| VeoPoll.KeyOfDecimal | app/api/veo-poll/route.ts:25-26 | a printed index j chooses the key at j modulo the number of keys |
| VeoPoll.IndexWraps | app/api/veo-poll/route.ts:25-26 | indices with the same remainder choose the same key, so a caller may keep counting without wrapping |
| VeoPoll.ModShift | app/api/veo-poll/route.ts:26 | adding a multiple of the number of keys to the index keeps its remainder |
| VeoPoll.Get | app/api/veo-poll/route.ts:15-151 | a missing operation gives 400; no key gives 500; otherwise the reply is the screened classification of the poll made with the chosen key |
| VeoPoll.GetLong | app/api/test-veo-long/route.ts:15-157 | a missing operation gives 400; an empty first key gives 500; otherwise the reply is the unscreened classification of the poll made with the first key |
| VeoPoll.RoutesAgree | app/api/test-veo-long/route.ts:23-24 | without a key index, and for an operation the safety filter did not flag, both routes give the same reply |
| VeoPoll.ScreenIrrelevant | app/api/veo-poll/route.ts:85-93 | for an operation the safety filter did not flag, the screen changes nothing |
| VeoPoll.ScreenRefusesFiltered | app/api/veo-poll/route.ts:85-93 | a flagged, cleanly finished operation is refused by veo-poll, while test-veo-long delivers its video when it has one |
| VeoPoll.FoundVideoIsDelivered | app/api/veo-poll/route.ts:111-145 | a video that is found is a success whatever happens to its download: the data URL when the download works, the address itself otherwise |
| VeoPoll.OfficialUriFirst | app/api/veo-poll/route.ts:96-99 | the official sample's address wins over the fallbacks whenever it is set |
| Base.Deliver | app/api/veo-poll/route.ts:112-145 | a downloaded 2xx video becomes "data:<type>;base64,<data>" with "video/mp4" when the type is missing; anything else gives back the address |
| VeoComplete.UrlKeys | app/api/veo-complete/route.ts:28-31 | the key of each row is its trimmed "URL Image" cell, in row order |
| VeoComplete.FindFrom | app/api/veo-complete/route.ts:28-31 | finds the first row from a position on whose key is the operation, or reports that none has it |
| VeoComplete.FindOperation | app/api/veo-complete/route.ts:28-31 | finds the first row whose trimmed "URL Image" is the operation name, or reports that no row holds it |
| VeoComplete.Completed | app/api/veo-complete/route.ts:38-39 | a completed row has status "généré" and the note "Téléchargée localement", and every other cell unchanged |
| VeoComplete.Post | app/api/veo-complete/route.ts:7-49 | a missing operation name gives 400; no sheet changes on an error, a missing name or a row not found; once the sheet is read, the result is that of completing the operation in it |
| VeoComplete.Complete | app/api/veo-complete/route.ts:28-43 | the reply is "not found" exactly when no row holds the operation; once found, the update is reported exactly when the save succeeds, and a failed save is the failure reply with the rows unchanged; only an update changes the sheet, and then only the first row holding it, which is completed |
| VeoComplete.CompletedKey | app/api/veo-complete/route.ts:39 | a completed row's key is the note itself |
| VeoComplete.NoRowHoldsAfterCompletion | app/api/veo-complete/route.ts:28-40 | after completing the only row holding an operation, no row holds it |
| VeoComplete.SecondCompletionChangesNothing | app/api/veo-complete/route.ts:33-36 | completing the same operation a second time is answered "not found" and changes nothing |
| Kling.ClaimsAt | app/api/kling-generate/route.ts:22-28 | the token is issued by the access key at the current second (the clock in milliseconds divided down), becomes valid five seconds earlier and expires thirty minutes later |
| Kling.GenerateJwt | app/api/kling-generate/route.ts:9-39 | token generation fails, with the "non configuré" message, exactly when either key is unset or empty; otherwise the token carries the claims of the current second and is header, payload and the secret's signature of `header.payload`, joined by dots |
| Kling.CompactSplits | app/api/kling-generate/route.ts:38 | a token whose three segments are base64url text splits on '.' back into exactly those three segments |
| Kling.InlineStep | app/api/kling-generate/route.ts:142-204 | a non-2xx or unreadable poll is skipped; a thrown poll ends the request with its message; a succeeded task with an address delivers that video, downloaded, with the task id; a failed task reports its status message or the default; any other readable task goes on polling |
| Kling.InlinePolls | app/api/kling-generate/route.ts:136-215 | at most five polls are made; the first verdict wins and every earlier poll gave none; without a verdict the task is handed to the client as pending after all five polls |
| Kling.Post | app/api/kling-generate/route.ts:44-224 | a missing prompt and then a missing image are refused with 400 before any token or request; a body or token error is a 500, and a valid body with a token always sends the start request; the start request carries the prompt and image unchanged and defaults to 5 seconds, 16:9 and pro; a thrown start crashes before any poll; the start answer is classified as unreadable (502), rate limited (429), refused (its own status and message) before any poll; an accepted start without task id is a 502, and with one the reply is that of the inline polls from the first; no more than five polls |
| Kling.SucceedWithoutVideoContinues | app/api/kling-generate/route.ts:163-204 | a succeeded task without a video address, missing or empty, gives no verdict and the loop keeps polling |
| Kling.NoVerdictHandsOver | app/api/kling-generate/route.ts:136-215 | when no poll from n on gives a verdict the task is handed over as pending after exactly the remaining polls |
| Kling.Get | app/api/kling-poll/route.ts:40-145 | a missing task id is a 400; a token error or thrown poll asks to poll again with its message; a 429 is pending; another non-2xx status is returned as is; an unreadable body is pending; a succeeded task with an address is that video, delivered; a succeeded task without one is the no-video reply, exactly; a failed task reports its message or the default; any other status is in progress and carries that status |
| Kling.InlineAndClientAgree | app/api/kling-generate/route.ts:160-202 | for a readable 2xx poll the inline loop delivers a video exactly when the client poll does, the same one, and reports a failed task exactly when the client poll does |
| Kling.ThrownErrorsAskToPollAgain | app/api/kling-poll/route.ts:137-144 | a thrown error in the client poll is never a hard failure: the reply asks the client to poll again |
| Kling.FinishedAtFirstPollDelivered | app/api/kling-generate/route.ts:142-204 | when the first poll reads a succeeded task with an address, the request ends after that one poll with the video delivered and the start's task id |
| CronRoute.Interpolate | app/api/cron/process-videos/route.ts:129 | a set variable is interpolated as itself (an unset one prints as "undefined") |
| CronRoute.PrivateKey | app/api/cron/process-videos/route.ts:138 | the private key is present, and non-empty, exactly when the variable is: the escaped line breaks are rewritten, never dropped |
| CronRoute.GeminiKey | app/api/cron/process-videos/route.ts:139 | the Veo key is present exactly when the key list is; it is the list's first comma-separated piece: a comma-free prefix that runs to the first comma or to the end of the list |
| CronRoute.FirstPieceIsPrefix | app/api/cron/process-videos/route.ts:139 | the first comma-separated piece is a prefix of the text that ends at the first separator or at the end, and is empty exactly when the text is empty or starts with the separator |
| CronRoute.FirstPieceUnique | app/api/cron/process-videos/route.ts:139 | the first piece is the only separator-free prefix that ends at a separator or at the end of the text, so the key the route sends is fixed |
| CronRoute.ConfigOkIff | app/api/cron/process-videos/route.ts:136-146 | the configuration passes exactly when the sheet id, account email, private key and key list are set and non-empty and the key list does not start with a comma |
| CronRoute.FirstUri | app/api/cron/process-videos/route.ts:100 | the video URI read from an operation is the first entry of its video list |
| CronRoute.CheckLoop | app/api/cron/process-videos/route.ts:70-115 | at most six status checks; every check before the last one made asked to go on; stopping before the sixth means the last check did not ask to go on; a URI is returned only from a done operation with a non-empty first URI |
| CronRoute.GenerateVeoVideo | app/api/cron/process-videos/route.ts:19-122 | the aspect ratio is the row's format when it is 16:9 or 9:16 and 9:16 otherwise; at most six checks; with a prompt and an OK, readable start answer the outcome is that of the check loop, and otherwise no URI and no check; a URI is never empty |
| CronRoute.NoVideoWhenNeverDone | app/api/cron/process-videos/route.ts:73-115 | when every remaining check asks to go on, the helper makes all of them and returns no video |
| CronRoute.FirstDoneCheckWins | app/api/cron/process-videos/route.ts:73-109 | the first check that reports a done operation with a URI ends the loop with that URI, after exactly that many checks |
| CronRoute.FirstWaiting | app/api/cron/process-videos/route.ts:161-177 | the processed row is the first whose lower-cased status is "en cours vidéo" and type is "video"; none is found exactly when no row waits |
| CronRoute.SaveRow | app/api/cron/process-videos/route.ts:183-223 | only the processed row can change; the route reports its own outcome exactly when the first save succeeds, and the row then holds the edit; when the first save is refused and the second accepted, the outcome is a save failure with the refusal's message and the row holds the edit with its status replaced by "erreur: " and the message's first 50 characters; when both saves are refused the route crashes with the second refusal and every row is as it was |
| CronRoute.Get | app/api/cron/process-videos/route.ts:124-232 | a wrong token is refused with nothing read; missing configuration is a 500; a failed load is reported; at most one video per request; only the first waiting row can change, and with no waiting row the sheet is untouched; once the row is saved, the reply is the helper's video when it has one and the failed generation otherwise; a reported video is non-empty and stored in that row with the "généré" status and the date |
| CronRoute.GenerationFailedMarksStatus | app/api/cron/process-videos/route.ts:200-211 | a run that ends without a video was authorised, configured and loaded, and its waiting row holds exactly the "erreur génération" status on top of its old cells |
| CronRoute.SaveFailureMarksError | app/api/cron/process-videos/route.ts:213-223 | a run that ends in a save failure was authorised, configured and loaded, and its waiting row holds "erreur: " and the first 50 characters of the error, on the row as it was or on the row with its new URL and date |
| CronRoute.CrashLeavesSheet | app/api/cron/process-videos/route.ts:225-231 | an error that escapes after the sheet was loaded leaves every row as it was |
| CronRoute.UnsetSecretAcceptsLiteral | app/api/cron/process-videos/route.ts:128-131 | with the secret unset the route accepts exactly the header "Bearer undefined" |
| CronRoute.OutcomeFollowsHelper | app/api/cron/process-videos/route.ts:183-211 | once the waiting row is saved, a video from the helper is the generated reply counting one processed row, and no video the failed generation counting none |
| CronWorker.Clip | app/api/cron/process-videos.py:42-47 | a row read from the range A:I keeps at most its first nine cells, and is unchanged when it has no more |
| CronWorker.ColumnLetter | app/api/cron/process-videos.py:91 | the column letter of a zero-based index is the capital letter that many places after 'A' |
| CronWorker.Find | app/api/cron/process-videos.py:58-62 | a header is found at its first position, and is missing exactly when it is not in the header row |
| CronWorker.ResolveColumns | app/api/cron/process-videos.py:57-65 | the columns resolve exactly when all five required headers are present, each at a position holding its name; otherwise the reported header is a required one that is missing |
| CronWorker.Scan | app/api/cron/process-videos.py:68-125 | at most one video, and only from the last row generated for; every earlier row ended without a video and without an escaped error; an error that escapes a row's `except` block ends the scan there; the sheet receives exactly the cells of the called rows, in the order of the calls |
| CronWorker.ScanCallsEligibleRows | app/api/cron/process-videos.py:70-79 | every generation call serves an eligible row of the scanned range, at that row's one-based sheet number, with its Prompt cell and its Format cell, or "9:16" when the row is too short to hold one |
| CronWorker.ScanRowsFrom | app/api/cron/process-videos.py:70 | the calls of a scan from data row i serve sheet rows from i + 2 on |
| CronWorker.ScanInSheetOrder | app/api/cron/process-videos.py:70-125 | rows are generated for in sheet order, each at most once |
| CronWorker.ScanWritesOnlyCalledRows | app/api/cron/process-videos.py:83-121 | every written cell lies in a row that was generated for |
| CronWorker.RowWrites | app/api/cron/process-videos.py:87-121 | a success writes "généré" to the status cell and then the URI to the URL cell; an exception writes "erreur: " and the first 50 characters of its message to the status cell; a generation without URI writes "erreur génération"; the status cell always comes first and the URL cell only after a success |
| CronWorker.TryError | app/api/cron/process-videos.py:83-121 | the error the `except` block receives is the generator's exception, or else the error of the first cell write the sheet refused; there is none exactly when every cell of the row was accepted |
| CronWorker.ProcessRow | app/api/cron/process-videos.py:83-121 | a row whose cells are all accepted receives exactly its intended cells and counts a video exactly on success; otherwise it counts no video and ends with the error marking, or the refused marking's error escapes; only the row's status and URL cells are written, at most two |
| CronWorker.CallFor | app/api/cron/process-videos.py:70-79 | the call for eligible data row i serves sheet row i + 2 with the row's Prompt cell, and its Format cell when the row holds one, "9:16" otherwise |
| CronWorker.ScanStep | app/api/cron/process-videos.py:70-125 | an ineligible row is skipped; an eligible row is generated for first, and the scan stops after it when it counts a video or lets an error escape, and otherwise goes on with the following rows |
| CronWorker.ScanTriesEveryEligibleRow | app/api/cron/process-videos.py:70-125 | the scan makes at most one call per eligible row, and exactly one when it ends with no video and no escaped error |
| CronWorker.CallWritesInCalledRows | app/api/cron/process-videos.py:83-121 | every cell written by the rows of a list of calls lies in one of those rows |
| CronWorker.CallWritesReliable | app/api/cron/process-videos.py:83-121 | when the sheet accepts every write, the rows of a list of calls receive exactly their intended cells, in order |
| CronWorker.ReliableSheetScan | app/api/cron/process-videos.py:70-125 | when the sheet accepts every write no error escapes, a video is counted exactly when the last call succeeded, and the sheet receives exactly the intended cells of the calls |
| CronWorker.Handler | app/api/cron/process-videos.py:9-140 | missing configuration is a 500 before any sheet access; a failed read is a 500 with its message; a sheet of at most one row answers 200 with no video; a missing required header answers 500 "Colonne manquante: '<header>' is not in list"; otherwise the writes and calls are those of the scan of the clipped data rows, and the reply is a 500 with the escaped error or a 200 counting the videos, at most one; nothing is written without a generation call |
| CronWorker.AspectRatio | app/api/cron/process-videos.py:155 | the aspect ratio is always 16:9 or 9:16, and equals the requested format exactly when that is one of the two |
| CronWorker.PollLoop | app/api/cron/process-videos.py:175-182 | at most six re-fetches, ten seconds apart; an operation still not done has used all of them; an operation already done is returned without a re-fetch |
| CronWorker.GenerateVeoVideo | app/api/cron/process-videos.py:143-205 | the requested aspect ratio is the supported one; at most six polls; every exception is caught, so the helper never raises; a URI is returned exactly when the submission returned and the last operation fetched is done with at least one video, and it is that operation's first video |
| CronWorker.ReadyVideoReturned | app/api/cron/process-videos.py:178-201 | an operation already done with a video at submission gives its first video without any poll |
| CronWorker.TimeoutAfterSixPolls | app/api/cron/process-videos.py:178-186 | an operation that never finishes within the wait budget gives no result after exactly six re-fetches |
| ImageJob.SheetLoop | app/api/generate/route.ts:5-38 | an error mentioning 503 is retried while attempts remain, after waits of 2 s, 4 s, … (attempt times 2000 ms); the rows returned are those of the last read; any other error, or a 503 on the last attempt, is rethrown with the "Erreur d'accès au Google Sheet" prefix |
| ImageJob.SheetFallbackUnreachable | app/api/generate/route.ts:37 | with at least one attempt the final "Échec après plusieurs tentatives" is never reached |
| ImageJob.ThreeUnavailable | app/api/generate/route.ts:21-33 | three 503 errors in a row make three reads with waits of 2 s and 4 s, then the prefixed error |
| ImageJob.FirstInline | app/api/generate/route.ts:194 | the image part is the first part carrying inline data, and none is found exactly when no part does |
| ImageJob.ImageData | app/api/generate/route.ts:188-198 | image data is found exactly when there is a first candidate whose first inline part has non-empty data |
| ImageJob.ImageOf | app/api/generate/route.ts:188-203 | a reply gives a picture exactly when it holds image data, and the picture is that data as a PNG data URL |
| ImageJob.Outcome | app/api/generate/route.ts:179-203 | a picture comes only from an OK, readable reply, and is a PNG data URL |
| ImageJob.NextKeyIsCounterMod | app/api/generate/route.ts:114-169 | moving to the next key, wrapping around, is the same as counting one more 429 and taking the key at that count modulo the number of keys |
| ImageJob.KeyAfter | app/api/generate/route.ts:167-169 | the key after a response is always one of the list |
| ImageJob.FinalOutcome | app/api/generate/route.ts:156-183 | on the last attempt a 503 and a 429 report their own messages; the outcome is a picture exactly when the response gives one |
| ImageJob.RotationLoop | app/api/generate/route.ts:109-213 | between one and five requests, each recorded with its key and the wait its response calls for (3 s times the attempt after a 503; 2 s after a 429 with several keys, 10 s plus 5 s per attempt with one key); every request before the last failed, and the result is the verdict on the last answer (its picture, or the overload, rate-limit or other error); an error is reported only once every attempt is spent |
| ImageJob.TraceBounds | app/api/generate/route.ts:109-114 | every request is sent with a key of the list, on consecutive attempts |
| ImageJob.Payload | app/api/generate/route.ts:64-78 | the inline payload is the second comma-separated piece when it is non-empty, and the whole URL otherwise |
| ImageJob.PayloadOfDataUrl | app/api/generate/route.ts:64 | for a base64 data URL the payload is the encoded data |
| ImageJob.BrandAssets | app/api/generate/route.ts:75-85 | the assets sent to the model are the order-keeping filter of the brand assets: all of them when the logo is requested, every one but the logos otherwise |
| ImageJob.BrandAssetsKeepAllWithLogo | app/api/generate/route.ts:76 | with the logo requested nothing is filtered out |
| ImageJob.HasLogoIffLogoSent | app/api/generate/route.ts:97 | the guidelines mention a logo exactly when a logo asset reaches the model |
| ImageJob.GenerateWithProductImage | app/api/generate/route.ts:40-219 | at most five requests; an error only after all five; the result is the verdict on the last answer, made with the key that request used; a returned picture is a PNG data URL |
| ImageJob.LeadingZeros | app/api/generate/route.ts:304 | the count of leading zeros covers exactly the run of '0' at the start |
| ImageJob.StripLeadingZeros | app/api/generate/route.ts:304 | the result is a suffix of the text, and no longer starts with a zero followed by a digit |
| ImageJob.CleanFormat | app/api/generate/route.ts:260-310 | the requested ratio is always a supported one; the cleaned cell is kept when it is supported |
| ImageJob.CleanFormatKeepsValid | app/api/generate/route.ts:300-310 | a supported ratio written as is comes through unchanged |
| ImageJob.CleanFormatDropsZero | app/api/generate/route.ts:304 | "09:16" asks for "9:16" |
| ImageJob.CleanFormatEmpty | app/api/generate/route.ts:260-310 | an empty or absent cell asks for the square format |
| ImageJob.OptionOn | app/api/generate/route.ts:264-268 | an option is on exactly when its trimmed, lower-cased cell, or the fallback for an empty cell, is "oui" |
| ImageJob.OptionDefaults | app/api/generate/route.ts:264-268 | without the option cells, text is on and the logo is off |
| ImageJob.FindGroup | app/api/generate/route.ts:275-279 | a group found has the requested name; none is found exactly when no group has it |
| ImageJob.AllUrls | app/api/generate/route.ts:287-289 | the flattened list holds every image of every group and nothing else |
| ImageJob.TotalImages | app/api/generate/route.ts:234 | the total is zero exactly when every group is empty |
| ImageJob.AllUrlsLength | app/api/generate/route.ts:234-289 | the flattened list has one entry per image |
| ImageJob.SelectImages | app/api/generate/route.ts:273-291 | a named group that exists gives its images; a named group that does not is refused with the list of available groups; no name gives every image |
| ImageJob.FirstPending | app/api/generate/route.ts:244-258 | the row processed is the first whose lower-cased status is not "généré"; none exactly when no row is pending |
| ImageJob.GenerateRow | app/api/generate/route.ts:258-349 | an unknown product is refused with the list of groups, no images and then a blank prompt give their replies, none of them reaching the model; a row with images and a prompt is sent as described for SendRow; a row is saved exactly for a generated picture, as the first pending row marked generated, and the remaining count is the other pending rows |
| ImageJob.Post | app/api/generate/route.ts:221-358 | an unreadable body fails; a missing key (500) and then no product image (400) are refused before any sheet read; a failed read fails and no pending row gives the nothing-pending reply; for the first pending row with images and a prompt the model gets that prompt, the payloads of the selected images and the cleaned format, and a picture it returns, once saved, is the reply; the saved row is the first pending one, marked "généré" with the local marker and the date; the brand assets sent are the kept ones |
| ImageJob.PostAnswersFirstPending | app/api/generate/route.ts:221-358 | once the key and images are present and the sheet is read with a pending row, the route's reply is the row-level one for the first pending row: unknown group, no images, empty prompt, a failed generation or save, or the generated picture |
| ImageJob.FirstPictureEndsGeneration | app/api/generate/route.ts:109-213 | a first answer carrying image data ends the loop at once: one request, and that picture is the result |
| ImageJob.GenerationRetriesOnlyFailures | app/api/generate/route.ts:109-213 | every answer before the last one the loop asks for failed: a key is retried or rotated only after a failure |
| ImageJob.TraceEarlierFailed | app/api/generate/route.ts:109-213 | in a recorded run of the retry loop, every request before the last was answered with an error |
| ImageJob.SendRow | app/api/generate/route.ts:299-349 | the model gets the row's prompt, the payloads of the selected images, the cleaned format, the row's text and logo options and the kept brand assets; a model error or a failed save is the failure reply; a picture that is saved is the reply with the prompt, and the row saved is the first pending one marked generated with the others counted as remaining |
| Workspace.AddLog | app/page.tsx:24-27 | the new line goes first, followed by the previous lines cut so that at most twenty remain |
| Workspace.AddLogs | app/page.tsx:24-27 | a log of at most twenty lines stays at most twenty lines whatever is logged |
| Workspace.LogKeepsLatest | app/page.tsx:24-27 | after any run of events the log is the newest events first, followed by the earlier log, cut to twenty lines |
| Workspace.Lookup | app/page.tsx:344 | a group is found exactly when a group has that name |
| Workspace.CreateGroup | app/page.tsx:339-352 | a name that is blank once trimmed is refused as blank, a name that is already a key or an inherited object property as taken; any other name, untrimmed, is appended with no images and the others are unchanged |
| Workspace.CreatedGroupIsNew | app/page.tsx:339-352 | a created group is the only one with its name and starts empty, and creating it again is refused as taken |
| Workspace.LookupLast | app/page.tsx:348 | a group appended under a new name is found with its images |
| Workspace.DeleteGroupImage | app/page.tsx:375-381 | only the named group changes and every group keeps its name; naming a group that does not exist fails |
| Workspace.WithoutImage | app/page.tsx:378 | the images kept are exactly those with another name |
| Workspace.DeleteImageIsComplete | app/page.tsx:375-381 | after the deletion the group holds exactly its images with another name, and deleting again changes nothing |
| Workspace.DeleteGroup | app/page.tsx:383-392 | once confirmed, the named group is gone and every other group stays; when dismissed nothing changes |
| Workspace.DeleteGroupKeepsOthers | app/page.tsx:383-392 | deleting one group leaves every other group's images as they were |
| Workspace.Share | app/page.tsx:251-255 | the share per group is the least count which, given to every group, reaches ten images |
| Workspace.StartGeneration | app/page.tsx:232-267 | with no product image at all nothing is sent; otherwise every group, in order, is cut to its first share of images |
| Workspace.CappedTotal | app/page.tsx:252-257 | capping sends at most the cap per group and never more than the groups hold |
| Workspace.CappedFits | app/page.tsx:252-257 | capping cuts nothing when every group already fits |
| Workspace.RequestBound | app/page.tsx:251-257 | the request is the capped groups; it holds fewer than ten images plus one per group, and never more than were uploaded |
| Workspace.ThreeGroupsSendTwelve | app/page.tsx:251-257 | three groups of four images each keep four, so twelve images, more than ten, are sent |
| Workspace.ZipName | app/page.tsx:514-516 | a video entry is named video-N.mp4 and any other image-N.png |
| Workspace.Payload | app/page.tsx:513 | an entry's data is present exactly when its URL has a comma |
| Workspace.PayloadOfDataUrl | app/page.tsx:513 | the data stored for a base64 data URL is its base64 text |
| Workspace.ZipEntries | app/page.tsx:511-517 | one entry per medium, in gallery order, named by its position and type, holding its payload |
| Workspace.ZipNamesDistinct | app/page.tsx:516 | no two entries of an archive share a name |
| Workspace.AddMedia | app/page.tsx:292-306 | a new medium goes first; the gallery is archived exactly when it reaches twenty, under the batch number the adding closure captured; a built archive empties the gallery and advances the batch counter, and a failed one leaves the twenty in place |
| Workspace.BatchesOfTwenty | app/page.tsx:116-130 | when every archive builds, additions come out in batches of exactly twenty: the gallery holds the remainder and the batch number counts the archives |
| Workspace.FailedBatchIsNotRetried | app/page.tsx:118 | once an archive fails the gallery holds twenty or more, so no later addition archives anything |
| Workspace.OnGenerated | app/page.tsx:269-323 | an unreadable reply fails with the parser's message; an error status fails with the reply's error or the fallback; an unsuccessful reply fails with its message; polling starts exactly for a successful reply with an operation and no media address; any other successful reply is a medium at the reply's address, stamped now, with the reply's prompt and its type or "image", and a medium comes only from a successful reply |
| Workspace.ProducedArchivedByType | app/page.tsx:283-288 | a produced medium is archived as a video exactly when the reply typed it "video" or its address is a video data URL |
| Workspace.PollOnce | app/page.tsx:96-151 | a stopped poll does nothing; a finished video becomes a video medium with the job's prompt exactly when the reply is successful, done and has an address; a failed request is retried after 15 s and a pending reply after 12 s |
| Workspace.PollContinuesIff | app/page.tsx:103-150 | polling goes on exactly while the request fails or the video is reported pending without being ready; a finished video is archived as a video |
| Workspace.RunArchivesShareName | app/page.tsx:205-219 | every archive made by one run of additions carries the name of the batch number its closure captured, however far the counter has moved |
| Workspace.FortyMediaTwoArchivesOneName | app/page.tsx:116-130 | forty media in one automatic run from batch 1 download two archives both named "meta-ads-batch-1.zip" while the counter reaches 3 |
| Workspace.InheritedNameRefused | app/page.tsx:344 | "constructor" and "toString" are refused as taken even with no group |
| PromptsTable.SafeFetch | app/components/PromptsTable.tsx:6-16 | never fails: the answer is ok exactly for a 2xx reply; data is missing exactly when the request failed or the reply is not JSON, with the connection message exactly for a failed request and the unexpected-reply message otherwise; JSON data is passed on unchanged |
| PromptsTable.BrandFor | app/components/PromptsTable.tsx:145-178 | new prompts take the brand of the first loaded prompt, or "Ma Marque" when none is loaded |
| PromptsTable.AddRequest | app/components/PromptsTable.tsx:139-151 | nothing is sent exactly when the prompt field is empty; otherwise every field of the form is sent with the brand added |
| PromptsTable.AfterAdd | app/components/PromptsTable.tsx:153-155 | an accepted add resets the whole form: empty prompt, angle, concept and group, format "9:16", type "photo"; a refused one keeps the form |
| PromptsTable.BlankPromptRefusedByServer | app/components/PromptsTable.tsx:140-143 | a prompt of spaces passes the form's guard and is refused by the server, leaving the table as it was |
| PromptsTable.AddedFromForm | app/components/PromptsTable.tsx:139-158 | a prompt added from the form is stored trimmed, with its brand, an empty angle stored as null, and shows as waiting |
| PromptsTable.TrimAll | app/components/PromptsTable.tsx:180 | every line is trimmed, one for one |
| PromptsTable.ImportLines | app/components/PromptsTable.tsx:180 | no imported line is empty |
| PromptsTable.ImportLineShape | app/components/PromptsTable.tsx:180 | every imported line is trimmed and holds no line break |
| PromptsTable.ImportLinesOfJoin | app/components/PromptsTable.tsx:180 | non-empty trimmed lines pasted one per line import back as exactly those lines |
| PromptsTable.EmptyTextImportsNothing | app/components/PromptsTable.tsx:180 | an empty paste has no line |
| PromptsTable.TrimmedLinesKept | app/components/PromptsTable.tsx:180 | trimming and dropping empty lines leaves non-empty trimmed lines alone |
| PromptsTable.ImportRequest | app/components/PromptsTable.tsx:189-197 | a line is sent as its prompt with the brand, the chosen format and type, empty angle and concept, and the chosen product group, or none exactly when none was chosen |
| PromptsTable.Successes | app/components/PromptsTable.tsx:182-205 | no more successes than answers |
| PromptsTable.Import | app/components/PromptsTable.tsx:171-215 | a blank paste sends nothing; otherwise one request per imported line, in order, and the successes and failures add up to the lines, the successes being the ok answers |
| PromptsTable.SendLines | app/components/PromptsTable.tsx:185-205 | one request per line, in order; successes plus failures equal the lines; the successes are the answers that are ok |
| PromptsTable.ImportedLineStored | app/components/PromptsTable.tsx:185-205 | every imported line the server accepts is stored as that exact line, pending, with a null angle |
| PromptsTable.StartEdit | app/components/PromptsTable.tsx:98-109 | an edit starts from the prompt's values, with a missing angle, concept or product group shown as empty text |
| PromptsTable.EditFields | app/components/PromptsTable.tsx:111-116 | a saved edit sends exactly the seven editable columns |
| PromptsTable.UnchangedEditOnlyFillsNulls | app/components/PromptsTable.tsx:98-116 | saving an untouched edit changes the row in one way only: a null angle, concept or product group becomes empty text |
| PromptsTable.Label | app/components/PromptsTable.tsx:400-410 | pending, generating and generated each have their own badge, and every other status shows as an error |
| FavoritesPanel.Toggle | app/components/FavoritesPanel.tsx:30-36 | the id leaves the selection if it was in it and joins otherwise; no other id changes |
| FavoritesPanel.ToggleTwice | app/components/FavoritesPanel.tsx:30-36 | toggling the same id twice gives the selection back |
| FavoritesPanel.Ids | app/components/FavoritesPanel.tsx:42 | the ids are exactly those of the favourites, and no more numerous |
| FavoritesPanel.IdsCount | app/components/FavoritesPanel.tsx:39-42 | with distinct ids there are as many ids as favourites |
| FavoritesPanel.SelectAll | app/components/FavoritesPanel.tsx:38-44 | when as many ids are selected as there are favourites the selection is cleared; otherwise every favourite is selected |
| FavoritesPanel.SelectAllTwice | app/components/FavoritesPanel.tsx:38-44 | with distinct ids, two presses from a partial selection select everything and then clear it |
| FavoritesPanel.RepeatedIdNeverClears | app/components/FavoritesPanel.tsx:38-44 | with a repeated id the selection never has as many ids as the list, so select-all never clears |
| FavoritesPanel.FewerIds | app/components/FavoritesPanel.tsx:39-42 | a repeated id makes the ids fewer than the favourites |
| FavoritesPanel.Selected | app/components/FavoritesPanel.tsx:47-98 | the selected favourites are exactly those whose id is selected, in list order |
| FavoritesPanel.SelectedAll | app/components/FavoritesPanel.tsx:47-98 | with every id selected the selection is the whole list in order |
| FavoritesPanel.ZipName | app/components/FavoritesPanel.tsx:58-60 | entries are named favori-N, with .mp4 for a video and .png otherwise |
| FavoritesPanel.ZipNamesDistinct | app/components/FavoritesPanel.tsx:60 | no two selected favourites get the same entry name |
| FavoritesPanel.ZipEntry | app/components/FavoritesPanel.tsx:62-75 | a data URL is stored inline as its base64 text; a remote file is stored when it could be fetched and left out exactly when it could not |
| FavoritesPanel.DownloadSelected | app/components/FavoritesPanel.tsx:46-95 | nothing is archived exactly when nothing is selected; otherwise the entries of the selection in order |
| FavoritesPanel.DataUrlsArchivedWhole | app/components/FavoritesPanel.tsx:56-65 | a selection of data URLs alone is archived whole, one entry per favourite named by position |
| FavoritesPanel.DataUrlEntryAt | app/components/FavoritesPanel.tsx:56-65 | the k-th favourite of a selection of data URLs becomes the archive's k-th entry, named by its position and holding its base64 text |
| FavoritesPanel.DataUrlHeadsArchive | app/components/FavoritesPanel.tsx:56-65 | a data URL at the head of the selection gives the archive's first entry, before the entries of the rest |
| FavoritesPanel.VariantsFor | app/components/FavoritesPanel.tsx:97-113 | nothing is sent exactly when nothing is selected; otherwise one source per selected favourite, in order, with its prompt and its type or "image" |
| FavoritesPanel.AfterVariants | app/components/FavoritesPanel.tsx:116-125 | a successful answer leaves select mode and clears the selection; any other outcome leaves the panel as it was |
| FavoritesPanel.SuccessLeavesNothingToSend | app/components/FavoritesPanel.tsx:118-122 | after a successful run neither a ZIP nor a variants request can start until favourites are selected again |
| FavoritesPanel.NothingSelected | app/components/FavoritesPanel.tsx:47-48 | an empty selection selects no favourite |
| FavoritesPanel.VariantsNeverSucceed | app/api/analyze-site/route.ts:203-210 | the variants request carries no `url`, so the site-analysis route it is posted to answers 400 without fetching or storing anything, and the panel keeps its selection |
| Base.OrElse | app/api/cron/process-videos/route.ts:162-163 | `value \|\| fallback` gives the value when it is present and non-empty, and the fallback otherwise |
| Decimal.NatToDecimal | app/api/gallery/route.ts:122 | a printed natural number is a non-empty run of digits without a leading zero |
| Decimal.IntToDecimal | app/api/kling-generate/route.ts:81 | a printed integer starts with a minus sign exactly when it is negative |
| Decimal.ParseIntOfIntToDecimal | app/api/kling-generate/route.ts:81 | parseInt reads any printed integer back as the same integer |
| Decimal.ParseInt | app/api/gallery/route.ts:52 | parseInt is NaN exactly when no digit follows the leading whitespace and optional sign; otherwise it is the value of the leading digit run, negated after a minus sign |
| Decimal.ParseIntOfDecimal | app/api/gallery/route.ts:52-122 | reading back a printed natural number gives the number |
| Decimal.DecimalInjective | app/api/gallery/route.ts:122 | distinct numbers print differently |
| Decimal.NumberedNamesDiffer | app/page.tsx:516 | names made of one prefix, a number and suffixes of one length are equal only for equal numbers |
| Text.TrimStart | app/api/prompts/route.ts:16 | the text after the leading whitespace, which no longer starts with whitespace |
| Text.TrimEnd | app/api/analyze-site/route.ts:151 | the text before the trailing whitespace, which no longer ends with whitespace |
| Text.Trim | app/api/prompts/add/route.ts:29-37 | trim keeps the middle slice of the text and cuts only whitespace, at both ends |
| Text.TrimOfTrimmed | app/api/generate/route.ts:260 | a text without surrounding whitespace is left alone by trim |
| Text.TrimIdempotent | app/api/prompts/add/route.ts:29-37 | trimming twice is trimming once |
| Text.TrimKeepsOut | app/components/PromptsTable.tsx:180 | trimming adds no character |
| Text.TrimEmptyIff | app/api/prompts/add/route.ts:29 | the trimmed text is empty exactly when the input is all whitespace |
| Text.Lower | app/api/cron/process-videos/route.ts:162-163 | lower-casing maps every character and keeps the length |
| Text.LowerIdempotent | app/api/generate/route.ts:246 | lower-casing twice is lower-casing once |
| Text.Take | app/api/cron/process-videos/route.ts:215 | the first n characters, or the whole text when shorter |
| Text.IndexOf | app/api/veo-poll/route.ts:24 | the first position of the character |
| Text.Split | app/api/veo-poll/route.ts:24 | splitting always gives at least one piece and no piece holds the separator |
| Text.SplitCons | app/api/generate/route.ts:64 | splitting peels off the text before the first separator |
| Text.JoinSplit | app/api/gallery/route.ts:51-55 | joining the pieces of a split with the separator gives the text back |
| Text.JoinCons | app/api/gallery/route.ts:55 | joining a piece in front of others puts the separator between them |
| Text.SplitJoin | app/api/gallery/route.ts:51-122 | splitting a join of separator-free pieces gives the pieces back |
| Text.ReplaceAll | app/api/cron/process-videos/route.ts:138 | a global replacement with a non-empty replacement is empty exactly when the text is |
| Text.ReplaceAllAbsent | app/api/cron/process-videos/route.ts:138 | a text without the pattern is left unchanged by a global replacement |
| Text.RemoveWithOptionalAbsent | app/api/analyze-site/route.ts:147-150 | a text without the fence marker is left unchanged by the fence removal |
| Text.CollapseRunsNoSpace | app/api/gallery/route.ts:91 | collapsing whitespace runs into a space-free replacement leaves no whitespace |
| Text.CollapseRunsToUnderscores | app/api/gallery/route.ts:88-91 | the slug's whitespace runs become "__" and no whitespace remains |
| Text.CollapseThenReplace | app/api/gallery/route.ts:55-91 | for a text without '_', collapsing runs into "__" and reading "__" back as a space is collapsing runs into single spaces |
| Tables.Filter | app/api/favorites/route.ts:49 | the records kept are exactly those of the table that pass, and no more numerous |
| Tables.FilterAppend | app/api/favorites/route.ts:49 | filtering distributes over concatenation, so kept records stay in order |
| Tables.FilterAll | app/api/favorites/route.ts:49 | a table whose every record passes is returned whole |
| Tables.FilterIdempotent | app/api/prompts/route.ts:25 | filtering twice with one condition removes nothing more |
| Tables.FilterSubsumed | app/api/favorites/route.ts:90-91 | filtering with a weaker condition first does not change what a stronger filter keeps |
| Tables.FilterSplits | app/api/prompts/route.ts:25 | every record is kept by exactly one of a filter and its negation |
| Tables.Insert | app/api/favorites/route.ts:50 | inserting into a descending table keeps it descending and adds exactly the record |
| Tables.SortDescending | app/api/favorites/route.ts:50 | ordering newest first yields a descending table with exactly the same records |
| Tables.DescendingCons | app/api/prompts/route.ts:21 | a record no older than the head keeps a table descending |
| Tables.Limit | app/api/prompts/route.ts:22 | the limit keeps a prefix of at most n records, exactly n when there are that many, and the whole table when it fits |
| Tables.LimitOfAppend | app/api/prompts/route.ts:22 | cutting the tail before putting records in front changes nothing once the whole is cut again |
| Tables.LimitKeepsNewest | app/api/prompts/route.ts:21-22 | a record left out of a descending table's limit is no newer than any record kept, and is left out only when the limit is full |
| Decimal.ParseIntOfNegative | app/api/gallery/route.ts:52 | parseInt reads "-" and a printed positive number back as its negation |
| Text.ReplaceAllFirst | app/api/cron/process-videos/route.ts:138 | a global replacement replaces the first occurrence, keeps what precedes it, and goes on with the rest |

## Left out

- Network and storage I/O: Google Sheets, the google-genai SDK, Supabase queries, `fetch`, `ensureBucket`/`ensureTable` and video downloads are oracles, because they are foreign services whose behaviour is only observable through their answers.
- Sleeps, `setTimeout`, `setInterval` and the clock: waits are returned as numbers and the current time is a parameter, because time has no meaning in a pure model.
- HMAC-SHA256 signing, base64 and base64url encoding, and `Buffer`: the Kling token is modelled as its claims plus a three-segment shape, because these are cryptographic and encoding primitives outside the system.
- The text of the language-model prompts and `JSON.parse` of the Claude and Gemini answers: the prompt text is fixed wording, and the parsed answer is an oracle.
- The lazy `[\s\S]*?` regexes that remove the script, style, nav and footer blocks of the fetched page: their combined effect is the oracle `removeBlocks`, and the later tag, space and entity replacements are modelled.
- `compressImage` and `app/components/ImageEditor.tsx`: canvas drawing and floating-point geometry.
- JSZip, blobs, downloads, localStorage, `confirm` dialogs and React rendering: the archive contents, the user's answers and the state updates are modelled, but not the browser plumbing.
- `app/components/SiteAnalyzer.tsx`: interface only, with cosmetic timers and labels.
- `app/api/test-veo/route.ts` and `app/api/test-veo-poll/route.ts`: diagnostic probes whose only behaviour is a live HTTP call.
- `app/api/stats/route.ts`, `app/layout.tsx` and `lib/supabase.ts`: a constant stub, a layout and client construction, with no logic.
- `toLocaleString`: the formatted date is a parameter, because locale data is outside the program.
- Overlapping cron invocations: two runs are concurrent and uncoordinated; the model describes one run.
- Unicode case folding: lower-casing covers ASCII and the Latin-1 upper-case letters, which is every letter the routes compare.
- `handleGroupImageUpload`, `clearAll`, `clearGeneratedImages`, `deleteAll`, `loadPrompts`, `loadStats` and `toggleAutoMode` on the client: they only copy server answers or files into React state, or reset it.
- The order of a JavaScript object's keys: a sheet header is a sequence of distinct names.
- The fresh JWT that kling-generate signs before each inline poll: every token carries the same claims up to the clock, which is a parameter.
- The `\n` unescaping of the private key in the Python worker: it only prepares credentials for the sheet service.
- `parseInt` with a `0x` prefix: no parameter the routes read is written in hexadecimal.
- Text.Take: counts Unicode scalar values (Dafny characters), while JavaScript's `substring` and `slice` count UTF-16 code units, so a text holding characters outside the Basic Multilingual Plane is cut later in the model than in the browser or the Node routes; Python's `[:50]` counts code points and agrees with the model.
- AnalyzeSite.CleanText: `slice(0, 15000)` is modelled by Text.Take, so it keeps 15000 characters rather than 15000 UTF-16 code units.
- Gallery.SlugText: `substring(0, 60)` is modelled by Text.Take, so it keeps 60 characters rather than 60 UTF-16 code units; when the prompt's first 60 characters hold characters outside the Basic Multilingual Plane, the model keeps more of the prompt than the route.
- CronRoute.SaveRow: the error text `substring(0, 50)` is modelled by Text.Take, so it keeps 50 characters rather than 50 UTF-16 code units.
- Prompts.Updated: a PATCH body that names `created_at` rewrites that column in the database; the model keeps the creation time, a number, apart from the text columns, so such a key lands among the other columns and `createdAt` stays as it was.
- Decimal.ParseInt: JavaScript's `parseInt` returns a double, which is exact only up to 2^53; the model reads every digit run exactly, so a file-name timestamp or key index of more than fifteen digits reads back differently in the routes than in the model.
- The `isGenerating` guard of `generateSingle` (a second click while a generation runs is ignored): the model describes one generation at a time and carries no busy flag.
- What JSZip stores for a data URL without a comma: `split(',')[1]` is then `undefined`, and the model records that entry's payload as `None` (Workspace.Payload, FavoritesPanel.ZipEntry) without saying what archive JSZip builds from it.
- JSON `null` against an absent field: a destructuring default such as `mediaType = 'image'` or `duration = 5` applies only to an absent field, while the model reads a request body's optional fields as present or absent, so a field sent as `null` is treated like an absent one.
- Workspace.CreateGroup: a name that is a canonical array index, such as "2", is placed by JavaScript before every other key in ascending numeric order, not after the existing groups; the model appends every new name, so the order in which such groups are listed and capped differs from the page's.
- ImageJob.SelectImages: a product named after an inherited object property, such as "constructor", passes the route's truthiness test and then throws on `.map`, which the route reports as a 500 error; the model treats the name as an unknown group, because the request body is modelled as its own keys only.

=== FILE: analyze_site.dfy ===
/** `POST /api/analyze-site` (app/api/analyze-site/route.ts): the text of a brand's
    site is sent to a language model, which answers with an analysis and a list of ad
    prompts; the prompts are stored as pending rows of the prompt library. */
module AnalyzeSite {
  import opened Base
  import opened Text
  import opened Decimal
  import Prompts

  // ------------------------------------------------------------------ the site text

  /** The address fetched: "https://" is put in front of anything not starting "http". */
  function NormalizeUrl(url: string): (r: string)
    ensures StartsWith(r, "http")
    ensures StartsWith(url, "http") ==> r == url
    ensures !StartsWith(url, "http") ==> r == "https://" + url
  {
    if StartsWith(url, "http") then url
    else
      assert ("https://" + url)[..4] == "http";
      "https://" + url
  }

  /** Normalising an address twice is normalising it once. */
  lemma NormalizeIdempotent(url: string)
    ensures NormalizeUrl(NormalizeUrl(url)) == NormalizeUrl(url)
  {
  }

  /** `s.replace(/<[^>]+>/g, ' ')`: every '<' followed by at least one character other
      than '>' and then a '>' is replaced, up to that '>', by one space. */
  function StripTags(s: string): (r: string)
    ensures |r| <= |s|
    // nothing is added but the spaces that stand for tags
    ensures forall c :: c in r ==> c in s || c == ' '
    decreases |s|
  {
    if s == [] then []
    else if s[0] == '<' && '>' in s[1..] && IndexOf(s[1..], '>') > 0 then
      " " + StripTags(s[1..][IndexOf(s[1..], '>') + 1..])
    else [s[0]] + StripTags(s[1..])
  }

  /** Text with no '<' holds no tag and is left alone. */
  lemma {:induction false} StripTagsPlain(s: string)
    requires '<' !in s
    ensures StripTags(s) == s
    decreases |s|
  {
    if s != [] {
      assert s[0] != '<';
      StripTagsPlain(s[1..]);
    }
  }

  /** A tag after text without '<' becomes one space, and the rest of the text is
      read on from after its '>'. */
  lemma {:induction false} TagBecomesSpace(a: string, tag: string, b: string)
    requires '<' !in a && tag != [] && '>' !in tag
    ensures StripTags(a + "<" + tag + ">" + b) == a + " " + StripTags(b)
    decreases |a|
  {
    if a == [] {
      assert a + "<" + tag + ">" + b == "<" + tag + ">" + b;
      TagAtStart(tag, b);
    } else {
      var rest := "<" + tag + ">" + b;
      assert a + "<" + tag + ">" + b == a + rest;
      assert a[1..] + "<" + tag + ">" + b == a[1..] + rest;
      assert a + rest == [a[0]] + (a[1..] + rest);
      assert a[0] != '<';
      StripTagsKeeps(a[0], a[1..] + rest);
      TagBecomesSpace(a[1..], tag, b);
      assert [a[0]] + (a[1..] + " " + StripTags(b)) == a + " " + StripTags(b);
    }
  }

  /** A character other than '<' is kept as it is. */
  lemma StripTagsKeeps(x: char, t: string)
    requires x != '<'
    ensures StripTags([x] + t) == [x] + StripTags(t)
  {
    assert ([x] + t)[1..] == t;
  }

  /** A text that starts with a tag loses it for one space. */
  lemma TagAtStart(tag: string, b: string)
    requires tag != [] && '>' !in tag
    ensures StripTags("<" + tag + ">" + b) == " " + StripTags(b)
  {
    var s := "<" + tag + ">" + b;
    var t := tag + ">" + b;
    assert s[0] == '<' && s[1..] == t;
    assert t[|tag|] == '>' && t[..|tag|] == tag;
    IndexOfAt(t, '>', |tag|);
    assert t[|tag| + 1..] == b;
  }

  /** The entities decoded, in the route's order: `&nbsp;`, `&amp;`, `&lt;`, `&gt;`,
      `&quot;`. */
  function DecodeEntities(s: string): string {
    ReplaceAll(ReplaceAll(ReplaceAll(ReplaceAll(ReplaceAll(s, "&nbsp;", " "), "&amp;", "&"), "&lt;", "<"), "&gt;", ">"), "&quot;", "\"")
  }

  /** Because `&amp;` is decoded before `&lt;`, a doubly encoded "&amp;lt;" ends as "<". */
  lemma AmpBeforeLt()
    ensures DecodeEntities("&amp;lt;") == "<"
  {
    assert ReplaceAll("&amp;lt;", "&nbsp;", " ") == "&amp;lt;";
    assert ReplaceAll("&amp;lt;", "&amp;", "&") == "&lt;";
    assert ReplaceAll("&lt;", "&lt;", "<") == "<";
  }

  const MaxSiteText: nat := 15000

  /** The page text the model receives, once script, style, nav and footer blocks are
      gone: tags become spaces, whitespace runs one space, entities are decoded, and the
      trimmed result is cut to 15000 characters. */
  function CleanText(html: string): (t: string)
    ensures |t| <= MaxSiteText
    ensures t == [] || !IsSpace(t[0])
    ensures var full := Trim(DecodeEntities(CollapseRuns(StripTags(html), " ")));
            && |t| <= |full| && t == full[..|t|] && (|full| <= MaxSiteText ==> t == full)
            && (|full| > MaxSiteText ==> |t| == MaxSiteText)
  {
    Take(Trim(DecodeEntities(CollapseRuns(StripTags(html), " "))), MaxSiteText)
  }

  const LoadPrefix: string := "Impossible de charger le site: "

  /** `fetchWebsite(url)`: `page` is the response to the normalised address (its status
      and text) or the error `fetch` throws; `removeBlocks` stands for the four
      block-removing replacements. */
  function FetchWebsite(page: Result<(nat, string)>, removeBlocks: string -> string): (r: Result<string>)
    ensures page.Err? ==> r == Err(LoadPrefix + page.error)
    ensures page.Ok? && !IsOk(page.value.0) ==> r == Err(LoadPrefix + "HTTP " + NatToDecimal(page.value.0))
    ensures r.Ok? ==> page.Ok? && IsOk(page.value.0) && |r.value| <= MaxSiteText
    // a page with a 2xx status gives its cleaned text
    ensures page.Ok? && IsOk(page.value.0) ==> r == Ok(CleanText(removeBlocks(page.value.1)))
  {
    match page
    case Err(m) => Err(LoadPrefix + m)
    case Ok((status, html)) =>
      if !IsOk(status) then Err(LoadPrefix + "HTTP " + NatToDecimal(status))
      else Ok(CleanText(removeBlocks(html)))
  }

  // ------------------------------------------------------------------ the model's answer

  /** The answer's text with the Markdown fences removed: every "```json" and then every
      "```", each with one following newline when present, then trimmed. */
  function StripFences(content: string): string {
    Trim(RemoveWithOptional(RemoveWithOptional(content, "```json", '\n'), "```", '\n'))
  }

  /** An answer without fences is only trimmed. */
  lemma UnfencedIsTrimmed(content: string)
    requires !Contains(content, "```")
    ensures StripFences(content) == Trim(content)
  {
    assert !Contains(content, "```json") by {
      forall i | 0 <= i <= |content| - 7 && OccursAt(content, "```json", i)
        ensures OccursAt(content, "```", i)
      {
        assert content[i..i + 3] == content[i..i + 7][..3];
      }
    }
    RemoveWithOptionalAbsent(content, "```json", '\n');
    RemoveWithOptionalAbsent(content, "```", '\n');
  }

  /** One prompt of the answer; `kind` is its `type`. */
  datatype PromptItem = PromptItem(prompt: string, angle: Option<string>, concept: Option<string>,
                                   kind: Option<string>, format: Option<string>)

  /** What the answer parses to; of the analysis only the brand name is used. */
  datatype Generated = Generated(brandName: string, prompts: seq<PromptItem>)

  const ApiKeyMissing: string := "ANTHROPIC_API_KEY non configurée"
  const EmptyAnswer: string := "Réponse Claude vide"
  const Unparsable: string := "Impossible de parser la réponse Claude"

  /** `callClaude(...)`: `reply` is the model's response (its first content block's text,
      if any) and `parse` stands for `JSON.parse` of the fence-stripped text. */
  function CallModel(apiKey: Option<string>, reply: Fetch<Option<string>>, parse: string -> Option<Generated>): (r: Result<Generated>)
    ensures !Truthy(apiKey) ==> r == Err(ApiKeyMissing)
    ensures Truthy(apiKey) && reply.Http? && !IsOk(reply.status) ==> r == Err("Claude API error: " + NatToDecimal(reply.status))
    ensures r.Ok? <==> Truthy(apiKey) && reply.Http? && IsOk(reply.status) && reply.body.Json?
                       && Truthy(reply.body.value) && parse(StripFences(reply.body.value.value)).Some?
    ensures r.Ok? ==> r.value == parse(StripFences(reply.body.value.value)).value
  {
    if !Truthy(apiKey) then Err(ApiKeyMissing)
    else match reply
      case Threw(m) => Err(m)
      case Http(status, body) =>
        if !IsOk(status) then Err("Claude API error: " + NatToDecimal(status))
        else match body
          case NotJson(e) => Err(e)
          case Json(content) =>
            if !Truthy(content) then Err(EmptyAnswer)
            else match parse(StripFences(content.value))
              case None => Err(Unparsable)
              case Some(g) => Ok(g)
  }

  // ------------------------------------------------------------------ storing the prompts

  /** The row stored for one prompt: format "9:16" and type "photo" when empty or absent,
      empty angle and concept as null, pending, without image. */
  function RowFor(p: PromptItem, brand: string): (f: Prompts.Fields)
    ensures "brand" in f && f["brand"] == Prompts.Text(brand)
    ensures "prompt" in f && f["prompt"] == Prompts.Text(p.prompt)
    ensures "format" in f && f["format"] == Prompts.Text(OrElse(p.format, "9:16"))
    ensures "type" in f && f["type"] == Prompts.Text(OrElse(p.kind, "photo"))
    ensures "angle" in f && f["angle"] == Prompts.TextOrNull(p.angle)
    ensures "concept" in f && f["concept"] == Prompts.TextOrNull(p.concept)
    ensures "status" in f && f["status"] == Prompts.Text(Prompts.Pending)
    ensures "image_url" in f && f["image_url"] == Prompts.Null
  {
    map["brand" := Prompts.Text(brand), "prompt" := Prompts.Text(p.prompt),
        "format" := Prompts.Text(OrElse(p.format, "9:16")), "type" := Prompts.Text(OrElse(p.kind, "photo")),
        "angle" := Prompts.TextOrNull(p.angle), "concept" := Prompts.TextOrNull(p.concept),
        "status" := Prompts.Text(Prompts.Pending), "image_url" := Prompts.Null]
  }

  /** `prompts.map(...)` in `addPromptsToSupabase`: one row per prompt, in order. */
  function RowsFor(prompts: seq<PromptItem>, brand: string): (rows: seq<Prompts.Fields>)
    ensures |rows| == |prompts|
    ensures forall i :: 0 <= i < |prompts| ==> rows[i] == RowFor(prompts[i], brand)
  {
    seq(|prompts|, i requires 0 <= i < |prompts| => RowFor(prompts[i], brand))
  }

  /** `countExistingPrompts(brand)`: the count, or 0 when the query fails or gives none. */
  function ExistingCount(count: Result<Option<nat>>): (n: nat)
    ensures count.Err? || count.value.None? ==> n == 0
    ensures count.Ok? && count.value.Some? ==> n == count.value.value
  {
    match count
    case Err(_) => 0
    case Ok(c) => c.GetOr(0)
  }

  // ------------------------------------------------------------------ POST

  datatype AnalyzeBody = AnalyzeBody(url: Option<string>, brandOverride: Option<string>)

  datatype Reply =
    | MissingUrl                 // 400
    | Failed(error: string)      // 500
    | Analyzed(generated: Generated, added: nat, totalForBrand: nat, brand: string)
  {
    function StatusCode(): nat {
      match this
      case MissingUrl => 400
      case Failed(_) => 500
      case Analyzed(_, _, _, _) => 200
    }
  }

  /** The reply, the address fetched (if any) and the rows inserted. */
  datatype Run = Run(reply: Reply, fetched: Option<string>, inserted: seq<Prompts.Fields>)

  /** `POST(request)`. The oracles: `site` answers a fetch of an address, `model` the
      model's reply for a site text and address, `count` the existing-prompt count of a
      brand, `insert` the database's refusal of a batch of rows, if any. */
  function Post(body: Result<AnalyzeBody>, apiKey: Option<string>,
                site: string -> Result<(nat, string)>, removeBlocks: string -> string,
                model: (string, string) -> Fetch<Option<string>>, parse: string -> Option<Generated>,
                count: string -> Result<Option<nat>>, insert: seq<Prompts.Fields> -> Option<string>): (run: Run)
    // no address, no fetch, nothing stored
    ensures body.Ok? && !Truthy(body.value.url) ==> run == Run(MissingUrl, None, [])
    ensures run.fetched.Some? ==> body.Ok? && Truthy(body.value.url) && run.fetched.value == NormalizeUrl(body.value.url.value)
    ensures !run.reply.Analyzed? ==> run.inserted == []
    ensures run.reply.Analyzed? ==>
              var g := run.reply.generated;
              && body.Ok? && Truthy(body.value.url) && run.fetched.Some?
              // the brand: the override when given, else the analysed name
              && run.reply.brand == (if Truthy(body.value.brandOverride) then body.value.brandOverride.value else g.brandName)
              // one pending row per generated prompt, all of them counted
              && run.inserted == RowsFor(g.prompts, run.reply.brand)
              && run.reply.added == |g.prompts|
              && run.reply.totalForBrand == ExistingCount(count(run.reply.brand)) + run.reply.added
              && insert(run.inserted).None?
    // with an address: it is fetched, and the route succeeds exactly when the page loads,
    // the model's answer parses and the rows are stored; each failure is reported
    ensures body.Ok? && Truthy(body.value.url) ==>
              var address := NormalizeUrl(body.value.url.value);
              var page := FetchWebsite(site(address), removeBlocks);
              && run.fetched == Some(address)
              && (page.Err? ==> run == Run(Failed(page.error), Some(address), []))
              && (page.Ok? ==>
                    var answer := CallModel(apiKey, model(page.value, body.value.url.value), parse);
                    && (answer.Err? ==> run == Run(Failed(answer.error), Some(address), []))
                    && (answer.Ok? ==>
                          var brand := OrElse(body.value.brandOverride, answer.value.brandName);
                          var rows := RowsFor(answer.value.prompts, brand);
                          && (insert(rows).Some? ==> run == Run(Failed("Erreur insertion Supabase: " + insert(rows).value), Some(address), []))
                          && (insert(rows).None? ==> run.reply.Analyzed? && run.reply.generated == answer.value && run.inserted == rows)))
    ensures body.Err? ==> run == Run(Failed(body.error), None, [])
  {
    match body
    case Err(m) => Run(Failed(m), None, [])
    case Ok(b) =>
      if !Truthy(b.url) then Run(MissingUrl, None, [])
      else
        var address := NormalizeUrl(b.url.value);
        match FetchWebsite(site(address), removeBlocks)
        case Err(m) => Run(Failed(m), Some(address), [])
        case Ok(text) =>
          match CallModel(apiKey, model(text, b.url.value), parse)
          case Err(m) => Run(Failed(m), Some(address), [])
          case Ok(g) =>
            var brand := OrElse(b.brandOverride, g.brandName);
            var existing := ExistingCount(count(brand));
            var rows := RowsFor(g.prompts, brand);
            match insert(rows)
            case Some(m) => Run(Failed("Erreur insertion Supabase: " + m), Some(address), [])
            case None => Run(Analyzed(g, |rows|, existing + |rows|, brand), Some(address), rows)
  }

  /** Every stored row is a pending prompt of the reply's brand, without image. */
  lemma StoredRowsArePending(body: Result<AnalyzeBody>, apiKey: Option<string>,
                             site: string -> Result<(nat, string)>, removeBlocks: string -> string,
                             model: (string, string) -> Fetch<Option<string>>, parse: string -> Option<Generated>,
                             count: string -> Result<Option<nat>>, insert: seq<Prompts.Fields> -> Option<string>)
    ensures var run := Post(body, apiKey, site, removeBlocks, model, parse, count, insert);
            forall f :: f in run.inserted ==>
              && f["status"] == Prompts.Text(Prompts.Pending) && f["image_url"] == Prompts.Null
              && f["brand"] == Prompts.Text(run.reply.brand)
  {
    var run := Post(body, apiKey, site, removeBlocks, model, parse, count, insert);
    forall f | f in run.inserted
      ensures && f["status"] == Prompts.Text(Prompts.Pending) && f["image_url"] == Prompts.Null
              && f["brand"] == Prompts.Text(run.reply.brand)
    {
      var i :| 0 <= i < |run.inserted| && run.inserted[i] == f;
    }
  }
}

=== FILE: base.dfy ===
/** Shared vocabulary: optional values and the abstract shape of an HTTP exchange.
    Every network call of the system is replaced by a value of `Fetch<T>`, supplied
    by the caller of the model as an oracle. */
module Base {

  datatype Option<+T> = None | Some(value: T) {
    function GetOr(default: T): T {
      match this
      case Some(v) => v
      case None => default
    }
  }

  /** A value or the message of the error that was thrown instead. */
  datatype Result<+T> = Ok(value: T) | Err(error: string)

  /** The parsed body of a response: either JSON of the expected shape or text that
      `JSON.parse` / `response.json()` rejects (with the parser's error message). */
  datatype Body<+T> = NotJson(parseError: string) | Json(value: T)

  /** One `fetch`: it either throws (network failure) or yields a status and a body. */
  datatype Fetch<+T> = Threw(message: string) | Http(status: nat, body: Body<T>)

  /** `Response.ok`: the status is in the range 200-299. */
  predicate IsOk(status: nat) {
    200 <= status <= 299
  }

  /** JavaScript truthiness of an optional string: present and non-empty. */
  predicate Truthy(s: Option<string>) {
    s.Some? && s.value != ""
  }

  /** `s || fallback` for an optional string. */
  function OrElse(s: Option<string>, fallback: string): (r: string)
    ensures Truthy(s) ==> r == s.value
    ensures !Truthy(s) ==> r == fallback
  {
    if Truthy(s) then s.value else fallback
  }

  /** The tenant the storage routes act for: `CLIENT_ID`, or "default" when unset. */
  function ClientId(env: Option<string>): (id: string)
    ensures id != ""
    ensures Truthy(env) ==> id == env.value
    ensures !Truthy(env) ==> id == "default"
  {
    OrElse(env, "default")
  }

  /** A spreadsheet row as the `google-spreadsheet` library exposes it:
      cell text by header name; an absent key reads as `undefined`. */
  type SheetRow = map<string, string>

  function Cell(row: SheetRow, header: string): Option<string> {
    if header in row then Some(row[header]) else None
  }

  // The values of the sheet's "Statut" and "Type" columns that the jobs read and write.
  const DoneStatus: string := "généré"
  const PendingStatus: string := "en cours vidéo"
  const VideoType: string := "video"
  const EmptyStatus: string := "erreur génération"
  const ErrorPrefix: string := "erreur: "
  /** What the sheet shows in "URL Image" once the media has been kept on the client. */
  const LocalUrl: string := "Téléchargée localement"

  /** A media download: a thrown fetch, or a status with the `content-type` header and
      the base64 text of the body (the encoding itself is not modelled). */
  datatype Download = DownloadThrew | Downloaded(status: nat, contentType: Option<string>, base64: string)

  const DefaultMime: string := "video/mp4"

  /** `data:<mime>;base64,<payload>` (section 3 of RFC 2397). */
  function DataUrl(mime: string, base64: string): string {
    "data:" + mime + ";base64," + base64
  }

  /** What a route returns for a finished video: the downloaded video as a data URL
      (type `video/mp4` unless the server says otherwise), or the remote address itself
      when the download fails or throws. */
  function Deliver(uri: string, d: Download): (v: string)
    ensures d.Downloaded? && IsOk(d.status) ==> v == DataUrl(OrElse(d.contentType, DefaultMime), d.base64)
    ensures !(d.Downloaded? && IsOk(d.status)) ==> v == uri
  {
    match d
    case DownloadThrew => uri
    case Downloaded(status, contentType, base64) =>
      if IsOk(status) then DataUrl(OrElse(contentType, DefaultMime), base64) else uri
  }
}

=== FILE: cron_route.dfy ===
/** The TypeScript cron route `app/api/cron/process-videos/route.ts`: after checking
    the bearer token and the configuration it loads the sheet rows, keeps those whose
    status is "en cours vidéo" and whose type is "video", and processes only the
    first of them with one Veo generation (one start request, then at most six
    status checks). The outcome is written back to that row alone.

    The sheet, the Veo endpoints and row saves are oracles: `load` is what loading
    the rows produced, `start` and `check(k)` are the start response and the k-th
    status response, and `save(k)` is the error the k-th `row.save()` raised, if any. */
module CronRoute {
  import opened Base
  import opened Text
  import CronWorker

  /** The environment variables the route reads; an unset variable is `None`. */
  datatype Env = Env(cronSecret: Option<string>, sheetId: Option<string>, serviceEmail: Option<string>,
                     privateKey: Option<string>, apiKeys: Option<string>)

  /** A template-literal interpolation: an unset value prints as "undefined". */
  function Interpolate(v: Option<string>): (r: string)
    ensures v.Some? ==> r == v.value
  {
    match v
    case Some(s) => s
    case None => "undefined"
  }

  /** The header value the route accepts. */
  function ExpectedAuth(env: Env): string {
    "Bearer " + Interpolate(env.cronSecret)
  }

  /** The request passes the token check when its `authorization` header is exactly
      the expected text; a missing header (`null`) never equals a string. */
  predicate Authorized(header: Option<string>, env: Env) {
    header == Some(ExpectedAuth(env))
  }

  /** The private key with each two-character sequence backslash-n turned into a
      line break. */
  function PrivateKey(env: Env): (r: Option<string>)
    ensures r.Some? <==> env.privateKey.Some?
    ensures Truthy(r) <==> Truthy(env.privateKey)
  {
    match env.privateKey
    case None => None
    case Some(k) => Some(ReplaceAll(k, ['\\', 'n'], "\n"))
  }

  /** The first key of the comma-separated key list. */
  function GeminiKey(env: Env): (r: Option<string>)
    ensures r.Some? <==> env.apiKeys.Some?
    ensures r.Some? ==> ',' !in r.value && StartsWith(env.apiKeys.value, r.value)
    // the key runs up to the first comma, or to the end of a list without one
    ensures r.Some? ==> |r.value| == |env.apiKeys.value| || env.apiKeys.value[|r.value|] == ','
  {
    match env.apiKeys
    case None => None
    case Some(keys) =>
      var first := Split(keys, ',')[0];
      FirstPieceIsPrefix(keys, ',');
      Some(first)
  }

  lemma FirstPieceIsPrefix(s: string, sep: char)
    ensures StartsWith(s, Split(s, sep)[0])
    ensures Split(s, sep)[0] == "" <==> s == "" || s[0] == sep
    ensures |Split(s, sep)[0]| == |s| || s[|Split(s, sep)[0]|] == sep
  {
    if sep in s {
      var i := IndexOf(s, sep);
      assert Split(s, sep)[0] == s[..i];
    }
  }

  /** The first piece is the only separator-free prefix that ends at a separator or at
      the end of the text: the contract of `GeminiKey` fixes the key. */
  lemma FirstPieceUnique(s: string, sep: char, p: string)
    requires sep !in p && StartsWith(s, p)
    requires |p| == |s| || s[|p|] == sep
    ensures p == Split(s, sep)[0]
  {
    assert p == s[..|p|];
    if sep in s {
      var i := IndexOf(s, sep);
      assert Split(s, sep)[0] == s[..i];
      assert |p| == i;
    } else {
      assert Split(s, sep)[0] == s;
    }
  }

  predicate ConfigOk(env: Env) {
    Truthy(env.sheetId) && Truthy(env.serviceEmail) && Truthy(PrivateKey(env)) && Truthy(GeminiKey(env))
  }

  /** The configuration check in terms of the raw variables: the key list must be set,
      non-empty and must not start with a comma (its first key would be empty). */
  lemma ConfigOkIff(env: Env)
    ensures ConfigOk(env) <==>
              Truthy(env.sheetId) && Truthy(env.serviceEmail) && Truthy(env.privateKey)
              && Truthy(env.apiKeys) && env.apiKeys.value[0] != ','
  {
    if env.apiKeys.Some? {
      FirstPieceIsPrefix(env.apiKeys.value, ',');
    }
  }

  // ------------------------------------------------------------------ generateVeoVideo

  /** A status response as read: whether the operation is done and the `uri` of each
      entry of `response.videos` (empty when the response or its list is absent). */
  datatype VeoOp = VeoOp(done: bool, videoUris: seq<Option<string>>)

  /** `response?.videos?.[0]?.uri`. */
  function FirstUri(op: VeoOp): (u: Option<string>)
    ensures u.Some? ==> |op.videoUris| > 0 && op.videoUris[0] == u
  {
    if |op.videoUris| == 0 then None else op.videoUris[0]
  }

  const MaxChecks: nat := 6

  /** A status response after which the loop goes on: a non-OK status, or an OK JSON
      operation that is not done. */
  predicate Continues(f: Fetch<VeoOp>) {
    f.Http? && (!IsOk(f.status) || (f.body.Json? && !f.body.value.done))
  }

  /** A status response that ends the helper with a video URI. */
  predicate DoneWith(f: Fetch<VeoOp>, uri: string) {
    f.Http? && IsOk(f.status) && f.body.Json? && f.body.value.done
    && FirstUri(f.body.value) == Some(uri) && uri != ""
  }

  datatype VeoAttempt = VeoAttempt(uri: Option<string>, checks: nat)

  /** The status loop from check `attempt` on. A thrown fetch or an unparsable OK body
      ends the whole helper (its `catch` returns null). */
  function CheckLoop(attempt: nat, check: nat -> Fetch<VeoOp>): (r: VeoAttempt)
    requires attempt <= MaxChecks
    decreases MaxChecks - attempt
    ensures r.checks <= MaxChecks - attempt
    ensures forall k :: attempt <= k < attempt + r.checks - 1 ==> Continues(check(k))
    ensures r.checks < MaxChecks - attempt ==> r.checks > 0 && !Continues(check(attempt + r.checks - 1))
    ensures r.uri.Some? ==> r.checks > 0 && DoneWith(check(attempt + r.checks - 1), r.uri.value)
  {
    if attempt == MaxChecks then VeoAttempt(None, 0)
    else
      var f := check(attempt);
      if Continues(f) then
        var rest := CheckLoop(attempt + 1, check);
        VeoAttempt(rest.uri, rest.checks + 1)
      else if f.Http? && IsOk(f.status) && f.body.Json? && Truthy(FirstUri(f.body.value)) then
        VeoAttempt(FirstUri(f.body.value), 1)
      else VeoAttempt(None, 1)
  }

  /** `generateVeoVideo(apiKey, prompt, format)`: the aspect ratio it requests, the URI
      it returns (`None` for null) and the number of status checks it made. An absent
      prompt makes the logging before the first request throw, so nothing is sent. */
  function GenerateVeoVideo(prompt: Option<string>, format: string, start: Fetch<string>,
                            check: nat -> Fetch<VeoOp>): (r: (string, VeoAttempt))
    ensures r.0 == CronWorker.AspectRatio(format)
    ensures r.1.checks <= MaxChecks
    ensures r.1.uri.Some? ==> prompt.Some? && r.1.uri.value != ""
    ensures r.1.uri.Some? ==> start.Http? && IsOk(start.status) && start.body.Json?
    // a prompt and an accepted start hand over to the status loop; anything else gives
    // no video and no check
    ensures prompt.Some? && start.Http? && IsOk(start.status) && start.body.Json? ==> r.1 == CheckLoop(0, check)
    ensures !(prompt.Some? && start.Http? && IsOk(start.status) && start.body.Json?) ==> r.1 == VeoAttempt(None, 0)
  {
    var aspect := CronWorker.AspectRatio(format);
    if prompt.None? then (aspect, VeoAttempt(None, 0))
    else match start
      case Threw(_) => (aspect, VeoAttempt(None, 0))
      case Http(status, body) =>
        if !IsOk(status) || body.NotJson? then (aspect, VeoAttempt(None, 0))
        else (aspect, CheckLoop(0, check))
  }

  /** Six status checks that each say "go on" give no video. */
  lemma {:induction false} NoVideoWhenNeverDone(attempt: nat, check: nat -> Fetch<VeoOp>)
    requires attempt <= MaxChecks
    requires forall k :: attempt <= k < MaxChecks ==> Continues(check(k))
    decreases MaxChecks - attempt
    ensures CheckLoop(attempt, check) == VeoAttempt(None, MaxChecks - attempt)
  {
    if attempt < MaxChecks {
      NoVideoWhenNeverDone(attempt + 1, check);
    }
  }

  /** The first check that reports a done operation with a URI is the helper's result. */
  lemma {:induction false} FirstDoneCheckWins(attempt: nat, done: nat, uri: string, check: nat -> Fetch<VeoOp>)
    requires attempt <= done < MaxChecks
    requires forall k :: attempt <= k < done ==> Continues(check(k))
    requires DoneWith(check(done), uri)
    decreases done - attempt
    ensures CheckLoop(attempt, check) == VeoAttempt(Some(uri), done - attempt + 1)
  {
    if attempt < done {
      FirstDoneCheckWins(attempt + 1, done, uri, check);
    }
  }

  // ------------------------------------------------------------------ GET

  datatype Load = LoadFailed(message: string) | Loaded(rows: seq<SheetRow>)

  datatype Outcome =
    | Unauthorized
    | ConfigMissing
    | NoneWaiting
    | Generated(videoUri: string)
    | GenerationFailed
    | SaveFailed(message: string)   // the inner catch, after a failed save
    | Crashed(message: string)      // the outer catch
  {
    function StatusCode(): nat {
      match this
      case Unauthorized => 401
      case ConfigMissing | SaveFailed(_) | Crashed(_) => 500
      case _ => 200
    }

    /** The `processed` field of the reply, when it has one. */
    function Processed(): Option<nat> {
      match this
      case NoneWaiting | GenerationFailed | SaveFailed(_) => Some(0)
      case Generated(_) => Some(1)
      case _ => None
    }
  }

  /** The sheet after the request and what the request answered. */
  datatype RouteRun = RouteRun(outcome: Outcome, rows: seq<SheetRow>)


  /** A row of the video queue: lower-cased status and type (absent cells read as ""). */
  predicate Waiting(row: SheetRow) {
    Lower(OrElse(Cell(row, "Statut"), "")) == PendingStatus
    && Lower(OrElse(Cell(row, "Type"), "")) == VideoType
  }

  /** The position of the first waiting row. */
  function FirstWaiting(rows: seq<SheetRow>): (r: Option<nat>)
    ensures r.Some? ==> r.value < |rows| && Waiting(rows[r.value])
                        && forall j :: 0 <= j < r.value ==> !Waiting(rows[j])
    ensures r.None? ==> forall j :: 0 <= j < |rows| ==> !Waiting(rows[j])
  {
    if |rows| == 0 then None
    else if Waiting(rows[0]) then Some(0)
    else match FirstWaiting(rows[1..])
      case None => None
      case Some(j) => Some(j + 1)
  }

  /** Saving `edited` as row `k`: the first save may fail, in which case the status is
      replaced by the error and saved again; a second failure escapes to the outer
      handler and nothing is stored. */
  function SaveRow(rows: seq<SheetRow>, k: nat, edited: SheetRow, ok: Outcome,
                   save: nat -> Option<string>): (r: RouteRun)
    requires k < |rows| && (ok.Generated? || ok == GenerationFailed)
    ensures |r.rows| == |rows|
    ensures forall j :: 0 <= j < |rows| && j != k ==> r.rows[j] == rows[j]
    ensures r.outcome == ok <==> save(0).None?
    ensures save(0).None? ==> r.rows[k] == edited
    // a refused save marks the edited row's status with the error and saves it again
    ensures save(0).Some? && save(1).None? ==>
              r.outcome == SaveFailed(save(0).value) && r.rows[k] == edited["Statut" := ErrorPrefix + Take(save(0).value, 50)]
    // a second refusal escapes to the outer handler, and the sheet keeps the row it had
    ensures save(0).Some? && save(1).Some? ==> r == RouteRun(Crashed(save(1).value), rows)
  {
    match save(0)
    case None => RouteRun(ok, rows[k := edited])
    case Some(m) =>
      var marked := edited["Statut" := ErrorPrefix + Take(m, 50)];
      match save(1)
      case None => RouteRun(SaveFailed(m), rows[k := marked])
      case Some(m2) => RouteRun(Crashed(m2), rows)
  }

  /** `GET(request)`; `now` is the French-locale date text the row receives. */
  function Get(header: Option<string>, env: Env, load: Load, start: Fetch<string>,
               check: nat -> Fetch<VeoOp>, save: nat -> Option<string>, now: string): (run: RouteRun)
    // nothing is read or written for a request without the token or without configuration
    ensures !Authorized(header, env) ==> run.outcome == Unauthorized
    ensures Authorized(header, env) && !ConfigOk(env) ==> run.outcome == ConfigMissing
    ensures load.LoadFailed? && Authorized(header, env) && ConfigOk(env) ==> run.outcome == Crashed(load.message)
    // at most one video per request
    ensures run.outcome.Processed().Some? ==> run.outcome.Processed().value <= 1
    // only the first waiting row can change; with no waiting row the sheet is untouched
    ensures load.Loaded? && Authorized(header, env) && ConfigOk(env) ==>
              && |run.rows| == |load.rows|
              && (forall j :: 0 <= j < |load.rows| && Some(j) != FirstWaiting(load.rows) ==> run.rows[j] == load.rows[j])
              && (FirstWaiting(load.rows).None? ==> run == RouteRun(NoneWaiting, load.rows))
    // a reported video was made for the first waiting row and is stored in it
    ensures run.outcome.Generated? ==>
              && load.Loaded? && FirstWaiting(load.rows).Some?
              && run.outcome.videoUri != ""
              && var k := FirstWaiting(load.rows).value;
                 run.rows[k] == load.rows[k]["Statut" := DoneStatus]["URL Image" := run.outcome.videoUri]["Date génération" := now]
    // once the row is saved, the outcome is what the helper returned for it
    ensures Worked(header, env, load) && save(0).None? ==>
              var video := HelperVideo(load.rows[FirstWaiting(load.rows).value], start, check);
              && (video.Some? ==> run.outcome == Generated(video.value))
              && (video.None? ==> run.outcome == GenerationFailed)
  {
    if !Authorized(header, env) then RouteRun(Unauthorized, [])
    else if !ConfigOk(env) then RouteRun(ConfigMissing, [])
    else match load
      case LoadFailed(m) => RouteRun(Crashed(m), [])
      case Loaded(rows) =>
        match FirstWaiting(rows)
        case None => RouteRun(NoneWaiting, rows)
        case Some(k) =>
          var row := rows[k];
          var (_, attempt) := GenerateVeoVideo(Cell(row, "Prompt"), OrElse(Cell(row, "Format"), "9:16"), start, check);
          match attempt.uri
          case Some(uri) =>
            var edited := row["Statut" := DoneStatus]["URL Image" := uri]["Date génération" := now];
            SaveRow(rows, k, edited, Generated(uri), save)
          case None =>
            SaveRow(rows, k, row["Statut" := EmptyStatus], GenerationFailed, save)
  }

  /** The row a run works on, when the sheet was read and a row waits. */
  predicate Worked(header: Option<string>, env: Env, load: Load) {
    Authorized(header, env) && ConfigOk(env) && load.Loaded? && FirstWaiting(load.rows).Some?
  }

  /** The video the helper returns for the waiting row. */
  function HelperVideo(row: SheetRow, start: Fetch<string>, check: nat -> Fetch<VeoOp>): Option<string> {
    GenerateVeoVideo(Cell(row, "Prompt"), OrElse(Cell(row, "Format"), "9:16"), start, check).1.uri
  }

  /** Once the row is saved, the route reports what the helper returned: the video as
      generated, or the failed generation. */
  lemma OutcomeFollowsHelper(header: Option<string>, env: Env, load: Load, start: Fetch<string>,
                             check: nat -> Fetch<VeoOp>, save: nat -> Option<string>, now: string)
    requires Worked(header, env, load) && save(0).None?
    ensures var video := HelperVideo(load.rows[FirstWaiting(load.rows).value], start, check);
            var run := Get(header, env, load, start, check, save, now);
            && (video.Some? ==> run.outcome == Generated(video.value) && run.outcome.Processed() == Some(1))
            && (video.None? ==> run.outcome == GenerationFailed && run.outcome.Processed() == Some(0))
  {
  }

  /** A failed generation marks only the status of the waiting row: its URL and date
      keep their cells. */
  lemma GenerationFailedMarksStatus(header: Option<string>, env: Env, load: Load, start: Fetch<string>,
                                    check: nat -> Fetch<VeoOp>, save: nat -> Option<string>, now: string)
    requires Get(header, env, load, start, check, save, now).outcome == GenerationFailed
    ensures Worked(header, env, load)
    ensures var k := FirstWaiting(load.rows).value;
            Get(header, env, load, start, check, save, now).rows[k] == load.rows[k]["Statut" := EmptyStatus]
  {
  }

  /** After a refused save the waiting row's status holds "erreur: " and the first 50
      characters of the error: on the row as it was, or on the row with its video's URL
      and date when a video was being saved. */
  lemma SaveFailureMarksError(header: Option<string>, env: Env, load: Load, start: Fetch<string>,
                              check: nat -> Fetch<VeoOp>, save: nat -> Option<string>, now: string)
    requires Get(header, env, load, start, check, save, now).outcome.SaveFailed?
    ensures Worked(header, env, load)
    ensures var run := Get(header, env, load, start, check, save, now);
            var k := FirstWaiting(load.rows).value;
            var mark := ErrorPrefix + Take(run.outcome.message, 50);
            || run.rows[k] == load.rows[k]["Statut" := mark]
            || (&& "URL Image" in run.rows[k]
                && run.rows[k] == load.rows[k]["URL Image" := run.rows[k]["URL Image"]]["Date génération" := now]["Statut" := mark])
  {
    var rows := load.rows;
    var k := FirstWaiting(rows).value;
    var row := rows[k];
    var (_, attempt) := GenerateVeoVideo(Cell(row, "Prompt"), OrElse(Cell(row, "Format"), "9:16"), start, check);
    var m := save(0).value;
    var mark := ErrorPrefix + Take(m, 50);
    match attempt.uri
    case Some(uri) =>
      var edited := row["Statut" := DoneStatus]["URL Image" := uri]["Date génération" := now];
      assert Get(header, env, load, start, check, save, now) == SaveRow(rows, k, edited, Generated(uri), save);
      MarkAfterEdit(row, uri, now, mark);
    case None =>
      assert Get(header, env, load, start, check, save, now) == SaveRow(rows, k, row["Statut" := EmptyStatus], GenerationFailed, save);
      assert row["Statut" := EmptyStatus]["Statut" := mark] == row["Statut" := mark];
  }

  /** Marking the status of a row edited for a video keeps the video's URL and date. */
  lemma MarkAfterEdit(row: SheetRow, uri: string, now: string, mark: string)
    ensures var marked := row["Statut" := DoneStatus]["URL Image" := uri]["Date génération" := now]["Statut" := mark];
            "URL Image" in marked && marked["URL Image"] == uri
            && marked == row["URL Image" := uri]["Date génération" := now]["Statut" := mark]
  {
  }

  /** An error that escapes after the sheet was read leaves every row as it was. */
  lemma CrashLeavesSheet(header: Option<string>, env: Env, load: Load, start: Fetch<string>,
                         check: nat -> Fetch<VeoOp>, save: nat -> Option<string>, now: string)
    requires Get(header, env, load, start, check, save, now).outcome.Crashed? && load.Loaded?
    ensures Get(header, env, load, start, check, save, now).rows == load.rows
  {
  }

  /** With `CRON_SECRET` unset, the expected header is the literal "Bearer undefined". */
  lemma UnsetSecretAcceptsLiteral(env: Env)
    requires env.cronSecret.None?
    ensures Authorized(Some("Bearer undefined"), env)
    ensures forall h :: Authorized(h, env) <==> h == Some("Bearer undefined")
  {
    assert Interpolate(env.cronSecret) == "undefined";
    assert ExpectedAuth(env) == "Bearer undefined";
  }
}

=== FILE: cron_worker.dfy ===
/** The Python cron worker `app/api/cron/process-videos.py`: it reads the sheet,
    resolves the five required columns by header, scans the data rows top to bottom
    for rows whose status is "en cours vidéo" and whose type is "video", asks the
    video generator for each such row, and writes a terminal status (and, on
    success, the video URI) back into that row. The scan stops after the first
    successful generation; failed rows do not stop it.

    The spreadsheet API and the generator are oracles: `SheetRead` is what the
    range read returned and `gen(n, prompt, format)` is the outcome of the
    generation call made for sheet row n. */
module CronWorker {
  import opened Base
  import opened Text
  import opened Decimal

  type Row = seq<string>

  /** What one generation call produced, as the scanner sees it. A URI that is
      empty is falsy in Python and is handled like `Empty`. */
  datatype GenOutcome = Success(uri: string) | Empty | Raised(message: string)

  predicate Succeeded(o: GenOutcome) {
    o.Success? && o.uri != ""
  }

  /** The four environment values; an unset variable reads as "". */
  datatype Config = Config(sheetId: string, serviceEmail: string, privateKey: string, apiKey: string)

  predicate Configured(c: Config) {
    c.sheetId != "" && c.serviceEmail != "" && c.privateKey != "" && c.apiKey != ""
  }

  /** The result of `sheet.values().get(range='Sheet1!A:I')`. */
  datatype SheetRead = ReadFailed(message: string) | Rows(rows: seq<Row>)

  /** Zero-based positions of the five required columns. */
  datatype Columns = Columns(prompt: nat, status: nat, format: nat, kind: nat, url: nat)

  /** One `values().update` of a single cell, addressed as column letter and
      one-based sheet row. */
  datatype CellWrite = CellWrite(column: char, rowNumber: nat, value: string)

  /** One call of `generate_veo_video`: the sheet row it serves and its arguments. */
  datatype GenCall = GenCall(rowNumber: nat, prompt: string, format: string)

  datatype Body = Message(text: string, processed: Option<nat>) | Error(text: string)

  datatype Reply = Reply(statusCode: nat, body: Body)

  datatype Run = Run(reply: Reply, writes: seq<CellWrite>, calls: seq<GenCall>)

  /** Columns A..I: the width of the range the worker reads. */
  const Width: nat := 9


  /** Each row as the range read returns it: at most the cells of columns A..I. */
  function Clip(row: Row): (r: Row)
    ensures |r| <= Width && |r| <= |row|
    ensures r == row[..|r|]
    ensures |row| <= Width ==> r == row
  {
    if |row| <= Width then row else row[..Width]
  }

  /** `chr(65 + col)`: the column letter of a zero-based column index. */
  function ColumnLetter(col: nat): (c: char)
    requires col < 26
    ensures 'A' <= c <= 'Z'
    ensures c as int - 'A' as int == col
  {
    (65 + col) as char
  }

  /** `headers.index(name)`: the first position holding `name`. */
  function Find(headers: Row, name: string): (r: Option<nat>)
    ensures r.Some? ==> r.value < |headers| && headers[r.value] == name
                        && forall j :: 0 <= j < r.value ==> headers[j] != name
    ensures r.None? ==> name !in headers
  {
    if headers == [] then None
    else if headers[0] == name then Some(0)
    else match Find(headers[1..], name)
      case None => None
      case Some(j) => Some(j + 1)
  }

  /** Resolves the required columns in the order the source does, failing with the
      first missing header. */
  function ResolveColumns(headers: Row): (r: ColumnLookup)
    ensures r.Found? <==> (forall h :: h in Required() ==> h in headers)
    ensures r.Found? ==> (
              && r.cols.prompt < |headers| && headers[r.cols.prompt] == "Prompt"
              && r.cols.status < |headers| && headers[r.cols.status] == "Statut"
              && r.cols.format < |headers| && headers[r.cols.format] == "Format"
              && r.cols.kind < |headers| && headers[r.cols.kind] == "Type"
              && r.cols.url < |headers| && headers[r.cols.url] == "URL Image")
    ensures r.Missing? ==> r.header in Required() && r.header !in headers
  {
    match (Find(headers, "Prompt"), Find(headers, "Statut"), Find(headers, "Format"),
           Find(headers, "Type"), Find(headers, "URL Image"))
    case (None, _, _, _, _) => Missing("Prompt")
    case (_, None, _, _, _) => Missing("Statut")
    case (_, _, None, _, _) => Missing("Format")
    case (_, _, _, None, _) => Missing("Type")
    case (_, _, _, _, None) => Missing("URL Image")
    case (Some(p), Some(s), Some(f), Some(t), Some(u)) => Found(Columns(p, s, f, t, u))
  }

  function Required(): seq<string> {
    ["Prompt", "Statut", "Format", "Type", "URL Image"]
  }

  datatype ColumnLookup = Found(cols: Columns) | Missing(header: string)

  predicate ColumnsFit(cols: Columns) {
    cols.prompt < Width && cols.status < Width && cols.format < Width
    && cols.kind < Width && cols.url < Width
  }

  function Max3(a: nat, b: nat, c: nat): nat {
    if a >= b && a >= c then a else if b >= c then b else c
  }

  /** A data row the worker processes: long enough to hold the prompt, status and
      type cells, with status "en cours vidéo" and type "video" after lower-casing. */
  predicate Eligible(row: Row, cols: Columns) {
    && |row| > Max3(cols.prompt, cols.status, cols.kind)
    && Lower(row[cols.status]) == PendingStatus
    && Lower(row[cols.kind]) == VideoType
  }

  /** Number of eligible rows in `data[i..]`. */
  function EligibleCount(data: seq<Row>, cols: Columns, i: nat): nat
    requires i <= |data|
    decreases |data| - i
  {
    if i == |data| then 0
    else (if Eligible(data[i], cols) then 1 else 0) + EligibleCount(data, cols, i + 1)
  }

  /** The cell of the status column in sheet row `rowNumber`. */
  function StatusCell(cols: Columns, rowNumber: nat, value: string): CellWrite
    requires ColumnsFit(cols)
  {
    CellWrite(ColumnLetter(cols.status), rowNumber, value)
  }

  /** The marking the `except` block writes: "erreur: " and the first 50 characters of
      the message. */
  function ErrorCell(cols: Columns, rowNumber: nat, message: string): CellWrite
    requires ColumnsFit(cols)
  {
    StatusCell(cols, rowNumber, ErrorPrefix + Take(message, 50))
  }

  /** The cells one row is meant to receive for an outcome, in the order they are
      written: "généré" and then the video URI after a success, "erreur génération"
      after an empty result, and the error marking after an exception. */
  function RowWrites(cols: Columns, rowNumber: nat, o: GenOutcome): (w: seq<CellWrite>)
    requires ColumnsFit(cols)
    ensures Succeeded(o) ==>
              w == [StatusCell(cols, rowNumber, DoneStatus), CellWrite(ColumnLetter(cols.url), rowNumber, o.uri)]
    ensures o.Raised? ==> w == [ErrorCell(cols, rowNumber, o.message)]
    ensures !Succeeded(o) && !o.Raised? ==> w == [StatusCell(cols, rowNumber, EmptyStatus)]
    // the status is always written first; the URI only follows a success
    ensures |w| >= 1 && w[0].column == ColumnLetter(cols.status)
    ensures |w| == 2 <==> Succeeded(o)
  {
    if o.Raised? then [ErrorCell(cols, rowNumber, o.message)]
    else if Succeeded(o) then
      [StatusCell(cols, rowNumber, DoneStatus), CellWrite(ColumnLetter(cols.url), rowNumber, o.uri)]
    else
      [StatusCell(cols, rowNumber, EmptyStatus)]
  }

  /** Every one of `cells` is accepted by the sheet; `write(w)` is the error the
      `update(...).execute()` of cell `w` raises, if any. */
  predicate Accepted(cells: seq<CellWrite>, write: CellWrite -> Option<string>) {
    forall w :: w in cells ==> write(w).None?
  }

  /** The error the row's `except` block receives: the generator's exception, or the
      error of the first cell the sheet refused; none when the `try` block completes. */
  function TryError(cols: Columns, rowNumber: nat, o: GenOutcome, write: CellWrite -> Option<string>): (e: Option<string>)
    requires ColumnsFit(cols)
    ensures o.Raised? ==> e == Some(o.message)
    ensures !o.Raised? ==> (e.None? <==> Accepted(RowWrites(cols, rowNumber, o), write))
    ensures !o.Raised? && e.Some? ==>
              var cells := RowWrites(cols, rowNumber, o);
              var k := if write(cells[0]).Some? then 0 else 1;
              k < |cells| && e == write(cells[k])
  {
    if o.Raised? then Some(o.message)
    else
      var cells := RowWrites(cols, rowNumber, o);
      if write(cells[0]).Some? then write(cells[0])
      else if |cells| == 2 then write(cells[1])
      else None
  }

  /** What processing one eligible row did: the cells the sheet took, in order, whether
      it counts as a processed video, and the error that escaped its `except` block. */
  datatype RowRun = RowRun(written: seq<CellWrite>, processed: bool, escaped: Option<string>)

  /** The `try`/`except` around one eligible row. The cells are written in order; the
      first refused write (or the generator's exception) sends the row to the `except`
      block, which marks the status with the error; a refused marking escapes to the
      handler's outer `except`. */
  function ProcessRow(cols: Columns, rowNumber: nat, o: GenOutcome, write: CellWrite -> Option<string>): (r: RowRun)
    requires ColumnsFit(cols)
    // when the row's cells are all taken, the row receives exactly those cells
    ensures Accepted(RowWrites(cols, rowNumber, o), write) ==>
              r == RowRun(RowWrites(cols, rowNumber, o), Succeeded(o), None)
    // a completed `try` block counts a video exactly on success
    ensures TryError(cols, rowNumber, o, write).None? ==>
              r == RowRun(RowWrites(cols, rowNumber, o), Succeeded(o), None)
    // otherwise the row ends with the error marking, or the refused marking escapes
    ensures TryError(cols, rowNumber, o, write).Some? ==>
              var mark := ErrorCell(cols, rowNumber, TryError(cols, rowNumber, o, write).value);
              && !r.processed
              && (write(mark).None? ==> r.escaped.None? && r.written != [] && r.written[|r.written| - 1] == mark)
              && (write(mark).Some? ==> r.escaped == write(mark))
    ensures r.processed ==> Succeeded(o) && r.escaped.None?
    // only the row's status and URL cells are written, at most two of them
    ensures |r.written| <= 2
    ensures forall w :: w in r.written ==>
              w.rowNumber == rowNumber && (w.column == ColumnLetter(cols.status) || w.column == ColumnLetter(cols.url))
  {
    var cells := RowWrites(cols, rowNumber, o);
    match TryError(cols, rowNumber, o, write)
    case None => RowRun(cells, Succeeded(o), None)
    case Some(m) =>
      var taken := if !o.Raised? && write(cells[0]).None? then [cells[0]] else [];
      var mark := ErrorCell(cols, rowNumber, m);
      match write(mark)
      case None => RowRun(taken + [mark], false, None)
      case Some(e) => RowRun(taken, false, Some(e))
  }

  /** The outcome of one call. The generator is an oracle indexed by the sheet row it
      serves: each row is generated for at most once per run. */
  function OutcomeOf(gen: (nat, string, string) -> GenOutcome, c: GenCall): GenOutcome {
    gen(c.rowNumber, c.prompt, c.format)
  }

  /** How the worker processes the row of a call, for a generator and a sheet. */
  function Runner(cols: Columns, gen: (nat, string, string) -> GenOutcome, write: CellWrite -> Option<string>): GenCall -> RowRun
    requires ColumnsFit(cols)
  {
    (c: GenCall) => ProcessRow(cols, c.rowNumber, OutcomeOf(gen, c), write)
  }

  /** A row after which the scan goes on: it neither produced a video nor let an error
      escape. */
  predicate Continues(run: RowRun) {
    !run.processed && run.escaped.None?
  }

  /** The cells the rows of `calls` wrote, in the order of the calls. */
  function CallWrites(calls: seq<GenCall>, run: GenCall -> RowRun): seq<CellWrite> {
    if calls == [] then [] else run(calls[0]).written + CallWrites(calls[1..], run)
  }

  /** The cells the rows of `calls` are meant to receive, in the order of the calls. */
  function IntendedWrites(cols: Columns, calls: seq<GenCall>, gen: (nat, string, string) -> GenOutcome): seq<CellWrite>
    requires ColumnsFit(cols)
  {
    if calls == [] then [] else RowWrites(cols, calls[0].rowNumber, OutcomeOf(gen, calls[0])) + IntendedWrites(cols, calls[1..], gen)
  }

  /** The call made for eligible data row `i`: its sheet row, its Prompt cell and its
      Format cell ("9:16" when the row is too short to hold one). */
  function CallFor(data: seq<Row>, cols: Columns, i: nat): (c: GenCall)
    requires i < |data| && Eligible(data[i], cols)
    ensures c.rowNumber == i + 2
    ensures c.prompt == data[i][cols.prompt]
    ensures cols.format < |data[i]| ==> c.format == data[i][cols.format]
    ensures |data[i]| <= cols.format ==> c.format == "9:16"
  {
    var row := data[i];
    GenCall(i + 2, row[cols.prompt], if |row| > cols.format then row[cols.format] else "9:16")
  }

  datatype ScanResult = ScanResult(writes: seq<CellWrite>, processed: nat, calls: seq<GenCall>, escaped: Option<string>)

  /** The row loop from data row `i` on (sheet row `i + 2`); `run` processes the row of
      a call (`Runner` for the real worker). */
  function Scan(data: seq<Row>, cols: Columns, i: nat, run: GenCall -> RowRun): (r: ScanResult)
    requires i <= |data|
    decreases |data| - i
    // at most one video, and only from the last call
    ensures r.processed <= 1
    ensures r.processed == 1 <==> |r.calls| > 0 && run(r.calls[|r.calls| - 1]).processed
    // an escaped error ends the scan at the row that raised it
    ensures r.escaped.Some? ==> |r.calls| > 0 && run(r.calls[|r.calls| - 1]).escaped == r.escaped
    ensures forall j :: 0 <= j < |r.calls| - 1 ==> Continues(run(r.calls[j]))
    // the sheet receives the cells of the called rows, in the order of the calls
    ensures r.writes == CallWrites(r.calls, run)
  {
    if i == |data| then ScanResult([], 0, [], None)
    else if !Eligible(data[i], cols) then Scan(data, cols, i + 1, run)
    else
      var call := CallFor(data, cols, i);
      var row := run(call);
      assert CallWrites([call], run) == row.written;
      if !Continues(row) then ScanResult(row.written, if row.processed then 1 else 0, [call], row.escaped)
      else
        var rest := Scan(data, cols, i + 1, run);
        assert ([call] + rest.calls)[1..] == rest.calls;
        ScanResult(row.written + rest.writes, rest.processed, [call] + rest.calls, rest.escaped)
  }

  /** One step of the scan: an ineligible row is skipped; an eligible one is called, and
      the scan goes on after it only when the row neither made a video nor escaped. */
  lemma ScanStep(data: seq<Row>, cols: Columns, i: nat, run: GenCall -> RowRun)
    requires i < |data|
    ensures var r := Scan(data, cols, i, run);
            var rest := Scan(data, cols, i + 1, run);
            && EligibleCount(data, cols, i) == (if Eligible(data[i], cols) then 1 else 0) + EligibleCount(data, cols, i + 1)
            && (!Eligible(data[i], cols) ==> r == rest)
            && (Eligible(data[i], cols) ==>
                  var call := CallFor(data, cols, i);
                  && |r.calls| > 0 && r.calls[0] == call
                  && (!Continues(run(call)) ==> r.calls == [call] && (r.processed == 1 || r.escaped.Some?))
                  && (Continues(run(call)) ==> r.calls == [call] + rest.calls && r.escaped == rest.escaped
                                               && r.processed == rest.processed))
  {
  }

  /** Failures do not stop the scan: it calls at most the eligible rows, and all of them
      unless a video was made or an error escaped. */
  lemma {:induction false} ScanTriesEveryEligibleRow(data: seq<Row>, cols: Columns, i: nat, run: GenCall -> RowRun)
    requires i <= |data|
    decreases |data| - i
    ensures var r := Scan(data, cols, i, run);
            && |r.calls| <= EligibleCount(data, cols, i)
            && (r.processed == 0 && r.escaped.None? ==> |r.calls| == EligibleCount(data, cols, i))
  {
    if i < |data| {
      ScanTriesEveryEligibleRow(data, cols, i + 1, run);
      ScanStep(data, cols, i, run);
      var r := Scan(data, cols, i, run);
      var rest := Scan(data, cols, i + 1, run);
      var n := EligibleCount(data, cols, i + 1);
      if Eligible(data[i], cols) {
        var call := CallFor(data, cols, i);
        assert EligibleCount(data, cols, i) == 1 + n;
        if Continues(run(call)) {
          assert |r.calls| == 1 + |rest.calls|;
        } else {
          assert |r.calls| == 1;
        }
      } else {
        assert r == rest;
      }
    } else {
      assert Scan(data, cols, i, run).calls == [];
    }
  }

  /** A sequence that starts with one element and continues with a prefix of `rest`
      holds nothing but that element and elements of `rest`. */
  lemma ConsOfPrefix<T>(calls: seq<T>, rest: seq<T>)
    requires |calls| > 0 && calls[1..] <= rest
    ensures forall c :: c in calls ==> c == calls[0] || c in rest
  {
    forall c | c in calls ensures c == calls[0] || c in rest {
      var k :| 0 <= k < |calls| && calls[k] == c;
      if k > 0 {
        assert c == calls[1..][k - 1] == rest[k - 1];
      }
    }
  }

  /** The calls of a scan step: the step's own call, then a prefix of the rest's. */
  lemma ScanCallsStep(data: seq<Row>, cols: Columns, i: nat, run: GenCall -> RowRun)
    requires i < |data|
    ensures var calls := Scan(data, cols, i, run).calls;
            var rest := Scan(data, cols, i + 1, run).calls;
            if Eligible(data[i], cols) then |calls| > 0 && calls[0] == CallFor(data, cols, i) && calls[1..] <= rest
            else calls == rest
  {
    ScanStep(data, cols, i, run);
  }

  /** Every call serves an eligible data row from `i` on, with that row's prompt and
      format. */
  predicate CallsEligible(data: seq<Row>, cols: Columns, i: nat, calls: seq<GenCall>) {
    forall c :: c in calls ==>
      && i + 2 <= c.rowNumber < |data| + 2
      && Eligible(data[c.rowNumber - 2], cols)
      && c == CallFor(data, cols, c.rowNumber - 2)
  }

  /** Only eligible rows of the scanned range are generated for, each with its Prompt
      cell and its Format cell (or "9:16"). */
  lemma {:induction false} ScanCallsEligibleRows(data: seq<Row>, cols: Columns, i: nat, run: GenCall -> RowRun)
    requires i <= |data|
    decreases |data| - i
    ensures CallsEligible(data, cols, i, Scan(data, cols, i, run).calls)
  {
    if i < |data| {
      ScanCallsEligibleRows(data, cols, i + 1, run);
      ScanCallsStep(data, cols, i, run);
      CallsEligibleStep(data, cols, i, Scan(data, cols, i, run).calls, Scan(data, cols, i + 1, run).calls);
    } else {
      assert Scan(data, cols, i, run).calls == [];
    }
  }

  /** The step of the induction above, on the calls alone. */
  lemma CallsEligibleStep(data: seq<Row>, cols: Columns, i: nat, calls: seq<GenCall>, rest: seq<GenCall>)
    requires i < |data| && CallsEligible(data, cols, i + 1, rest)
    requires Eligible(data[i], cols) ==> |calls| > 0 && calls[0] == CallFor(data, cols, i) && calls[1..] <= rest
    requires !Eligible(data[i], cols) ==> calls == rest
    ensures CallsEligible(data, cols, i, calls)
  {
    if Eligible(data[i], cols) {
      ConsOfPrefix(calls, rest);
    }
  }

  /** Calls of a scan from data row `i` serve sheet rows from `i + 2` on. */
  lemma {:induction false} ScanRowsFrom(data: seq<Row>, cols: Columns, i: nat, run: GenCall -> RowRun)
    requires i <= |data|
    decreases |data| - i
    ensures forall c :: c in Scan(data, cols, i, run).calls ==> i + 2 <= c.rowNumber
  {
    if i < |data| {
      ScanRowsFrom(data, cols, i + 1, run);
      ScanCallsStep(data, cols, i, run);
      if Eligible(data[i], cols) {
        ConsOfPrefix(Scan(data, cols, i, run).calls, Scan(data, cols, i + 1, run).calls);
      }
    } else {
      assert Scan(data, cols, i, run).calls == [];
    }
  }

  /** Calls whose sheet rows strictly increase. */
  predicate Ascending(calls: seq<GenCall>) {
    forall j, k :: 0 <= j < k < |calls| ==> calls[j].rowNumber < calls[k].rowNumber
  }

  /** Rows are generated for in sheet order, each at most once. */
  lemma {:induction false} ScanInSheetOrder(data: seq<Row>, cols: Columns, i: nat, run: GenCall -> RowRun)
    requires i <= |data|
    decreases |data| - i
    ensures Ascending(Scan(data, cols, i, run).calls)
  {
    if i < |data| {
      ScanInSheetOrder(data, cols, i + 1, run);
      ScanRowsFrom(data, cols, i + 1, run);
      ScanCallsStep(data, cols, i, run);
      if Eligible(data[i], cols) {
        AscendingCons(Scan(data, cols, i, run).calls, Scan(data, cols, i + 1, run).calls, i + 2);
      }
    } else {
      assert Scan(data, cols, i, run).calls == [];
    }
  }

  /** A call for row `n` followed by a prefix of ascending calls for later rows is
      ascending. */
  lemma AscendingCons(calls: seq<GenCall>, rest: seq<GenCall>, n: nat)
    requires |calls| > 0 && calls[0].rowNumber == n && calls[1..] <= rest
    requires Ascending(rest) && forall c :: c in rest ==> n < c.rowNumber
    ensures Ascending(calls)
  {
    forall j, k | 0 <= j < k < |calls|
      ensures calls[j].rowNumber < calls[k].rowNumber
    {
      assert calls[k] == calls[1..][k - 1] == rest[k - 1];
      if j > 0 {
        assert calls[j] == calls[1..][j - 1] == rest[j - 1];
      } else {
        assert rest[k - 1] in rest;
      }
    }
  }

  /** Every written cell lies in the row of one of the calls. */
  predicate WritesCalled(writes: seq<CellWrite>, calls: seq<GenCall>) {
    forall w :: w in writes ==> exists c :: c in calls && c.rowNumber == w.rowNumber
  }

  /** Every written cell lies in a row that was generated for. */
  lemma ScanWritesOnlyCalledRows(data: seq<Row>, cols: Columns, i: nat,
                                 gen: (nat, string, string) -> GenOutcome, write: CellWrite -> Option<string>)
    requires i <= |data| && ColumnsFit(cols)
    ensures var r := Scan(data, cols, i, Runner(cols, gen, write));
            WritesCalled(r.writes, r.calls)
  {
    CallWritesInCalledRows(cols, Scan(data, cols, i, Runner(cols, gen, write)).calls, gen, write);
  }

  /** The cells of the called rows lie in those rows. */
  lemma {:induction false} CallWritesInCalledRows(cols: Columns, calls: seq<GenCall>,
                                                  gen: (nat, string, string) -> GenOutcome, write: CellWrite -> Option<string>)
    requires ColumnsFit(cols)
    ensures WritesCalled(CallWrites(calls, Runner(cols, gen, write)), calls)
    decreases |calls|
  {
    if calls != [] {
      var run := Runner(cols, gen, write);
      CallWritesInCalledRows(cols, calls[1..], gen, write);
      var head := run(calls[0]).written;
      var tail := CallWrites(calls[1..], run);
      forall w: CellWrite | w in head + tail ensures exists c: GenCall :: c in calls && c.rowNumber == w.rowNumber {
        if w in head {
          assert calls[0] in calls;
        } else {
          var c :| c in calls[1..] && c.rowNumber == w.rowNumber;
          assert c in calls;
        }
      }
    }
  }

  /** When the sheet takes every write, the called rows receive exactly their intended
      cells. */
  lemma {:induction false} CallWritesReliable(cols: Columns, calls: seq<GenCall>,
                                              gen: (nat, string, string) -> GenOutcome, write: CellWrite -> Option<string>)
    requires ColumnsFit(cols) && forall w :: write(w).None?
    ensures CallWrites(calls, Runner(cols, gen, write)) == IntendedWrites(cols, calls, gen)
    decreases |calls|
  {
    if calls != [] {
      CallWritesReliable(cols, calls[1..], gen, write);
      var c := calls[0];
      assert Accepted(RowWrites(cols, c.rowNumber, OutcomeOf(gen, c)), write);
    }
  }

  /** With a sheet that takes every write nothing escapes, a video is counted exactly
      when the last call succeeded, and the called rows receive their intended cells. */
  lemma ReliableSheetScan(data: seq<Row>, cols: Columns, i: nat,
                          gen: (nat, string, string) -> GenOutcome, write: CellWrite -> Option<string>)
    requires i <= |data| && ColumnsFit(cols) && forall w :: write(w).None?
    ensures var r := Scan(data, cols, i, Runner(cols, gen, write));
            && r.escaped.None?
            && (r.processed == 1 <==> |r.calls| > 0 && Succeeded(OutcomeOf(gen, r.calls[|r.calls| - 1])))
            && r.writes == IntendedWrites(cols, r.calls, gen)
  {
    var r := Scan(data, cols, i, Runner(cols, gen, write));
    CallWritesReliable(cols, r.calls, gen, write);
    if |r.calls| > 0 {
      var c := r.calls[|r.calls| - 1];
      assert Accepted(RowWrites(cols, c.rowNumber, OutcomeOf(gen, c)), write);
    }
  }

  const EnvMissing: string := "Variables environnement manquantes"
  const NothingWaiting: string := "Aucune vidéo en attente"

  /** The rows as the range read returns them. */
  function ClipAll(raw: seq<Row>): (rows: seq<Row>)
    ensures |rows| == |raw| && forall k :: 0 <= k < |raw| ==> rows[k] == Clip(raw[k])
  {
    seq(|raw|, k requires 0 <= k < |raw| => Clip(raw[k]))
  }

  /** Clipped headers resolve, if at all, to columns inside A..I. */
  lemma ClippedColumnsFit(headers: Row)
    requires ResolveColumns(Clip(headers)).Found?
    ensures ColumnsFit(ResolveColumns(Clip(headers)).cols)
  {
  }

  /** `handler(request)`; `write(w)` is the error the update of cell `w` raises, if any. */
  function Handler(config: Config, read: SheetRead, gen: (nat, string, string) -> GenOutcome,
                   write: CellWrite -> Option<string>): (run: Run)
    // configuration is checked before any sheet access
    ensures !Configured(config) ==> run == Run(Reply(500, Error(EnvMissing)), [], [])
    ensures Configured(config) && read.ReadFailed? ==> run == Run(Reply(500, Error(read.message)), [], [])
    ensures Configured(config) && read.Rows? && |read.rows| <= 1 ==>
              run == Run(Reply(200, Message(NothingWaiting, None)), [], [])
    ensures Configured(config) && read.Rows? && |read.rows| > 1 && ResolveColumns(Clip(read.rows[0])).Missing? ==>
              run == Run(Reply(500, Error("Colonne manquante: '" + ResolveColumns(Clip(read.rows[0])).header + "' is not in list")), [], [])
    // once the columns resolve, the rows are scanned under the header
    ensures Configured(config) && read.Rows? && |read.rows| > 1 && ResolveColumns(Clip(read.rows[0])).Found? ==>
              var cols := ResolveColumns(Clip(read.rows[0])).cols;
              ColumnsFit(cols) &&
              var s := Scan(ClipAll(read.rows)[1..], cols, 0, Runner(cols, gen, write));
              && run.writes == s.writes && run.calls == s.calls
              && (s.escaped.Some? ==> run.reply == Reply(500, Error(s.escaped.value)))
              && (s.escaped.None? ==> run.reply == Reply(200, Message(NatToDecimal(s.processed) + " vidéo(s) traitée(s)", Some(s.processed))))
    // at most one video per invocation
    ensures run.reply.body.Message? && run.reply.body.processed.Some? ==> run.reply.body.processed.value <= 1
    // nothing is written to the sheet without a generation call
    ensures run.calls == [] ==> run.writes == []
  {
    if !Configured(config) then Run(Reply(500, Error(EnvMissing)), [], [])
    else match read
      case ReadFailed(m) => Run(Reply(500, Error(m)), [], [])
      case Rows(raw) =>
        var rows := ClipAll(raw);
        if |rows| <= 1 then Run(Reply(200, Message(NothingWaiting, None)), [], [])
        else match ResolveColumns(rows[0])
          case Missing(h) => Run(Reply(500, Error("Colonne manquante: '" + h + "' is not in list")), [], [])
          case Found(cols) =>
            ClippedColumnsFit(raw[0]);
            var s := Scan(rows[1..], cols, 0, Runner(cols, gen, write));
            match s.escaped
            case Some(e) => Run(Reply(500, Error(e)), s.writes, s.calls)
            case None =>
              Run(Reply(200, Message(NatToDecimal(s.processed) + " vidéo(s) traitée(s)", Some(s.processed))),
                  s.writes, s.calls)
  }

  // ------------------------------------------------------------------ the generator helper

  /** `generate_veo_video` accepts only the two supported aspect ratios. */
  function AspectRatio(format: string): (a: string)
    ensures a == "16:9" || a == "9:16"
    ensures format == "16:9" || format == "9:16" <==> a == format
  {
    if format == "16:9" || format == "9:16" then format else "9:16"
  }

  /** The operation as the SDK returns it: `done` and the URIs of
      `result.generated_videos` (empty when there is no result). An absent URI is "". */
  datatype Operation = Operation(done: bool, videoUris: seq<string>)

  /** One SDK call: it raises or returns the operation. */
  datatype SdkCall = SdkRaised(message: string) | SdkReturned(op: Operation)

  const MaxWait: nat := 60
  const PollStep: nat := 10

  /** The wait loop: while the operation is not done and less than 60 s have been
      waited, wait 10 s and re-fetch. Yields the final operation (`None` when a
      re-fetch raised) and the number of re-fetches. */
  function PollLoop(op: Operation, waited: nat, poll: nat -> SdkCall): (r: (Option<Operation>, nat))
    requires waited % PollStep == 0 && waited <= MaxWait
    decreases MaxWait - waited
    ensures r.1 <= (MaxWait - waited) / PollStep
    ensures r.0.Some? && !r.0.value.done ==> r.1 == (MaxWait - waited) / PollStep
    ensures op.done ==> r == (Some(op), 0)
  {
    if op.done || waited >= MaxWait then (Some(op), 0)
    else match poll(waited / PollStep)
      case SdkRaised(_) => (None, 1)
      case SdkReturned(next) =>
        var rest := PollLoop(next, waited + PollStep, poll);
        (rest.0, rest.1 + 1)
  }

  datatype VeoRun = VeoRun(aspectRatio: string, polls: nat, outcome: GenOutcome)

  /** `generate_veo_video(api_key, prompt, video_format)`: submits, polls at most six
      times, and returns the first video's URI, or nothing. Every exception is caught
      inside the helper, so its outcome is never `Raised`. */
  function GenerateVeoVideo(format: string, submit: SdkCall, poll: nat -> SdkCall): (r: VeoRun)
    ensures r.aspectRatio == AspectRatio(format)
    ensures r.polls <= MaxWait / PollStep
    ensures !r.outcome.Raised?
    // a URI is returned exactly when the submission returned and the last operation
    // fetched is done with at least one video, and it is the first video's
    ensures r.outcome.Success? <==>
              submit.SdkReturned? && var final := PollLoop(submit.op, 0, poll).0;
              final.Some? && final.value.done && |final.value.videoUris| > 0
    ensures r.outcome.Success? ==> r.outcome.uri == PollLoop(submit.op, 0, poll).0.value.videoUris[0]
  {
    var aspect := AspectRatio(format);
    match submit
    case SdkRaised(_) => VeoRun(aspect, 0, Empty)
    case SdkReturned(op) =>
      var (final, n) := PollLoop(op, 0, poll);
      if final.None? || !final.value.done || |final.value.videoUris| == 0 then VeoRun(aspect, n, Empty)
      else VeoRun(aspect, n, Success(final.value.videoUris[0]))
  }

  /** A video that is ready within the budget is always returned: the first URI of
      the operation, whatever the format asked for. */
  lemma ReadyVideoReturned(format: string, op: Operation, poll: nat -> SdkCall)
    requires op.done && |op.videoUris| > 0
    ensures GenerateVeoVideo(format, SdkReturned(op), poll).outcome == Success(op.videoUris[0])
    ensures GenerateVeoVideo(format, SdkReturned(op), poll).polls == 0
  {
  }

  /** An operation that is never done within the wait budget gives no result after
      exactly six re-fetches. */
  lemma {:induction false} TimeoutAfterSixPolls(op: Operation, waited: nat, poll: nat -> SdkCall)
    requires waited % PollStep == 0 && waited <= MaxWait
    requires !op.done
    requires forall k :: waited / PollStep <= k < MaxWait / PollStep ==> poll(k).SdkReturned? && !poll(k).op.done
    ensures PollLoop(op, waited, poll).0.Some? && !PollLoop(op, waited, poll).0.value.done
    ensures PollLoop(op, waited, poll).1 == (MaxWait - waited) / PollStep
    decreases MaxWait - waited
  {
    if waited < MaxWait {
      var k := waited / PollStep;
      assert waited / PollStep < MaxWait / PollStep;
      TimeoutAfterSixPolls(poll(k).op, waited + PollStep, poll);
    }
  }
}

=== FILE: decimal.dfy ===
/** Decimal text for numbers: `String(n)` for the numbers the system prints
    (timestamps, HTTP statuses, indices) and JavaScript's `parseInt` for the
    numbers it reads back (file-name timestamps, query parameters). */
module Decimal {
  import opened Base
  import opened Text

  predicate IsDigit(c: char) {
    '0' <= c <= '9'
  }

  predicate AllDigits(s: string) {
    forall i :: 0 <= i < |s| ==> IsDigit(s[i])
  }

  function DigitChar(d: nat): (c: char)
    requires d < 10
    ensures IsDigit(c)
  {
    ('0' as int + d) as char
  }

  function DigitValue(c: char): (d: nat)
    requires IsDigit(c)
    ensures d < 10
  {
    c as int - '0' as int
  }

  /** `String(n)` for a natural number: its digits, most significant first, without
      leading zeros. */
  function NatToDecimal(n: nat): (s: string)
    ensures |s| >= 1
    ensures AllDigits(s)
    ensures |s| > 1 ==> s[0] != '0'
  {
    if n < 10 then [DigitChar(n)] else NatToDecimal(n / 10) + [DigitChar(n % 10)]
  }

  /** `String(n)` for any integer. */
  function IntToDecimal(n: int): (s: string)
    ensures n < 0 <==> (|s| > 0 && s[0] == '-')
  {
    if n < 0 then "-" + NatToDecimal(-n) else NatToDecimal(n)
  }

  /** The value of a string of digits. */
  function DigitsValue(s: string): nat
    requires AllDigits(s)
  {
    if s == [] then 0 else 10 * DigitsValue(s[..|s| - 1]) + DigitValue(s[|s| - 1])
  }

  /** Length of the run of digits that starts `s`. */
  function DigitRun(s: string): (k: nat)
    ensures k <= |s| && AllDigits(s[..k])
    ensures k < |s| ==> !IsDigit(s[k])
  {
    if s != [] && IsDigit(s[0]) then
      var k := 1 + DigitRun(s[1..]);
      assert s[..k] == [s[0]] + s[1..][..k - 1];
      k
    else 0
  }

  /** `parseInt(s)` with the default radix: leading whitespace is skipped, an optional
      sign is read, then the longest run of decimal digits; with no digit the result is
      NaN, written `None`. */
  function ParseInt(s: string): (r: Option<int>)
    ensures r.None? <==> DigitRun(Unsigned(TrimStart(s))) == 0
    // the value of the leading digit run, negated after a '-' sign
    ensures r.Some? ==>
              var t := TrimStart(s);
              var u := Unsigned(t);
              && (|t| > 0 && t[0] == '-' ==> r.value == -(DigitsValue(u[..DigitRun(u)]) as int))
              && (|t| == 0 || t[0] != '-' ==> r.value == DigitsValue(u[..DigitRun(u)]))
  {
    var t := TrimStart(s);
    var u := Unsigned(t);
    var k := DigitRun(u);
    if k == 0 then None
    else
      var v: int := DigitsValue(u[..k]);
      Some(if |t| > 0 && t[0] == '-' then -v else v)
  }

  /** The text after an optional leading sign. */
  function Unsigned(t: string): string {
    if |t| > 0 && (t[0] == '-' || t[0] == '+') then t[1..] else t
  }

  lemma {:induction false} DigitsValueOfDecimal(n: nat)
    ensures DigitsValue(NatToDecimal(n)) == n
  {
    if n >= 10 {
      DigitsValueOfDecimal(n / 10);
      var s := NatToDecimal(n);
      assert s[..|s| - 1] == NatToDecimal(n / 10);
    }
  }

  lemma DigitRunAll(s: string)
    requires AllDigits(s)
    ensures DigitRun(s) == |s|
  {
  }

  /** Reading back a printed natural number gives the number. */
  lemma ParseIntOfDecimal(n: nat)
    ensures ParseInt(NatToDecimal(n)) == Some(n)
  {
    var s := NatToDecimal(n);
    assert TrimStart(s) == s by { assert !IsSpace(s[0]); }
    assert Unsigned(s) == s by { assert IsDigit(s[0]); }
    DigitRunAll(s);
    assert s[..|s|] == s;
    DigitsValueOfDecimal(n);
  }

  /** Reading back a printed negative number gives the number. */
  lemma ParseIntOfNegative(n: nat)
    requires n > 0
    ensures ParseInt("-" + NatToDecimal(n)) == Some(-(n as int))
  {
    var d := NatToDecimal(n);
    var s := "-" + d;
    assert s[0] == '-' && s[1..] == d;
    assert TrimStart(s) == s by { assert !IsSpace(s[0]); }
    assert Unsigned(s) == d;
    DigitRunAll(d);
    assert d[..|d|] == d;
    DigitsValueOfDecimal(n);
    var v: int := DigitsValue(d);
    assert v == n;
    assert ParseInt(s) == Some(-v);
  }

  /** Distinct numbers print differently. */
  lemma DecimalInjective(a: nat, b: nat)
    requires NatToDecimal(a) == NatToDecimal(b)
    ensures a == b
  {
    ParseIntOfDecimal(a);
    ParseIntOfDecimal(b);
  }

  /** Names made of one prefix, a number and suffixes of one length are equal only for
      equal numbers. */
  lemma NumberedNamesDiffer(prefix: string, a: nat, sa: string, b: nat, sb: string)
    requires |sa| == |sb| && a != b
    ensures prefix + NatToDecimal(a) + sa != prefix + NatToDecimal(b) + sb
  {
    var da := NatToDecimal(a);
    var db := NatToDecimal(b);
    var na := prefix + da + sa;
    var nb := prefix + db + sb;
    if na == nb {
      assert |da| == |db|;
      assert na[|prefix|..|prefix| + |da|] == da;
      assert nb[|prefix|..|prefix| + |db|] == db;
      DecimalInjective(a, b);
    }
  }

  /** Euclidean division is unique. */
  lemma ModUnique(x: nat, n: nat, q: nat, r: nat)
    requires 0 <= r < n && x == q * n + r
    ensures x % n == r
  {
    var d: int := q - x / n;
    assert d * n == x % n - r;
    if d >= 1 {
      MulAtLeast(d, n);
    } else if d <= -1 {
      MulAtLeast(-d, n);
    }
  }

  lemma MulAtLeast(d: int, n: nat)
    requires d >= 1
    ensures d * n >= n
  {
    assert d * n == (d - 1) * n + n;
  }

  /** `parseInt` reads any printed integer back. */
  lemma ParseIntOfIntToDecimal(n: int)
    ensures ParseInt(IntToDecimal(n)) == Some(n)
  {
    var m: nat := if n < 0 then -n else n;
    if n < 0 {
      assert IntToDecimal(n) == "-" + NatToDecimal(m);
      ParseIntOfNegative(m);
      assert -(m as int) == n;
    } else {
      assert IntToDecimal(n) == NatToDecimal(m);
      ParseIntOfDecimal(m);
    }
  }
}

=== FILE: favorites.dfy ===
/** The favourites store (app/api/favorites/route.ts): one table shared by every
    client, each record tagged with the `client_id` of the deployment that wrote it. */
module Favorites {
  import opened Base
  import opened Text
  import opened Tables

  /** A row of the `favorites` table. `prompt` and `mediaType` are nullable columns;
      `createdAt` is the insertion time the database records. */
  datatype Favorite = Favorite(id: string, clientId: string, url: string,
                               prompt: Option<string>, mediaType: Option<string>, createdAt: int)

  function CreatedAt(f: Favorite): int { f.createdAt }

  // ------------------------------------------------------------------ GET

  /** One favourite as the listing returns it. */
  datatype Listed = Listed(id: string, url: string, prompt: string, mediaType: string, timestamp: int)

  /** The listed form of a row: an empty or null prompt reads "", an empty or null
      media type reads "image". */
  function Shown(f: Favorite): (e: Listed)
    ensures e.id == f.id && e.url == f.url && e.timestamp == f.createdAt
    ensures e.prompt == (if Truthy(f.prompt) then f.prompt.value else "")
    ensures e.mediaType != "" && (Truthy(f.mediaType) ==> e.mediaType == f.mediaType.value)
    ensures !Truthy(f.mediaType) ==> e.mediaType == "image"
  {
    Listed(f.id, f.url, OrElse(f.prompt, ""), OrElse(f.mediaType, "image"), f.createdAt)
  }

  /** The rows of one client. */
  function Mine(rows: seq<Favorite>, client: string): (r: seq<Favorite>)
    ensures forall f :: f in r <==> f in rows && f.clientId == client
  {
    Filter(rows, (f: Favorite) => f.clientId == client)
  }

  /** `GET()`: `load` is the client's query result or the database error. */
  function List(load: Result<seq<Favorite>>, env: Option<string>): (r: Result<seq<Listed>>)
    // a table that does not exist yet lists as empty; other errors are reported
    ensures load.Err? ==> r == (if Contains(load.error, "does not exist") then Ok([]) else Err(load.error))
    // otherwise: the client's rows, newest first, each in its listed form
    ensures load.Ok? ==>
              r.Ok? && exists order: seq<Favorite> ::
                && multiset(order) == multiset(Mine(load.value, ClientId(env)))
                && Descending(order, CreatedAt)
                && |r.value| == |order|
                && forall i :: 0 <= i < |order| ==> r.value[i] == Shown(order[i])
  {
    match load
    case Err(m) => if Contains(m, "does not exist") then Ok([]) else Err(m)
    case Ok(rows) =>
      var order := SortDescending(Mine(rows, ClientId(env)), CreatedAt);
      Ok(seq(|order|, i requires 0 <= i < |order| => Shown(order[i])))
  }

  /** The order the listing was read in: a newest-first arrangement of the client's rows. */
  lemma ListOrder(rows: seq<Favorite>, env: Option<string>) returns (order: seq<Favorite>)
    ensures multiset(order) == multiset(Mine(rows, ClientId(env)))
    ensures Descending(order, CreatedAt)
    ensures var r := List(Ok(rows), env).value;
            |r| == |order| && forall i :: 0 <= i < |order| ==> r[i] == Shown(order[i])
  {
    order := SortDescending(Mine(rows, ClientId(env)), CreatedAt);
  }

  /** Every listed favourite is one of this client's rows in its listed form. */
  lemma ListedAreMine(rows: seq<Favorite>, env: Option<string>)
    ensures var r := List(Ok(rows), env).value;
            forall i :: 0 <= i < |r| ==> exists f :: f in rows && f.clientId == ClientId(env) && r[i] == Shown(f)
  {
    var r := List(Ok(rows), env).value;
    var order := ListOrder(rows, env);
    forall i | 0 <= i < |r|
      ensures exists f :: f in rows && f.clientId == ClientId(env) && r[i] == Shown(f)
    {
      var f := order[i];
      assert f in multiset(Mine(rows, ClientId(env)));
      assert f in Mine(rows, ClientId(env));
      assert r[i] == Shown(f);
    }
  }

  /** Every one of this client's rows is listed. */
  lemma MineAreListed(rows: seq<Favorite>, env: Option<string>, f: Favorite)
    requires f in rows && f.clientId == ClientId(env)
    ensures Shown(f) in List(Ok(rows), env).value
  {
    var r := List(Ok(rows), env).value;
    var order := ListOrder(rows, env);
    assert f in multiset(order);
    var i :| 0 <= i < |order| && order[i] == f;
    assert r[i] == Shown(f);
  }

  /** The listing is newest first. */
  lemma ListedNewestFirst(rows: seq<Favorite>, env: Option<string>)
    ensures var r := List(Ok(rows), env).value;
            forall i, j :: 0 <= i < j < |r| ==> r[i].timestamp >= r[j].timestamp
  {
    var r := List(Ok(rows), env).value;
    var order := ListOrder(rows, env);
    forall i, j | 0 <= i < j < |r| ensures r[i].timestamp >= r[j].timestamp {
      assert CreatedAt(order[i]) >= CreatedAt(order[j]);
    }
  }

  // ------------------------------------------------------------------ POST

  datatype AddBody = AddBody(url: Option<string>, prompt: Option<string>, mediaType: Option<string>)

  datatype AddReply =
    | MissingUrl                 // 400
    | Thrown(error: string)      // 500
    | Rejected(error: string)    // the insert failed
    | Duplicate(id: string)      // already a favourite
    | Added(id: string)
  {
    function StatusCode(): nat {
      match this
      case MissingUrl => 400
      case Thrown(_) => 500
      case _ => 200
    }
  }

  datatype AddRun = AddRun(reply: AddReply, table: seq<Favorite>)

  /** The prompt a favourite is filed under: the given one, or "". */
  function PromptKey(body: AddBody): string {
    OrElse(body.prompt, "")
  }

  /** The first row of `client` filed under `prompt` (`.eq('prompt', ...)` matches no
      null prompt). */
  function FindDuplicate(table: seq<Favorite>, client: string, prompt: string): (k: Option<nat>)
    ensures k.Some? ==> k.value < |table| && table[k.value].clientId == client && table[k.value].prompt == Some(prompt)
                        && forall j :: 0 <= j < k.value ==> !(table[j].clientId == client && table[j].prompt == Some(prompt))
    ensures k.None? ==> forall j :: 0 <= j < |table| ==> !(table[j].clientId == client && table[j].prompt == Some(prompt))
    decreases |table|
  {
    if table == [] then None
    else if table[0].clientId == client && table[0].prompt == Some(prompt) then Some(0)
    else match FindDuplicate(table[1..], client, prompt)
      case None => None
      case Some(k) => Some(k + 1)
  }

  /** The row an accepted favourite is stored as. */
  function NewFavorite(body: AddBody, env: Option<string>, id: string, now: int): (f: Favorite)
    requires Truthy(body.url)
    ensures f.clientId == ClientId(env) && f.url == body.url.value
    ensures f.prompt == Some(PromptKey(body))
    ensures f.mediaType == Some(if body.mediaType.Some? then body.mediaType.value else "image")
  {
    Favorite(id, ClientId(env), body.url.value, Some(PromptKey(body)), Some(body.mediaType.GetOr("image")), now)
  }

  /** `POST(req)`: `lookupFails` says the duplicate query errs (its error is ignored),
      `newId` and `now` are what the database assigns, `insertError` its refusal. */
  function Add(body: Result<AddBody>, env: Option<string>, table: seq<Favorite>, lookupFails: bool,
               newId: string, now: int, insertError: Option<string>): (run: AddRun)
    ensures body.Ok? && !Truthy(body.value.url) ==> run == AddRun(MissingUrl, table)
    // the table either stays as it was or gains exactly the new favourite at its end
    ensures run.reply.Added? <==> run.table != table
    ensures run.reply.Added? ==>
              && body.Ok? && Truthy(body.value.url) && run.reply.id == newId
              && run.table == table + [NewFavorite(body.value, env, newId, now)]
    // a prompt this client already filed returns the earlier favourite instead
    ensures run.reply.Duplicate? <==>
              body.Ok? && Truthy(body.value.url) && !lookupFails
              && FindDuplicate(table, ClientId(env), PromptKey(body.value)).Some?
    ensures run.reply.Duplicate? ==>
              run.reply.id == table[FindDuplicate(table, ClientId(env), PromptKey(body.value)).value].id
    // with a URL and no earlier favourite found, the insert decides
    ensures body.Ok? && Truthy(body.value.url)
            && (lookupFails || FindDuplicate(table, ClientId(env), PromptKey(body.value)).None?) ==>
              && (insertError.None? ==> run.reply == Added(newId))
              && (insertError.Some? ==> run == AddRun(Rejected(insertError.value), table))
    ensures body.Err? ==> run == AddRun(Thrown(body.error), table)
  {
    match body
    case Err(m) => AddRun(Thrown(m), table)
    case Ok(b) =>
      if !Truthy(b.url) then AddRun(MissingUrl, table)
      else
        var client := ClientId(env);
        var existing := if lookupFails then None else FindDuplicate(table, client, PromptKey(b));
        match existing
        case Some(k) => AddRun(Duplicate(table[k].id), table)
        case None =>
          match insertError
          case Some(m) => AddRun(Rejected(m), table)
          case None =>
            var f := NewFavorite(b, env, newId, now);
            assert table + [f] != table by { assert |table + [f]| != |table|; }
            AddRun(Added(newId), table + [f])
  }

  /** The duplicate search still finds the earlier match after a row is appended. */
  lemma {:induction false} FindDuplicateAppend(table: seq<Favorite>, f: Favorite, client: string, prompt: string)
    ensures FindDuplicate(table + [f], client, prompt) ==
              if FindDuplicate(table, client, prompt).Some? then FindDuplicate(table, client, prompt)
              else if f.clientId == client && f.prompt == Some(prompt) then Some(|table|)
              else None
    decreases |table|
  {
    if table != [] {
      assert (table + [f])[1..] == table[1..] + [f];
      FindDuplicateAppend(table[1..], f, client, prompt);
    }
  }

  /** Adding a favourite is idempotent: the same request made again returns the id the
      first one produced, as a duplicate, and stores nothing. */
  lemma AddTwiceIsDuplicate(body: AddBody, env: Option<string>, table: seq<Favorite>,
                            newId: string, now: int, newId2: string, now2: int, insertError2: Option<string>)
    requires Add(Ok(body), env, table, false, newId, now, None).reply.Added?
             || Add(Ok(body), env, table, false, newId, now, None).reply.Duplicate?
    ensures var first := Add(Ok(body), env, table, false, newId, now, None);
            Add(Ok(body), env, first.table, false, newId2, now2, insertError2)
              == AddRun(Duplicate(first.reply.id), first.table)
  {
    var first := Add(Ok(body), env, table, false, newId, now, None);
    if first.reply.Added? {
      FindDuplicateAppend(table, NewFavorite(body, env, newId, now), ClientId(env), PromptKey(body));
    }
  }

  // ------------------------------------------------------------------ DELETE

  datatype RemoveReply = MissingId | RemoveThrown(error: string) | RemoveRejected(error: string) | Removed {
    function StatusCode(): nat {
      match this
      case MissingId => 400
      case RemoveThrown(_) => 500
      case _ => 200
    }
  }

  datatype RemoveRun = RemoveRun(reply: RemoveReply, table: seq<Favorite>)

  /** What a delete request targets: every row of the client for "all", otherwise the
      client's rows with that id. */
  predicate Targeted(f: Favorite, id: string, client: string) {
    f.clientId == client && (id == "all" || f.id == id)
  }

  /** `DELETE(req)`: `id` is the body's `id` (or the parse error) and `failure` the
      database's refusal, if any. */
  function Remove(id: Result<Option<string>>, env: Option<string>, table: seq<Favorite>, failure: Option<string>): (run: RemoveRun)
    ensures id.Ok? && !Truthy(id.value) ==> run == RemoveRun(MissingId, table)
    ensures run.reply != Removed ==> run.table == table
    ensures run.reply == Removed <==> id.Ok? && Truthy(id.value) && failure.None?
    // exactly the targeted rows go; every other row, of any client, stays in order
    ensures run.reply == Removed ==>
              && (forall f :: f in run.table <==> f in table && !Targeted(f, id.value.value, ClientId(env)))
              && run.table == Filter(table, f => !Targeted(f, id.value.value, ClientId(env)))
  {
    match id
    case Err(m) => RemoveRun(RemoveThrown(m), table)
    case Ok(key) =>
      if !Truthy(key) then RemoveRun(MissingId, table)
      else match failure
        case Some(m) => RemoveRun(RemoveRejected(m), table)
        case None =>
          var client := ClientId(env);
          RemoveRun(Removed, Filter(table, f => !Targeted(f, key.value, client)))
  }

  /** Other clients' favourites survive any delete, "all" included. */
  lemma RemoveSparesOtherClients(id: Result<Option<string>>, env: Option<string>, table: seq<Favorite>, failure: Option<string>)
    ensures var after := Remove(id, env, table, failure).table;
            Filter(after, (f: Favorite) => f.clientId != ClientId(env)) == Filter(table, (f: Favorite) => f.clientId != ClientId(env))
  {
    var run := Remove(id, env, table, failure);
    if run.reply == Removed {
      var client := ClientId(env);
      FilterSubsumed(table, (f: Favorite) => !Targeted(f, id.value.value, client), (f: Favorite) => f.clientId != client);
    }
  }

  /** Deleting is idempotent: the same delete again changes nothing. */
  lemma RemoveTwiceIsOnce(key: string, env: Option<string>, table: seq<Favorite>)
    requires key != ""
    ensures var once := Remove(Ok(Some(key)), env, table, None).table;
            Remove(Ok(Some(key)), env, once, None).table == once
  {
    FilterIdempotent(table, f => !Targeted(f, key, ClientId(env)));
  }
}

=== FILE: favorites_panel.dfy ===
/** The favourites panel (app/components/FavoritesPanel.tsx): selecting favourites,
    the ZIP of the selected ones, and the request that asks for variants of them.
    The archive library, downloads and status messages are not modelled; whether a
    remote file could be fetched is a parameter. */
module FavoritesPanel {
  import opened Base
  import opened Text
  import opened Decimal
  import Tables
  import Workspace
  import AnalyzeSite

  /** A favourite as the panel receives it. */
  datatype Item = Item(id: string, url: string, prompt: string, mediaType: Option<string>, timestamp: int)

  // ------------------------------------------------------------------ selection

  /** `toggleSelect`: the id leaves the selection if it was in it, and joins otherwise. */
  function Toggle(selected: set<string>, id: string): (r: set<string>)
    ensures id in r <==> id !in selected
    ensures forall x :: x != id ==> (x in r <==> x in selected)
  {
    if id in selected then selected - {id} else selected + {id}
  }

  /** Toggling the same id twice gives the selection back. */
  lemma ToggleTwice(selected: set<string>, id: string)
    ensures Toggle(Toggle(selected, id), id) == selected
  {
    var r := Toggle(Toggle(selected, id), id);
    assert forall x :: x in r <==> x in selected;
  }

  /** The ids of the favourites. */
  function Ids(items: seq<Item>): (ids: set<string>)
    ensures forall x :: x in ids <==> exists k :: 0 <= k < |items| && items[k].id == x
    ensures |ids| <= |items|
    decreases |items|
  {
    if items == [] then {}
    else
      var rest := Ids(items[1..]);
      forall x | x in rest ensures exists k :: 0 <= k < |items| && items[k].id == x {
        var k :| 0 <= k < |items[1..]| && items[1..][k].id == x;
        assert items[k + 1].id == x;
      }
      {items[0].id} + rest
  }

  predicate DistinctIds(items: seq<Item>) {
    forall i, j :: 0 <= i < j < |items| ==> items[i].id != items[j].id
  }

  /** With distinct ids there are as many ids as favourites. */
  lemma {:induction false} IdsCount(items: seq<Item>)
    requires DistinctIds(items)
    ensures |Ids(items)| == |items|
    decreases |items|
  {
    if items != [] {
      IdsCount(items[1..]);
    }
  }

  /** `selectAll`: when as many ids are selected as there are favourites the selection
      is cleared; otherwise it becomes every favourite's id. */
  function SelectAll(selected: set<string>, items: seq<Item>): (r: set<string>)
    ensures |selected| == |items| ==> r == {}
    ensures |selected| != |items| ==> r == Ids(items)
  {
    if |selected| == |items| then {} else Ids(items)
  }

  /** With distinct ids and at least one favourite, pressing select-all twice from
      a partial selection selects everything and then clears it. */
  lemma SelectAllTwice(selected: set<string>, items: seq<Item>)
    requires DistinctIds(items) && items != []
    requires |selected| != |items|
    ensures SelectAll(selected, items) == Ids(items)
    ensures SelectAll(SelectAll(selected, items), items) == {}
  {
    IdsCount(items);
  }

  /** With a repeated id, select-all can never clear: the selection it makes is always
      smaller than the list, so a second press selects the same ids again. */
  lemma RepeatedIdNeverClears(items: seq<Item>, i: nat, j: nat)
    requires i < j < |items| && items[i].id == items[j].id
    ensures SelectAll(Ids(items), items) == Ids(items)
  {
    FewerIds(items, i, j);
  }

  /** A repeated id makes the ids fewer than the favourites. */
  lemma {:induction false} FewerIds(items: seq<Item>, i: nat, j: nat)
    requires i < j < |items| && items[i].id == items[j].id
    ensures |Ids(items)| < |items|
    decreases i
  {
    var rest := items[1..];
    assert Ids(items) == {items[0].id} + Ids(rest);
    if i == 0 {
      assert rest[j - 1].id == items[0].id;
      assert Ids(items) == Ids(rest);
    } else {
      FewerIds(rest, i - 1, j - 1);
    }
  }

  /** The selected favourites, in the order of the list. */
  function Selected(items: seq<Item>, selected: set<string>): (r: seq<Item>)
    ensures forall x :: x in r <==> x in items && x.id in selected
    ensures |r| <= |items|
  {
    Tables.Filter(items, (f: Item) => f.id in selected)
  }

  /** With every id selected, the selected list is the whole list in order. */
  lemma SelectedAll(items: seq<Item>)
    ensures Selected(items, Ids(items)) == items
  {
    var ids := Ids(items);
    assert forall k :: 0 <= k < |items| ==> items[k].id in ids;
    Tables.FilterAll(items, (f: Item) => f.id in ids);
  }

  // ------------------------------------------------------------------ the ZIP of the selection

  /** A favourite is archived as a video when it says so or its address ends in ".mp4". */
  predicate IsVideo(f: Item) {
    f.mediaType == Some("video") || EndsWith(f.url, ".mp4")
  }

  /** The name of the `i`-th (from 0) selected favourite in the archive. */
  function ZipName(i: nat, f: Item): (name: string)
    ensures StartsWith(name, "favori-")
    ensures IsVideo(f) ==> EndsWith(name, ".mp4")
    ensures !IsVideo(f) ==> EndsWith(name, ".png")
  {
    "favori-" + NatToDecimal(i + 1) + (if IsVideo(f) then ".mp4" else ".png")
  }

  /** No two selected favourites get the same name. */
  lemma ZipNamesDistinct(i: nat, a: Item, j: nat, b: Item)
    requires i != j
    ensures ZipName(i, a) != ZipName(j, b)
  {
    NumberedNamesDiffer("favori-", i + 1, if IsVideo(a) then ".mp4" else ".png",
                        j + 1, if IsVideo(b) then ".mp4" else ".png");
  }

  /** What an archive entry holds: the base64 text of a data URL (the second
      comma-separated piece, missing without a comma), or the bytes of a remote file. */
  datatype Content = Inline(base64: Option<string>) | FetchedFrom(url: string)

  datatype Entry = Entry(name: string, content: Content)

  /** The entry of the `i`-th selected favourite: a data URL is stored inline; a remote
      file is stored when it could be fetched (`fetched`) and left out otherwise. */
  function ZipEntry(i: nat, f: Item, fetched: bool): (e: Option<Entry>)
    ensures e.None? <==> !StartsWith(f.url, "data:") && !fetched
    ensures e.Some? ==> e.value.name == ZipName(i, f)
    ensures e.Some? && StartsWith(f.url, "data:") ==> e.value.content == Inline(Workspace.Payload(f.url))
  {
    if StartsWith(f.url, "data:") then Some(Entry(ZipName(i, f), Inline(Workspace.Payload(f.url))))
    else if fetched then Some(Entry(ZipName(i, f), FetchedFrom(f.url)))
    else None
  }

  /** The entries of the selection's archive, in order; `fetched(i)` says whether the
      `i`-th selected remote file could be fetched. */
  function ZipEntries(sel: seq<Item>, fetched: nat -> bool, from: nat): (r: seq<Entry>)
    ensures |r| <= |sel|
    decreases |sel|
  {
    if sel == [] then []
    else
      var e := ZipEntry(from, sel[0], fetched(from));
      (if e.Some? then [e.value] else []) + ZipEntries(sel[1..], fetched, from + 1)
  }

  /** The archive of the selected favourites, or nothing at all for an empty selection. */
  function DownloadSelected(items: seq<Item>, selected: set<string>, fetched: nat -> bool): (r: Option<seq<Entry>>)
    ensures r.None? <==> Selected(items, selected) == []
    ensures r.Some? ==> r.value == ZipEntries(Selected(items, selected), fetched, 0)
  {
    var sel := Selected(items, selected);
    if |sel| == 0 then None else Some(ZipEntries(sel, fetched, 0))
  }

  /** Every URL of the selection is a data URL. */
  predicate AllDataUrls(sel: seq<Item>) {
    forall k :: 0 <= k < |sel| ==> StartsWith(sel[k].url, "data:")
  }

  /** A data URL at the head of the selection gives the archive's first entry. */
  lemma DataUrlHeadsArchive(sel: seq<Item>, fetched: nat -> bool, from: nat)
    requires sel != [] && StartsWith(sel[0].url, "data:")
    ensures ZipEntries(sel, fetched, from)
            == [Entry(ZipName(from, sel[0]), Inline(Workspace.Payload(sel[0].url)))] + ZipEntries(sel[1..], fetched, from + 1)
  {
    assert ZipEntry(from, sel[0], fetched(from)).Some?;
  }

  /** Dropping the first of a selection of data URLs leaves a selection of data URLs. */
  lemma DataUrlsRest(sel: seq<Item>)
    requires sel != [] && AllDataUrls(sel)
    ensures AllDataUrls(sel[1..])
  {
    forall k | 0 <= k < |sel| - 1 ensures StartsWith(sel[1..][k].url, "data:") {
      assert sel[1..][k] == sel[k + 1];
    }
  }

  /** The `k`-th favourite of a selection of data URLs is the archive's `k`-th entry. */
  lemma {:induction false} DataUrlEntryAt(sel: seq<Item>, fetched: nat -> bool, from: nat, k: nat)
    requires AllDataUrls(sel) && k < |sel|
    ensures |ZipEntries(sel, fetched, from)| == |sel|
    ensures ZipEntries(sel, fetched, from)[k] == Entry(ZipName(from + k, sel[k]), Inline(Workspace.Payload(sel[k].url)))
    decreases |sel|
  {
    DataUrlHeadsArchive(sel, fetched, from);
    DataUrlsRest(sel);
    var rest := sel[1..];
    if k == 0 {
      if rest != [] {
        DataUrlEntryAt(rest, fetched, from + 1, 0);
      } else {
        assert ZipEntries(rest, fetched, from + 1) == [];
      }
    } else {
      DataUrlEntryAt(rest, fetched, from + 1, k - 1);
      assert ZipEntries(sel, fetched, from)[k] == ZipEntries(rest, fetched, from + 1)[k - 1];
      assert rest[k - 1] == sel[k];
    }
  }

  /** A selection of data URLs alone is archived whole: one entry per favourite, named
      by position, holding the base64 text of its URL. */
  lemma DataUrlsArchivedWhole(sel: seq<Item>, fetched: nat -> bool, from: nat)
    requires AllDataUrls(sel)
    ensures |ZipEntries(sel, fetched, from)| == |sel|
    ensures forall k :: 0 <= k < |sel| ==>
      ZipEntries(sel, fetched, from)[k] == Entry(ZipName(from + k, sel[k]), Inline(Workspace.Payload(sel[k].url)))
  {
    if sel == [] {
      assert ZipEntries(sel, fetched, from) == [];
    } else {
      DataUrlEntryAt(sel, fetched, from, 0);
    }
    forall k | 0 <= k < |sel|
      ensures ZipEntries(sel, fetched, from)[k] == Entry(ZipName(from + k, sel[k]), Inline(Workspace.Payload(sel[k].url)))
    {
      DataUrlEntryAt(sel, fetched, from, k);
    }
  }

  // ------------------------------------------------------------------ variants

  /** One source prompt of a variants request, with its media type ("image" when the
      favourite has none). */
  datatype Source = Source(prompt: string, kind: string)

  /** The body of the variants request to `/api/analyze-site`. */
  datatype VariantsRequest = VariantsRequest(sources: seq<Source>, contentType: string, promptCount: int)

  /** `generateVariants` up to the request: nothing is sent for an empty selection;
      otherwise one source per selected favourite, in order. */
  function VariantsFor(items: seq<Item>, selected: set<string>, contentType: string, count: int): (r: Option<VariantsRequest>)
    ensures r.None? <==> Selected(items, selected) == []
    ensures r.Some? ==> |r.value.sources| == |Selected(items, selected)|
    ensures r.Some? ==> forall k :: 0 <= k < |r.value.sources| ==>
      r.value.sources[k] == Source(Selected(items, selected)[k].prompt, OrElse(Selected(items, selected)[k].mediaType, "image"))
  {
    var sel := Selected(items, selected);
    if |sel| == 0 then None
    else Some(VariantsRequest(seq(|sel|, k requires 0 <= k < |sel| => Source(sel[k].prompt, OrElse(sel[k].mediaType, "image"))),
                              contentType, count))
  }

  /** The selection state of the panel. */
  datatype Panel = Panel(selectMode: bool, selected: set<string>)

  /** After the variants answer: a reply whose `success` is true leaves select mode and
      clears the selection; a failed request, an unreadable reply or an unsuccessful one
      leaves the panel as it was. */
  function AfterVariants(p: Panel, reply: Result<bool>): (r: Panel)
    ensures reply == Ok(true) ==> r == Panel(false, {})
    ensures reply != Ok(true) ==> r == p
  {
    match reply
    case Ok(success) => if success then Panel(false, {}) else p
    case Err(_) => p
  }

  /** The variants request goes to the site-analysis route, which reads only `url` and
      `brandOverride` from its body; the request carries neither, so that route answers
      400 with `success: false`, fetches and stores nothing, and the panel keeps its
      selection. */
  lemma VariantsNeverSucceed(p: Panel, apiKey: Option<string>,
                             site: string -> Result<(nat, string)>, removeBlocks: string -> string,
                             model: (string, string) -> Fetch<Option<string>>,
                             parse: string -> Option<AnalyzeSite.Generated>,
                             count: string -> Result<Option<nat>>,
                             insert: seq<AnalyzeSite.Prompts.Fields> -> Option<string>)
    ensures var run := AnalyzeSite.Post(Ok(AnalyzeSite.AnalyzeBody(None, None)), apiKey, site, removeBlocks,
                                        model, parse, count, insert);
            && run.reply == AnalyzeSite.MissingUrl
            && run.fetched.None? && run.inserted == []
            && AfterVariants(p, Ok(run.reply.Analyzed?)) == p
  {
  }

  /** After a successful run nothing is selected, so neither a second ZIP nor a second
      variants request can start until favourites are selected again. */
  lemma SuccessLeavesNothingToSend(p: Panel, items: seq<Item>, contentType: string, count: int, fetched: nat -> bool)
    ensures VariantsFor(items, AfterVariants(p, Ok(true)).selected, contentType, count).None?
    ensures DownloadSelected(items, AfterVariants(p, Ok(true)).selected, fetched).None?
  {
    NothingSelected(items);
  }

  /** An empty selection selects no favourite. */
  lemma {:induction false} NothingSelected(items: seq<Item>)
    ensures Selected(items, {}) == []
    decreases |items|
  {
    if items != [] {
      NothingSelected(items[1..]);
    }
  }
}

=== FILE: gallery.dfy ===
/** The media gallery (app/api/gallery/route.ts): generated pictures and videos are
    stored under `<client>/<file name>`, where the file name encodes the upload time,
    the media type and a slug of the prompt; the listing decodes the name back. */
module Gallery {
  import opened Base
  import opened Text
  import opened Decimal
  import Tables

  // ------------------------------------------------------------------ the slug

  const AccentedLetters: string := "àâäéèêëïîôùûüÿçÀÂÄÉÈÊËÏÎÔÙÛÜŸÇ"
  const SlugLength: nat := 60

  /** One of the accented letters, all of which lie between U+00C0 and U+0178. */
  predicate Accented(c: char) {
    '\U{C0}' <= c <= '\U{178}' && c in AccentedLetters
  }

  /** The characters the slug keeps: ASCII letters and digits, the accented letters of
      French, whitespace and '-'. */
  predicate SlugChar(c: char) {
    ('a' <= c <= 'z') || ('A' <= c <= 'Z') || ('0' <= c <= '9') || Accented(c) || IsSpace(c) || c == '-'
  }

  /** Drops every character the slug does not keep. */
  function KeepSlugChars(s: string): (r: string)
    ensures |r| <= |s|
    ensures forall i :: 0 <= i < |r| ==> SlugChar(r[i])
    ensures forall c :: c in r <==> c in s && SlugChar(c)
    // the kept characters stay in their order
    ensures r == Tables.Filter(s, SlugChar)
  {
    if s == [] then []
    else (if SlugChar(s[0]) then [s[0]] else []) + KeepSlugChars(s[1..])
  }

  /** The kept text of the prompt's first 60 characters, trimmed, before its
      whitespace runs are collapsed. */
  function SlugText(prompt: Option<string>): (t: string)
    ensures '_' !in t && '.' !in t
    ensures t == [] || (!IsSpace(t[0]) && !IsSpace(t[|t| - 1]))
  {
    var kept := KeepSlugChars(Take(OrElse(prompt, ""), SlugLength));
    assert !SlugChar('_') && !SlugChar('.');
    assert '_' !in kept && '.' !in kept;
    Trim(kept)
  }

  /** The slug of a prompt: its kept text with every whitespace run written "__", so
      that it holds no whitespace. */
  function Slug(prompt: Option<string>): (slug: string)
    ensures NoSpace(slug)
  {
    var t := SlugText(prompt);
    CollapseRunsToUnderscores(t);
    CollapseRuns(t, "__")
  }

  /** Reading every "__" of the slug as a space gives the kept text with each whitespace
      run written as one space. */
  lemma SlugReadsBack(prompt: Option<string>)
    ensures ReplaceAll(Slug(prompt), "__", " ") == CollapseRuns(SlugText(prompt), " ")
  {
    CollapseThenReplace(SlugText(prompt));
  }

  // ------------------------------------------------------------------ the file name

  /** `${timestamp}_${mediaType}${slug ? `_${slug}` : ''}.${ext}`. */
  function FileName(timestamp: nat, mediaType: string, slug: string, ext: string): string {
    NatToDecimal(timestamp) + "_" + mediaType + (if slug != "" then "_" + slug else "") + "." + ext
  }

  /** The position of the last '.' of `s`. */
  function LastDot(s: string): (i: Option<nat>)
    ensures i.Some? ==> i.value < |s| && s[i.value] == '.' && '.' !in s[i.value + 1..]
    ensures i.None? ==> '.' !in s
  {
    if s == [] then None
    else if s[|s| - 1] == '.' then Some(|s| - 1)
    else
      var r := LastDot(s[..|s| - 1]);
      if r.Some? then
        assert s[r.value + 1..] == s[..|s| - 1][r.value + 1..] + [s[|s| - 1]];
        r
      else r
  }

  /** `name.replace(/\.[^.]+$/, '')`: the last '.' and what follows it are removed when
      at least one character follows. */
  function StripExtension(name: string): (r: string)
    ensures |r| <= |name| && r == name[..|r|]
  {
    match LastDot(name)
    case Some(i) => if i + 1 < |name| then name[..i] else name
    case None => name
  }

  /** The last '.' of `base.ext` is the one written before `ext`. */
  lemma {:induction false} LastDotOf(base: string, ext: string)
    requires '.' !in ext
    ensures LastDot(base + "." + ext) == Some(|base|)
    decreases |ext|
  {
    var s := base + "." + ext;
    if ext != [] {
      var e := ext[..|ext| - 1];
      assert s[..|s| - 1] == base + "." + e;
      assert s[|s| - 1] == ext[|ext| - 1];
      assert forall c :: c in e ==> c in ext;
      LastDotOf(base, e);
    }
  }

  /** Removing the extension of `base.ext` gives `base` back. */
  lemma StripExtensionOf(base: string, ext: string)
    requires ext != "" && '.' !in ext
    ensures StripExtension(base + "." + ext) == base
  {
    LastDotOf(base, ext);
    assert (base + "." + ext)[..|base|] == base;
  }

  /** One listed file. */
  datatype Entry = Entry(url: string, prompt: string, timestamp: int, mediaType: string, fileName: string)

  /** What the listing reads from a file name: the number before the first '_' (the
      current time when it is not a non-zero number), the media type after it ("image"
      when absent), and the rest with every "__" read as a space. */
  function ParseName(name: string, now: int): (r: (int, string, string))
    ensures r.1 != "" && '_' !in r.1
    ensures var parts := Split(StripExtension(name), '_');
            && (ParseInt(parts[0]).Some? && ParseInt(parts[0]).value != 0 ==> r.0 == ParseInt(parts[0]).value)
            && (ParseInt(parts[0]).None? || ParseInt(parts[0]) == Some(0) ==> r.0 == now)
            && (|parts| > 1 && parts[1] != "" ==> r.1 == parts[1])
            && (|parts| <= 1 || parts[1] == "" ==> r.1 == "image")
            && (|parts| > 2 ==> r.2 == ReplaceAll(Join(parts[2..], "_"), "__", " "))
            && (|parts| <= 2 ==> r.2 == "")
  {
    ReadParts(Split(StripExtension(name), '_'), now)
  }

  /** The reading of the '_'-separated pieces of a name without its extension. */
  function ReadParts(parts: seq<string>, now: int): (r: (int, string, string))
    requires |parts| > 0
    // `parseInt(parts[0]) || Date.now()`: NaN and 0 are both falsy
    ensures ParseInt(parts[0]).Some? && ParseInt(parts[0]).value != 0 ==> r.0 == ParseInt(parts[0]).value
    ensures ParseInt(parts[0]).None? || ParseInt(parts[0]) == Some(0) ==> r.0 == now
    // `parts[1] || 'image'`
    ensures |parts| > 1 && parts[1] != "" ==> r.1 == parts[1]
    ensures |parts| <= 1 || parts[1] == "" ==> r.1 == "image"
    // the pieces after the second, joined with '_' and with every "__" read as a space
    ensures |parts| > 2 ==> r.2 == ReplaceAll(Join(parts[2..], "_"), "__", " ")
    ensures |parts| <= 2 ==> r.2 == ""
  {
    var timestamp := match ParseInt(parts[0])
      case Some(v) => if v != 0 then v else now
      case None => now;
    var mediaType := if |parts| > 1 && parts[1] != "" then parts[1] else "image";
    (timestamp, mediaType, ReplaceAll(Join(if |parts| > 2 then parts[2..] else [], "_"), "__", " "))
  }

  /** The name without its extension splits into the digits, the media type and the
      pieces of the slug. */
  lemma SplitFileName(digits: string, mediaType: string, slug: string)
    requires '_' !in digits && '_' !in mediaType
    ensures Split(digits + "_" + mediaType + (if slug != "" then "_" + slug else ""), '_')
            == [digits, mediaType] + (if slug != "" then Split(slug, '_') else [])
  {
    var tail := if slug != "" then "_" + slug else "";
    assert digits + "_" + mediaType + tail == digits + ['_'] + (mediaType + tail);
    SplitCons(digits, '_', mediaType + tail);
    if slug != "" {
      assert mediaType + tail == mediaType + ['_'] + slug;
      SplitCons(mediaType, '_', slug);
    } else {
      assert mediaType + tail == mediaType;
    }
  }

  /** The pieces of a written file name, once its extension is removed. */
  lemma NameParts(timestamp: nat, mediaType: string, slug: string, ext: string)
    requires '_' !in mediaType && ext != "" && '.' !in ext
    ensures Split(StripExtension(FileName(timestamp, mediaType, slug, ext)), '_')
            == [NatToDecimal(timestamp), mediaType] + (if slug != "" then Split(slug, '_') else [])
  {
    var digits := NatToDecimal(timestamp);
    var base := digits + "_" + mediaType + (if slug != "" then "_" + slug else "");
    assert FileName(timestamp, mediaType, slug, ext) == base + "." + ext;
    StripExtensionOf(base, ext);
    assert '_' !in digits by { assert forall i :: 0 <= i < |digits| ==> IsDigit(digits[i]); }
    SplitFileName(digits, mediaType, slug);
  }

  /** Any file name the upload writes reads back as its time, its media type and its
      slug with every "__" read as a space. */
  lemma ParseFileName(timestamp: nat, mediaType: string, slug: string, ext: string, now: int)
    requires timestamp > 0 && mediaType != "" && '_' !in mediaType
    requires ext != "" && '.' !in ext
    ensures ParseName(FileName(timestamp, mediaType, slug, ext), now)
            == (timestamp, mediaType, ReplaceAll(slug, "__", " "))
  {
    NameParts(timestamp, mediaType, slug, ext);
    ReadWrittenParts(timestamp, mediaType, slug, now);
  }

  /** The pieces of a written name read back as its time, media type and slug. */
  lemma ReadWrittenParts(timestamp: nat, mediaType: string, slug: string, now: int)
    requires timestamp > 0 && mediaType != ""
    ensures ReadParts([NatToDecimal(timestamp), mediaType] + (if slug != "" then Split(slug, '_') else []), now)
            == (timestamp, mediaType, ReplaceAll(slug, "__", " "))
  {
    var parts := [NatToDecimal(timestamp), mediaType] + (if slug != "" then Split(slug, '_') else []);
    ParseIntOfDecimal(timestamp);
    if slug != "" {
      assert parts[2..] == Split(slug, '_');
      JoinSplit(slug, '_');
    } else {
      assert |parts| == 2;
      assert Join([], "_") == "";
    }
  }

  /** The name of a stored file reads back as its time, its media type and its prompt's
      kept text with whitespace runs as single spaces. */
  lemma NameRoundTrip(timestamp: nat, mediaType: string, prompt: Option<string>, ext: string, now: int)
    requires timestamp > 0 && mediaType != "" && '_' !in mediaType
    requires ext != "" && '.' !in ext
    ensures ParseName(FileName(timestamp, mediaType, Slug(prompt), ext), now)
            == (timestamp, mediaType, CollapseRuns(SlugText(prompt), " "))
  {
    ParseFileName(timestamp, mediaType, Slug(prompt), ext, now);
    SlugReadsBack(prompt);
  }

  // ------------------------------------------------------------------ media type

  /** The type named by a base64 data URL (`^data:([^;]+);base64,`), if it has one. */
  function DataMime(url: string): (m: Option<string>)
    ensures m.Some? ==> StartsWith(url, "data:") && m.value != "" && ';' !in m.value
  {
    if !StartsWith(url, "data:") then None
    else
      var rest := url[5..];
      if ';' !in rest then None
      else
        var i := IndexOf(rest, ';');
        if i > 0 && StartsWith(rest[i..], ";base64,") then Some(rest[..i]) else None
  }

  /** A data URL written by `DataUrl` names its type. */
  lemma DataMimeOfDataUrl(mime: string, base64: string)
    requires mime != "" && ';' !in mime
    ensures DataMime(DataUrl(mime, base64)) == Some(mime)
  {
    var url := DataUrl(mime, base64);
    assert url == "data:" + (mime + ";base64," + base64);
    var rest := url[5..];
    assert rest == mime + (";base64," + base64);
    assert rest[|mime|] == ';';
    assert rest[..|mime|] == mime;
    assert IndexOf(rest, ';') == |mime|;
    assert rest[|mime|..] == ";base64," + base64;
    assert rest[..|mime|] == mime;
  }

  /** The four extensions a stored file can carry. */
  predicate StoredExtension(ext: string) {
    ext == "jpg" || ext == "mp4" || ext == "webp" || ext == "png"
  }

  /** A JPEG type: it names "jpeg", or "jpg" where that spelling is recognised. */
  predicate IsJpeg(contentType: string, jpgAlias: bool) {
    Contains(contentType, "jpeg") || (jpgAlias && Contains(contentType, "jpg"))
  }

  /** The stored extension and content type for a content type: "jpg" for JPEG ("jpg"
      is recognised only when `jpgAlias`), "mp4" with type `video/mp4` for any video,
      "webp", and "png" for anything else. */
  function Extension(contentType: string, jpgAlias: bool): (r: (string, string))
    ensures StoredExtension(r.0)
    ensures r.0 == "jpg" <==> IsJpeg(contentType, jpgAlias)
    ensures r.0 == "mp4" <==> !IsJpeg(contentType, jpgAlias) && Contains(contentType, "video")
    ensures r.0 == "webp" <==> !IsJpeg(contentType, jpgAlias) && !Contains(contentType, "video") && Contains(contentType, "webp")
    ensures r.0 == "png" <==> !IsJpeg(contentType, jpgAlias) && !Contains(contentType, "video") && !Contains(contentType, "webp")
    // a video is stored as `video/mp4`; every other type keeps its own
    ensures r.0 == "mp4" ==> r.1 == "video/mp4"
    ensures r.0 != "mp4" ==> r.1 == contentType
  {
    if IsJpeg(contentType, jpgAlias) then ("jpg", contentType)
    else if Contains(contentType, "video") then ("mp4", DefaultMime)
    else if Contains(contentType, "webp") then ("webp", contentType)
    else ("png", contentType)
  }

  // ------------------------------------------------------------------ POST

  datatype UploadBody = UploadBody(dataUrl: Option<string>, prompt: Option<string>, mediaType: Option<string>)

  /** What is written to the bucket. */
  datatype Upload = Upload(path: string, contentType: string)

  datatype PostReply =
    | MissingDataUrl              // 400
    | UnsupportedDataUrl          // 400
    | Failed(error: string)       // 500: a thrown error
    | LibraryError                // 500: `Buffer.from` rejects a data URL without a comma
    | UploadFailed(error: string)
    | Stored(fileName: string, mediaType: string)
  {
    function StatusCode(): nat {
      match this
      case MissingDataUrl | UnsupportedDataUrl => 400
      case Failed(_) | LibraryError => 500
      case _ => 200
    }
  }

  datatype PostRun = PostRun(reply: PostReply, upload: Option<Upload>)

  /** The upload of a body under a chosen extension and content type: the client's
      folder, the encoded name. */
  function UploadFor(b: UploadBody, env: Option<string>, now: nat, typed: (string, string)): Upload {
    Upload(ClientId(env) + "/" + FileName(now, b.mediaType.GetOr("image"), Slug(b.prompt), typed.0), typed.1)
  }

  /** `POST(req)`: `body` is the parsed body or the parse error, `now` the time in
      milliseconds, `fetchMedia` the `content-type` of a remote URL (or the error its
      fetch throws) and `store` the bucket's upload error, if any. */
  function Post(body: Result<UploadBody>, env: Option<string>, now: nat,
                fetchMedia: string -> Result<Option<string>>, store: Upload -> Option<string>): (run: PostRun)
    ensures body.Ok? && !Truthy(body.value.dataUrl) ==> run == PostRun(MissingDataUrl, None)
    ensures (body.Ok? && Truthy(body.value.dataUrl) && !StartsWith(body.value.dataUrl.value, "data:")
               && !StartsWith(body.value.dataUrl.value, "http")) ==> run == PostRun(UnsupportedDataUrl, None)
    // the file goes to the client's folder under the encoded name
    ensures run.upload.Some? ==>
              && body.Ok? && Truthy(body.value.dataUrl)
              && exists ext :: StoredExtension(ext) &&
                   run.upload.value.path == ClientId(env) + "/" +
                     FileName(now, body.value.mediaType.GetOr("image"), Slug(body.value.prompt), ext)
    ensures run.reply.Stored? <==> run.upload.Some? && store(run.upload.value).None?
    ensures run.reply.Stored? ==>
              && run.reply.mediaType == body.value.mediaType.GetOr("image")
              && run.upload.value.path == ClientId(env) + "/" + run.reply.fileName
              && exists ext :: StoredExtension(ext) &&
                   run.reply.fileName == FileName(now, body.value.mediaType.GetOr("image"), Slug(body.value.prompt), ext)
    // a data URL's own type decides the extension
    ensures run.upload.Some? && StartsWith(body.value.dataUrl.value, "data:") && DataMime(body.value.dataUrl.value).Some? ==>
              var (ext, contentType) := Extension(DataMime(body.value.dataUrl.value).value, true);
              run.upload.value == Upload(ClientId(env) + "/" + FileName(now, body.value.mediaType.GetOr("image"), Slug(body.value.prompt), ext), contentType)
    // a data URL with a comma is always uploaded; one without a type is a PNG
    ensures body.Ok? && Truthy(body.value.dataUrl) && StartsWith(body.value.dataUrl.value, "data:") ==>
              var url := body.value.dataUrl.value;
              && (',' !in url ==> run == PostRun(LibraryError, None))
              && (',' in url ==> run.upload.Some?)
              && (',' in url && DataMime(url).None? ==> run.upload == Some(UploadFor(body.value, env, now, ("png", "image/png"))))
    // a remote URL is typed by its `content-type` header, PNG when it has none; a failed
    // fetch uploads nothing
    ensures body.Ok? && Truthy(body.value.dataUrl) && !StartsWith(body.value.dataUrl.value, "data:")
            && StartsWith(body.value.dataUrl.value, "http") ==>
              var fetched := fetchMedia(body.value.dataUrl.value);
              && (fetched.Err? ==> run == PostRun(Failed(fetched.error), None))
              && (fetched.Ok? ==> run.upload == Some(UploadFor(body.value, env, now, Extension(OrElse(fetched.value, "image/png"), false))))
    ensures run.upload.Some? && store(run.upload.value).Some? ==> run.reply == UploadFailed(store(run.upload.value).value)
    ensures body.Err? ==> run == PostRun(Failed(body.error), None)
  {
    match body
    case Err(m) => PostRun(Failed(m), None)
    case Ok(b) =>
      if !Truthy(b.dataUrl) then PostRun(MissingDataUrl, None)
      else
        var url := b.dataUrl.value;
        var mediaType := b.mediaType.GetOr("image");
        if !StartsWith(url, "data:") && !StartsWith(url, "http") then PostRun(UnsupportedDataUrl, None)
        else if StartsWith(url, "data:") && ',' !in url then PostRun(LibraryError, None)
        else
          var typed: Result<(string, string)> :=
            if StartsWith(url, "data:") then
              match DataMime(url)
              case Some(mime) => Ok(Extension(mime, true))
              case None => Ok(("png", "image/png"))
            else
              match fetchMedia(url)
              case Err(m) => Err(m)
              case Ok(header) => Ok(Extension(OrElse(header, "image/png"), false));
          match typed
          case Err(m) => PostRun(Failed(m), None)
          case Ok((ext, contentType)) =>
            var name := FileName(now, mediaType, Slug(b.prompt), ext);
            var upload := UploadFor(b, env, now, (ext, contentType));
            match store(upload)
            case Some(m) => PostRun(UploadFailed(m), Some(upload))
            case None => PostRun(Stored(name, mediaType), Some(upload))
  }

  /** A stored picture or video is listed again under its media type and time. */
  lemma StoredFileListsBack(body: UploadBody, env: Option<string>, now: nat,
                            fetchMedia: string -> Result<Option<string>>, store: Upload -> Option<string>, later: int)
    requires now > 0
    requires var t := body.mediaType.GetOr("image"); t != "" && '_' !in t
    requires Post(Ok(body), env, now, fetchMedia, store).reply.Stored?
    ensures var reply := Post(Ok(body), env, now, fetchMedia, store).reply;
            ParseName(reply.fileName, later) == (now, reply.mediaType, CollapseRuns(SlugText(body.prompt), " "))
  {
    var reply := Post(Ok(body), env, now, fetchMedia, store).reply;
    StoredNameListsBack(reply.fileName, reply.mediaType, body.prompt, now, later);
  }

  /** A name the upload produced, whatever its extension, reads back as its parts. */
  lemma StoredNameListsBack(fileName: string, mediaType: string, prompt: Option<string>, now: nat, later: int)
    requires now > 0 && mediaType != "" && '_' !in mediaType
    requires exists ext :: StoredExtension(ext) && fileName == FileName(now, mediaType, Slug(prompt), ext)
    ensures ParseName(fileName, later) == (now, mediaType, CollapseRuns(SlugText(prompt), " "))
  {
    var ext :| StoredExtension(ext) && fileName == FileName(now, mediaType, Slug(prompt), ext);
    StoredExtensionPlain(ext);
    NameRoundTrip(now, mediaType, prompt, ext, later);
  }

  /** A stored extension is a non-empty name without a dot. */
  lemma StoredExtensionPlain(ext: string)
    requires StoredExtension(ext)
    ensures ext != "" && '.' !in ext
  {
  }

  // ------------------------------------------------------------------ GET

  /** A name the listing shows. */
  predicate Shown(name: string) {
    !StartsWith(name, ".")
  }

  /** The listed names that are not hidden (do not start with '.'). */
  function Visible(names: seq<string>): (r: seq<string>)
    ensures forall n :: n in r <==> n in names && !StartsWith(n, ".")
    ensures |r| <= |names|
    // the shown names, in the listing's order and with their repetitions
    ensures r == Tables.Filter(names, Shown)
  {
    if names == [] then []
    else (if StartsWith(names[0], ".") then [] else [names[0]]) + Visible(names[1..])
  }

  /** `GET()`: the client's files (or the listing error), each read back from its name.
      `publicBase` is the bucket's public address. */
  function List(files: Result<seq<string>>, env: Option<string>, publicBase: string, now: int): (r: Result<seq<Entry>>)
    ensures files.Err? ==> r == Err(files.error)
    ensures files.Ok? ==>
              && r.Ok? && |r.value| == |Visible(files.value)|
              && forall i :: 0 <= i < |r.value| ==>
                   && r.value[i].fileName == Visible(files.value)[i]
                   && r.value[i].fileName in files.value && !StartsWith(r.value[i].fileName, ".")
                   && r.value[i].url == publicBase + "/" + ClientId(env) + "/" + r.value[i].fileName
                   && (r.value[i].timestamp, r.value[i].mediaType, r.value[i].prompt) == ParseName(r.value[i].fileName, now)
  {
    match files
    case Err(m) => Err(m)
    case Ok(names) =>
      var shown := Visible(names);
      Ok(seq(|shown|, i requires 0 <= i < |shown| =>
        var p := ParseName(shown[i], now);
        Entry(publicBase + "/" + ClientId(env) + "/" + shown[i], p.2, p.0, p.1, shown[i])))
  }

  // ------------------------------------------------------------------ DELETE

  datatype DeleteReply = MissingFileName | DeleteFailed(error: string) | Deleted {
    function StatusCode(): nat {
      if MissingFileName? then 400 else 200
    }
  }

  /** `DELETE(req)` on the bucket's set of paths: removes exactly the client's file of
      that name, and nothing when the name is missing or the removal fails. */
  function Delete(fileName: Option<string>, env: Option<string>, paths: set<string>, failure: Option<string>): (r: (DeleteReply, set<string>))
    ensures !Truthy(fileName) ==> r == (MissingFileName, paths)
    ensures Truthy(fileName) && failure.None? ==>
              r.0 == Deleted && r.1 == paths - {ClientId(env) + "/" + fileName.value}
    ensures Truthy(fileName) && failure.Some? ==> r == (DeleteFailed(failure.value), paths)
    ensures r.0 != Deleted ==> r.1 == paths
    ensures r.1 <= paths && |paths - r.1| <= 1
  {
    if !Truthy(fileName) then (MissingFileName, paths)
    else match failure
      case Some(m) => (DeleteFailed(m), paths)
      case None =>
        var path := ClientId(env) + "/" + fileName.value;
        assert paths - (paths - {path}) <= {path};
        (Deleted, paths - {path})
  }
}

=== FILE: image_job.dfy ===
/** The image job `app/api/generate/route.ts`: it reads the sheet (retrying while the
    service answers 503), takes the first row whose status is not "généré", picks the
    product images of the group the row names, normalises the aspect ratio, and asks
    the image model for one picture, rotating through the comma-separated API keys
    when a key is rate limited. On success the row is marked generated.

    The sheet read, the model endpoint and the row save are oracles: `read(a)` is the
    outcome of the a-th sheet read, `respond(a, key)` the response to the a-th model
    request sent with `key`, and `save` the error `row.save()` raised, if any. Waits
    are recorded as their length in milliseconds instead of being slept. */
module ImageJob {
  import opened Base
  import opened Text
  import opened Decimal
  import Tables

  // ------------------------------------------------------------------ getSheetData

  const SheetRetries: nat := 3
  const SheetErrorPrefix: string := "Erreur d'accès au Google Sheet: "

  /** What the sheet reads did: the outcome, how many reads were made and the wait
      before each retry. */
  datatype SheetFetch = SheetFetch(result: Result<seq<SheetRow>>, readCount: nat, waits: seq<nat>)

  /** `getSheetData(retries)` from attempt `attempt` on: an error mentioning 503 is
      retried after `attempt * 2000` ms while attempts remain; any other error, or a
      503 on the last attempt, is rethrown with a prefix. */
  function SheetLoop(attempt: nat, retries: nat, read: nat -> Result<seq<SheetRow>>): (r: SheetFetch)
    requires attempt >= 1
    decreases retries + 1 - attempt
    ensures attempt <= retries ==> 1 <= r.readCount <= retries + 1 - attempt
    ensures attempt <= retries ==> |r.waits| == r.readCount - 1
    ensures forall i :: 0 <= i < |r.waits| ==> r.waits[i] == (attempt + i) * 2000
    ensures forall k :: attempt <= k < attempt + r.readCount - 1 ==> read(k).Err? && Contains(read(k).error, "503")
    ensures r.result.Ok? ==> r.readCount >= 1 && r.result == read(attempt + r.readCount - 1)
    ensures attempt <= retries && r.result.Err? ==>
              read(attempt + r.readCount - 1).Err?
              && r.result.error == SheetErrorPrefix + read(attempt + r.readCount - 1).error
  {
    if attempt > retries then SheetFetch(Err("Échec après plusieurs tentatives"), 0, [])
    else match read(attempt)
      case Ok(rows) => SheetFetch(Ok(rows), 1, [])
      case Err(m) =>
        if Contains(m, "503") && attempt < retries then
          var rest := SheetLoop(attempt + 1, retries, read);
          SheetFetch(rest.result, rest.readCount + 1, [attempt * 2000] + rest.waits)
        else SheetFetch(Err(SheetErrorPrefix + m), 1, [])
  }

  function GetSheetData(read: nat -> Result<seq<SheetRow>>): SheetFetch {
    SheetLoop(1, SheetRetries, read)
  }

  /** The final "Échec après plusieurs tentatives" of `getSheetData` is unreachable
      with at least one attempt: the last attempt always returns or rethrows. */
  lemma SheetFallbackUnreachable(retries: nat, read: nat -> Result<seq<SheetRow>>)
    requires retries >= 1
    ensures SheetLoop(1, retries, read).result != Err("Échec après plusieurs tentatives")
  {
    var r := SheetLoop(1, retries, read);
    if r.result.Err? {
      assert r.result.error[0] == 'E';
      assert "Échec après plusieurs tentatives"[0] != 'E';
    }
  }

  /** Three 503 errors in a row: two waits of 2 s and 4 s, then the prefixed error. */
  lemma ThreeUnavailable(read: nat -> Result<seq<SheetRow>>)
    requires forall a :: 1 <= a <= 3 ==> read(a) == Err("503 Service Unavailable")
    ensures GetSheetData(read) ==
              SheetFetch(Err(SheetErrorPrefix + "503 Service Unavailable"), 3, [2000, 4000])
  {
    var m := "503 Service Unavailable";
    assert Contains(m, "503") by { assert OccursAt(m, "503", 0); }
    var last := SheetLoop(3, 3, read);
    assert last == SheetFetch(Err(SheetErrorPrefix + m), 1, []);
    var second := SheetLoop(2, 3, read);
    assert second == SheetFetch(last.result, 2, [4000] + last.waits);
    assert SheetLoop(1, 3, read) == SheetFetch(second.result, 3, [2000] + second.waits);
    assert [2000] + ([4000] + []) == [2000, 4000];
  }

  // ------------------------------------------------------------------ generateWithProductImage

  const MaxAttempts: nat := 5

  /** One part of the first candidate: text, or inline data whose `data` may be absent. */
  datatype Part = TextPart | InlinePart(data: Option<string>)

  datatype Candidate = Candidate(parts: seq<Part>)

  /** A JSON reply of the model: `candidates` may be absent. A candidate without
      `content` is read as having no parts. */
  datatype ModelReply = ModelReply(candidates: Option<seq<Candidate>>)

  const ImagePrefix: string := "data:image/png;base64,"
  const Overloaded: string := "Serveurs Google surchargés. Réessaye dans quelques minutes."
  const RateLimited: string := "Limite de requêtes atteinte. Attends quelques minutes avant de réessayer."

  /** The position of the first part carrying inline data. */
  function FirstInline(parts: seq<Part>): (r: Option<nat>)
    ensures r.Some? ==> r.value < |parts| && parts[r.value].InlinePart?
                        && forall j :: 0 <= j < r.value ==> !parts[j].InlinePart?
    ensures r.None? ==> forall j :: 0 <= j < |parts| ==> !parts[j].InlinePart?
  {
    if |parts| == 0 then None
    else if parts[0].InlinePart? then Some(0)
    else match FirstInline(parts[1..])
      case None => None
      case Some(j) => Some(j + 1)
  }

  /** The `data` of the first inline part of the first candidate, when it is set and
      non-empty. */
  function ImageData(reply: ModelReply): (d: Option<string>)
    ensures d.Some? <==> reply.candidates.Some? && |reply.candidates.value| > 0
                         && FirstInline(reply.candidates.value[0].parts).Some?
                         && Truthy(reply.candidates.value[0].parts[FirstInline(reply.candidates.value[0].parts).value].data)
    ensures d.Some? ==> d.value != ""
  {
    if reply.candidates.None? || |reply.candidates.value| == 0 then None
    else
      var parts := reply.candidates.value[0].parts;
      match FirstInline(parts)
      case None => None
      case Some(i) => if Truthy(parts[i].data) then parts[i].data else None
  }

  /** The data URL the route answers with. */
  function PngDataUrl(data: string): string {
    ImagePrefix + data
  }

  predicate IsPngDataUrl(u: string) {
    StartsWith(u, ImagePrefix) && |u| > |ImagePrefix|
  }

  lemma PngDataUrlShape(data: string)
    requires data != ""
    ensures IsPngDataUrl(PngDataUrl(data))
  {
    assert PngDataUrl(data)[..|ImagePrefix|] == ImagePrefix;
  }

  /** The picture of a JSON reply, as a PNG data URL, or the error thrown for it: no
      candidate, or no inline data in the first one. */
  function ImageOf(reply: ModelReply): (r: Result<string>)
    ensures r.Ok? <==> ImageData(reply).Some?
    ensures r.Ok? ==> r.value == PngDataUrl(ImageData(reply).value) && IsPngDataUrl(r.value)
  {
    match ImageData(reply)
    case Some(d) =>
      PngDataUrlShape(d);
      Ok(PngDataUrl(d))
    case None =>
      if reply.candidates.None? || |reply.candidates.value| == 0 then Err("Aucune image générée")
      else Err("Pas de données image dans la réponse")
  }

  /** One model request: its attempt number, the index of the key it was sent with and
      the wait that followed it (0 when none). */
  datatype Request = Request(attempt: nat, keyIndex: nat, waitAfter: nat)

  datatype Rotation = Rotation(result: Result<string>, requests: seq<Request>)

  /** The outcome of one response, when it neither asks for a wait nor rotates the key:
      a thrown fetch, a non-OK status, an unparsable body or a reply without picture is
      an error, which the loop retries at once unless it was the last attempt. */
  function Outcome(f: Fetch<ModelReply>): (r: Result<string>)
    ensures r.Ok? ==> f.Http? && IsOk(f.status) && f.body.Json? && r == ImageOf(f.body.value)
    ensures r.Ok? ==> IsPngDataUrl(r.value)
  {
    match f
    case Threw(m) => Err(m)
    case Http(status, body) =>
      if !IsOk(status) then Err("Erreur API: " + NatToDecimal(status))
      else match body
        case NotJson(m) => Err(m)
        case Json(reply) => ImageOf(reply)
  }

  /** The wait after a rate-limited attempt: short when another key can be tried. */
  function RateLimitWait(keyCount: nat, attempt: nat): nat {
    if keyCount > 1 then 2000 else 10000 + attempt * 5000
  }

  /** The key after a rate-limited attempt: the next one, wrapping around. */
  function NextKey(key: nat, keyCount: nat): (k: nat)
    requires key < keyCount
    ensures k < keyCount
  {
    if key + 1 < keyCount then key + 1 else 0
  }

  /** The source keeps a counter of 429 responses and uses key `counter % |keys|`; the
      model keeps that index itself. Advancing it with `NextKey` is the same as
      counting one more 429. */
  lemma NextKeyIsCounterMod(counter: nat, keyCount: nat)
    requires keyCount > 0
    ensures NextKey(counter % keyCount, keyCount) == (counter + 1) % keyCount
  {
    var q, r := counter / keyCount, counter % keyCount;
    assert counter == q * keyCount + r;
    if r + 1 < keyCount {
      ModUnique(counter + 1, keyCount, q, r + 1);
    } else {
      assert counter + 1 == (q + 1) * keyCount + 0;
      ModUnique(counter + 1, keyCount, q + 1, 0);
    }
  }

  predicate IsRateLimited(f: Fetch<ModelReply>) {
    f.Http? && f.status == 429
  }

  /** The wait that follows a response on a non-final attempt. */
  function StepWait(keyCount: nat, attempt: nat, f: Fetch<ModelReply>): nat {
    if f.Http? && f.status == 503 then attempt * 3000
    else if IsRateLimited(f) then RateLimitWait(keyCount, attempt)
    else 0
  }

  /** The key used after a response: the next one after a 429, the same one otherwise. */
  function KeyAfter(key: nat, keyCount: nat, f: Fetch<ModelReply>): (k: nat)
    requires key < keyCount
    ensures k < keyCount
  {
    if IsRateLimited(f) then NextKey(key, keyCount) else key
  }

  /** `rs` is the request trace from attempt `attempt` on, starting with key `key`:
      attempts are consecutive, every response but the last failed, the key moves on
      exactly after a 429, the wait after each request but the last is the one its
      response calls for, and the last request is followed by no wait. */
  predicate Trace(keys: seq<string>, attempt: nat, key: nat, rs: seq<Request>,
                  respond: (nat, string) -> Fetch<ModelReply>)
    decreases |rs|
  {
    && |rs| > 0 && key < |keys|
    && rs[0].attempt == attempt && rs[0].keyIndex == key
    && var f := respond(attempt, keys[key]);
       if |rs| == 1 then rs[0].waitAfter == 0
       else Outcome(f).Err? && rs[0].waitAfter == StepWait(|keys|, attempt, f)
            && Trace(keys, attempt + 1, KeyAfter(key, |keys|, f), rs[1..], respond)
  }

  /** The error reported when the last attempt fails: overload and rate limiting
      have their own messages, anything else keeps its own. */
  function FinalOutcome(f: Fetch<ModelReply>): (r: Result<string>)
    ensures r.Ok? <==> Outcome(f).Ok?
    ensures r.Ok? ==> r == Outcome(f)
  {
    if f.Http? && f.status == 503 then Err(Overloaded)
    else if IsRateLimited(f) then Err(RateLimited)
    else Outcome(f)
  }

  /** The retry loop from attempt `attempt` on, using key `key`: every failed response
      is retried (after its wait, with the key it calls for) until the attempts run out. */
  function RotationLoop(keys: seq<string>, attempt: nat, key: nat,
                        respond: (nat, string) -> Fetch<ModelReply>): (r: Rotation)
    requires key < |keys| && 1 <= attempt <= MaxAttempts
    decreases MaxAttempts - attempt
    ensures 1 <= |r.requests| <= MaxAttempts + 1 - attempt
    ensures Trace(keys, attempt, key, r.requests, respond)
    // an error is reported only once every attempt has been spent
    ensures r.result.Err? ==> |r.requests| == MaxAttempts + 1 - attempt
    // a picture is the answer to the last request
    ensures r.result.Ok? ==>
              var last := r.requests[|r.requests| - 1];
              last.keyIndex < |keys| && Outcome(respond(last.attempt, keys[last.keyIndex])) == r.result
    // the result is the verdict on the last response
    ensures var last := r.requests[|r.requests| - 1];
            last.keyIndex < |keys| && r.result == FinalOutcome(respond(last.attempt, keys[last.keyIndex]))
  {
    var f := respond(attempt, keys[key]);
    if Outcome(f).Err? && attempt < MaxAttempts then
      var rest := RotationLoop(keys, attempt + 1, KeyAfter(key, |keys|, f), respond);
      var rs := [Request(attempt, key, StepWait(|keys|, attempt, f))] + rest.requests;
      assert rs[1..] == rest.requests && rs[|rs| - 1] == rest.requests[|rest.requests| - 1];
      Rotation(rest.result, rs)
    else Rotation(FinalOutcome(f), [Request(attempt, key, 0)])
  }

  /** The response to request `q` failed. */
  predicate FailedRequest(keys: seq<string>, respond: (nat, string) -> Fetch<ModelReply>, q: Request) {
    q.keyIndex < |keys| && Outcome(respond(q.attempt, keys[q.keyIndex])).Err?
  }

  /** In a trace, the response to every request but the last failed. */
  lemma {:induction false} TraceEarlierFailed(keys: seq<string>, attempt: nat, key: nat, rs: seq<Request>,
                                              respond: (nat, string) -> Fetch<ModelReply>, i: nat)
    requires Trace(keys, attempt, key, rs, respond) && i + 1 < |rs|
    decreases i
    ensures FailedRequest(keys, respond, rs[i])
  {
    if i > 0 {
      var f := respond(attempt, keys[key]);
      TraceEarlierFailed(keys, attempt + 1, KeyAfter(key, |keys|, f), rs[1..], respond, i - 1);
      assert rs[i] == rs[1..][i - 1];
    }
  }

  /** Every request of a trace is sent with a key of the list, on an attempt between
      the first and the last. */
  lemma {:induction false} TraceBounds(keys: seq<string>, attempt: nat, key: nat, rs: seq<Request>,
                                       respond: (nat, string) -> Fetch<ModelReply>)
    requires Trace(keys, attempt, key, rs, respond)
    decreases |rs|
    ensures forall i :: 0 <= i < |rs| ==> rs[i].keyIndex < |keys| && rs[i].attempt == attempt + i
  {
    if |rs| > 1 {
      var f := respond(attempt, keys[key]);
      TraceBounds(keys, attempt + 1, KeyAfter(key, |keys|, f), rs[1..], respond);
      forall i | 1 <= i < |rs| ensures rs[i].keyIndex < |keys| && rs[i].attempt == attempt + i {
        assert rs[i] == rs[1..][i - 1];
      }
    }
  }

  /** The inline payload of an image: the text after the first comma, when that is
      non-empty, and otherwise the whole URL. */
  function Payload(url: string): (p: string)
    ensures ',' in url && Split(url, ',')[1] != "" ==> p == Split(url, ',')[1]
    ensures ',' in url && Split(url, ',')[1] == "" ==> p == url
    ensures ',' !in url ==> p == url
  {
    var parts := Split(url, ',');
    if |parts| > 1 && parts[1] != "" then parts[1] else url
  }

  /** For a base64 data URL the payload is the encoded data. */
  lemma PayloadOfDataUrl(header: string, data: string)
    requires ',' !in header && ',' !in data && data != ""
    ensures Payload(header + "," + data) == data
  {
    SplitCons(header, ',', data);
    assert header + "," + data == header + [','] + data;
    assert Split(data, ',') == [data];
  }

  datatype AssetKind = Logo | Palette | Style

  /** A brand asset sent by the client. */
  datatype Asset = Asset(url: string, kind: AssetKind)

  /** Whether an asset reaches the model: every asset when the logo is asked for, and
      every asset but a logo otherwise. */
  function Sent(includeLogo: bool): Asset -> bool {
    (a: Asset) => includeLogo || a.kind != Logo
  }

  /** The brand assets that go to the model: every asset when the logo is requested,
      otherwise every asset except logos, in their order. */
  function BrandAssets(assets: seq<Asset>, includeLogo: bool): (r: seq<Asset>)
    ensures |r| <= |assets|
    ensures forall a :: a in r ==> a in assets
    ensures !includeLogo ==> forall a :: a in r ==> a.kind != Logo
    ensures forall a :: a in assets && (includeLogo || a.kind != Logo) ==> a in r
    // the assets sent keep their order and repetitions
    ensures r == Tables.Filter(assets, Sent(includeLogo))
  {
    if |assets| == 0 then []
    else
      var rest := BrandAssets(assets[1..], includeLogo);
      if includeLogo || assets[0].kind != Logo then [assets[0]] + rest else rest
  }

  /** With the logo requested nothing is filtered out. */
  lemma {:induction false} BrandAssetsKeepAllWithLogo(assets: seq<Asset>)
    ensures BrandAssets(assets, true) == assets
  {
    if |assets| > 0 {
      BrandAssetsKeepAllWithLogo(assets[1..]);
      assert BrandAssets(assets, true) == [assets[0]] + BrandAssets(assets[1..], true);
      assert [assets[0]] + assets[1..] == assets;
    }
  }

  /** The brand guidelines mention a logo only if a logo asset exists and was asked for. */
  predicate HasLogo(assets: seq<Asset>, includeLogo: bool) {
    (exists a :: a in assets && a.kind == Logo) && includeLogo
  }

  /** A logo is mentioned exactly when a logo reaches the model. */
  lemma HasLogoIffLogoSent(assets: seq<Asset>, includeLogo: bool)
    ensures HasLogo(assets, includeLogo) <==> exists a :: a in BrandAssets(assets, includeLogo) && a.kind == Logo
  {
  }

  /** Everything the model request carries besides the prose prompt. */
  datatype ModelInput = ModelInput(prompt: string, images: seq<string>, brand: seq<string>,
                                   includeLogo: bool, includeText: bool, format: string)

  function Payloads(urls: seq<string>): (r: seq<string>)
    ensures |r| == |urls| && forall i :: 0 <= i < |urls| ==> r[i] == Payload(urls[i])
  {
    seq(|urls|, i requires 0 <= i < |urls| => Payload(urls[i]))
  }

  function AssetUrls(assets: seq<Asset>): (r: seq<string>)
    ensures |r| == |assets| && forall i :: 0 <= i < |assets| ==> r[i] == assets[i].url
  {
    seq(|assets|, i requires 0 <= i < |assets| => assets[i].url)
  }

  /** `generateWithProductImage(...)` with the keys of `GOOGLE_API_KEY`. What the
      request carries is the `ModelInput` that `Post` records; `respond` is the model's
      answer to that request. */
  function GenerateWithProductImage(apiKeyList: string, respond: (nat, string) -> Fetch<ModelReply>): (r: Rotation)
    ensures 1 <= |r.requests| <= MaxAttempts
    ensures r.result.Err? ==> |r.requests| == MaxAttempts
    ensures r.result.Ok? ==> IsPngDataUrl(r.result.value)
    ensures var last := r.requests[|r.requests| - 1];
            last.keyIndex < |Split(apiKeyList, ',')|
            && r.result == FinalOutcome(respond(last.attempt, Split(apiKeyList, ',')[last.keyIndex]))
  {
    RotationLoop(Split(apiKeyList, ','), 1, 0, respond)
  }

  /** A first answer carrying image data ends `generateWithProductImage` at once with
      that picture. */
  lemma FirstPictureEndsGeneration(apiKeyList: string, respond: (nat, string) -> Fetch<ModelReply>)
    ensures var first := respond(1, Split(apiKeyList, ',')[0]);
            Outcome(first).Ok? ==>
              GenerateWithProductImage(apiKeyList, respond) == Rotation(ImageOf(first.body.value), [Request(1, 0, 0)])
  {
    var keys := Split(apiKeyList, ',');
    var first := respond(1, keys[0]);
    if Outcome(first).Ok? {
      assert RotationLoop(keys, 1, 0, respond) == Rotation(FinalOutcome(first), [Request(1, 0, 0)]);
    }
  }

  /** `generateWithProductImage` asks again only after a failure: every answer before
      the last failed. */
  lemma GenerationRetriesOnlyFailures(apiKeyList: string, respond: (nat, string) -> Fetch<ModelReply>)
    ensures var rs := GenerateWithProductImage(apiKeyList, respond).requests;
            forall i :: 0 <= i < |rs| - 1 ==> FailedRequest(Split(apiKeyList, ','), respond, rs[i])
  {
    var keys := Split(apiKeyList, ',');
    var rs := RotationLoop(keys, 1, 0, respond).requests;
    forall i | 0 <= i < |rs| - 1
      ensures FailedRequest(keys, respond, rs[i])
    {
      TraceEarlierFailed(keys, 1, 0, rs, respond, i);
    }
  }

  // ------------------------------------------------------------------ format and options

  const ValidFormats: seq<string> := ["1:1", "2:3", "3:2", "3:4", "4:3", "4:5", "5:4", "9:16", "16:9", "21:9"]

  /** Number of leading '0' characters. */
  function LeadingZeros(s: string): (k: nat)
    ensures k <= |s| && forall i :: 0 <= i < k ==> s[i] == '0'
    ensures k < |s| ==> s[k] != '0'
  {
    if |s| > 0 && s[0] == '0' then 1 + LeadingZeros(s[1..]) else 0
  }

  /** `s.replace(/^0+(\d)/, '$1')`: a run of leading zeros followed by a digit is
      replaced by that digit. The greedy run gives back its last zero when no other
      digit follows it, so "00:1" becomes "0:1" while "0:1" is unchanged. */
  function StripLeadingZeros(s: string): (r: string)
    ensures |r| <= |s| && r == s[|s| - |r|..]
    ensures |r| > 0 ==> r[0] != '0' || (|r| == 1 || !IsDigit(r[1]))
  {
    var k := LeadingZeros(s);
    if k == 0 then s
    else if k < |s| && IsDigit(s[k]) then s[k..]
    else if k >= 2 then s[k - 1..]
    else s
  }

  /** The aspect ratio requested from the model: the cell (default "1:1") trimmed and
      stripped of leading zeros, or "1:1" when that is not a supported ratio. */
  function CleanFormat(cell: Option<string>): (f: string)
    ensures f in ValidFormats
    ensures StripLeadingZeros(Trim(OrElse(cell, "1:1"))) in ValidFormats ==> f == StripLeadingZeros(Trim(OrElse(cell, "1:1")))
  {
    var s := StripLeadingZeros(Trim(OrElse(cell, "1:1")));
    if s in ValidFormats then s else "1:1"
  }

  /** A supported ratio written as is comes through unchanged. */
  lemma CleanFormatKeepsValid(f: string)
    requires f in ValidFormats
    ensures CleanFormat(Some(f)) == f
  {
    assert f != "" && f[0] != '0' && !IsSpace(f[0]) && !IsSpace(f[|f| - 1]);
    TrimOfTrimmed(f);
    assert OrElse(Some(f), "1:1") == f;
    assert LeadingZeros(f) == 0;
    assert StripLeadingZeros(f) == f;
  }

  /** Leading zeros are dropped: "09:16" asks for "9:16". */
  lemma CleanFormatDropsZero()
    ensures CleanFormat(Some("09:16")) == "9:16"
  {
    var f := "09:16";
    assert !IsSpace(f[0]) && !IsSpace(f[|f| - 1]);
    TrimOfTrimmed(f);
    assert OrElse(Some(f), "1:1") == f;
    assert LeadingZeros(f) == 1 by {
      assert f[1..] == "9:16";
      assert LeadingZeros(f[1..]) == 0;
    }
    assert StripLeadingZeros(f) == f[1..];
  }

  /** An empty cell asks for the default square format. */
  lemma CleanFormatEmpty()
    ensures CleanFormat(Some("")) == "1:1"
    ensures CleanFormat(None) == "1:1"
  {
    assert !Truthy(Some(""));
    assert OrElse(Some(""), "1:1") == OrElse(Some("1:1"), "1:1");
    CleanFormatKeepsValid("1:1");
    assert OrElse(None, "1:1") == OrElse(Some("1:1"), "1:1");
  }

  /** A yes/no option cell: on exactly when it reads "oui" after trimming and
      lower-casing, with `fallback` standing for an empty or absent cell. */
  function OptionOn(cell: Option<string>, fallback: string): (on: bool)
    ensures !Truthy(cell) ==> on == (Lower(Trim(fallback)) == "oui")
    ensures Truthy(cell) ==> on == (Lower(Trim(cell.value)) == "oui")
  {
    Lower(Trim(OrElse(cell, fallback))) == "oui"
  }

  /** Text is on unless the cell says otherwise; the logo is off unless asked for. */
  lemma OptionDefaults(row: SheetRow)
    requires "Avec Texte" !in row && "Avec Logo" !in row
    ensures OptionOn(Cell(row, "Avec Texte"), "oui")
    ensures !OptionOn(Cell(row, "Avec Logo"), "non")
  {
    TrimOfTrimmed("oui");
    TrimOfTrimmed("non");
    assert Lower("oui") == "oui";
    assert Lower("non")[0] == 'n';
  }

  // ------------------------------------------------------------------ product images

  /** A product group of the request body, in key order. */
  datatype Group = Group(name: string, urls: seq<string>)

  /** Object keys are distinct. */
  predicate DistinctNames(groups: seq<Group>) {
    forall i, j :: 0 <= i < j < |groups| ==> groups[i].name != groups[j].name
  }

  function GroupNames(groups: seq<Group>): (r: seq<string>)
    ensures |r| == |groups| && forall i :: 0 <= i < |groups| ==> r[i] == groups[i].name
  {
    seq(|groups|, i requires 0 <= i < |groups| => groups[i].name)
  }

  function FindGroup(groups: seq<Group>, name: string): (r: Option<Group>)
    ensures r.Some? ==> r.value in groups && r.value.name == name
    ensures r.None? ==> forall g :: g in groups ==> g.name != name
  {
    if |groups| == 0 then None
    else if groups[0].name == name then Some(groups[0])
    else FindGroup(groups[1..], name)
  }

  /** Every URL of every group, in key order. */
  function AllUrls(groups: seq<Group>): (r: seq<string>)
    ensures forall g, u :: g in groups && u in g.urls ==> u in r
    ensures forall u :: u in r ==> exists g :: g in groups && u in g.urls
  {
    if |groups| == 0 then [] else groups[0].urls + AllUrls(groups[1..])
  }

  function TotalImages(groups: seq<Group>): (n: nat)
    ensures n == 0 <==> forall g :: g in groups ==> g.urls == []
  {
    if |groups| == 0 then 0 else |groups[0].urls| + TotalImages(groups[1..])
  }

  /** The flattened list holds one URL per image. */
  lemma {:induction false} AllUrlsLength(groups: seq<Group>)
    ensures |AllUrls(groups)| == TotalImages(groups)
  {
    if |groups| > 0 {
      AllUrlsLength(groups[1..]);
    }
  }

  datatype Selection = Selected(urls: seq<string>) | UnknownGroup(message: string)

  /** The images for the row's product: the named group when it exists, a refusal
      listing the available groups when it does not, and every image when no product
      is named. */
  function SelectImages(groups: seq<Group>, productName: string): (r: Selection)
    ensures productName != "" && FindGroup(groups, productName).Some? ==>
              r == Selected(FindGroup(groups, productName).value.urls)
    ensures productName != "" && FindGroup(groups, productName).None? ==>
              r == UnknownGroup("Groupe \"" + productName + "\" introuvable. Groupes disponibles: "
                                + Join(GroupNames(groups), ", "))
    ensures productName == "" ==> r == Selected(AllUrls(groups))
  {
    if productName != "" then
      match FindGroup(groups, productName)
      case Some(g) => Selected(g.urls)
      case None => UnknownGroup("Groupe \"" + productName + "\" introuvable. Groupes disponibles: "
                                + Join(GroupNames(groups), ", "))
    else Selected(AllUrls(groups))
  }

  // ------------------------------------------------------------------ POST

  const StatusHeader: string := "Statut"
  const UrlHeader: string := "URL Image"
  const DateHeader: string := "Date génération"

  /** The request body: `productGroups` (default `{}`) and `brandAssets` (default `[]`). */
  datatype Body = Body(groups: seq<Group>, assets: seq<Asset>)

  datatype Reply =
    | ApiKeyMissing                    // 500
    | NoProductImages                  // 400
    | Failed(error: string)            // 500: a thrown error
    | NothingPending
    | GroupNotFound(message: string)
    | NoImages
    | EmptyPrompt
    | Generated(imageUrl: string, prompt: string, remaining: nat)
  {
    function StatusCode(): nat {
      match this
      case ApiKeyMissing | Failed(_) => 500
      case NoProductImages => 400
      case _ => 200
    }
  }

  /** The row that was saved: its position in the sheet and its new cells. */
  datatype Saved = Saved(index: nat, row: SheetRow)

  datatype PostRun = PostRun(reply: Reply, saved: Option<Saved>, sheetReadCount: nat, input: Option<ModelInput>)

  /** A row still to be generated: its status, lower-cased, is not "généré". */
  predicate Pending(row: SheetRow) {
    Lower(OrElse(Cell(row, "Statut"), "")) != DoneStatus
  }

  function PendingCount(rows: seq<SheetRow>): nat {
    if |rows| == 0 then 0 else (if Pending(rows[0]) then 1 else 0) + PendingCount(rows[1..])
  }

  function FirstPending(rows: seq<SheetRow>): (r: Option<nat>)
    ensures r.Some? ==> r.value < |rows| && Pending(rows[r.value])
                        && forall j :: 0 <= j < r.value ==> !Pending(rows[j])
    ensures r.None? <==> PendingCount(rows) == 0
  {
    if |rows| == 0 then None
    else if Pending(rows[0]) then Some(0)
    else match FirstPending(rows[1..])
      case None => None
      case Some(j) => Some(j + 1)
  }

  /** The product a row names: its trimmed "Produit" cell. */
  function ProductName(row: SheetRow): string {
    Trim(OrElse(Cell(row, "Produit"), ""))
  }

  /** A row whose prompt cell is set and not blank. */
  predicate HasPrompt(row: SheetRow) {
    Truthy(Cell(row, "Prompt")) && Trim(Cell(row, "Prompt").value) != ""
  }

  /** `POST(request)`: `body` is the parsed request body or the parse error, `apiKeys`
      the `GOOGLE_API_KEY` variable and `now` the French-locale date text. */
  function Post(body: Result<Body>, apiKeys: Option<string>, read: nat -> Result<seq<SheetRow>>,
                respond: (nat, string) -> Fetch<ModelReply>, save: Option<string>, now: string): (run: PostRun)
    requires body.Ok? ==> DistinctNames(body.value.groups)
    // nothing is read before the key and the images are checked
    ensures (run.reply.ApiKeyMissing? || run.reply.NoProductImages?) ==> run.sheetReadCount == 0 && run.input.None?
    ensures body.Ok? && !Truthy(apiKeys) ==> run.reply == ApiKeyMissing
    ensures body.Ok? && Truthy(apiKeys) && TotalImages(body.value.groups) == 0 ==> run.reply == NoProductImages
    // the model always receives a supported aspect ratio and images
    ensures run.input.Some? ==> run.input.value.format in ValidFormats && |run.input.value.images| > 0
    // a row is saved only for a generated picture
    ensures run.saved.Some? <==> run.reply.Generated?
    ensures run.reply.Generated? ==> IsPngDataUrl(run.reply.imageUrl)
    // the saved row is the first pending one, marked generated; `remaining` counts the others
    ensures run.saved.Some? ==>
              && GetSheetData(read).result.Ok?
              && var rows := GetSheetData(read).result.value;
                 && FirstPending(rows) == Some(run.saved.value.index)
                 && run.saved.value.row == rows[run.saved.value.index][StatusHeader := DoneStatus]
                                             [UrlHeader := LocalUrl][DateHeader := now]
                 && run.reply.remaining + 1 == PendingCount(rows)
    // the brand assets sent are the kept ones; the logo is kept only on request
    ensures run.input.Some? ==>
              body.Ok? && run.input.value.brand == Payloads(AssetUrls(BrandAssets(body.value.assets, run.input.value.includeLogo)))
    // the error paths before a row is chosen
    ensures body.Err? ==> run == PostRun(Failed(body.error), None, 0, None)
    ensures body.Ok? && Truthy(apiKeys) && TotalImages(body.value.groups) > 0 ==>
              var fetch := GetSheetData(read);
              && run.sheetReadCount == fetch.readCount
              && (fetch.result.Err? ==> run.reply == Failed(fetch.result.error) && run.input.None?)
              && (fetch.result.Ok? && FirstPending(fetch.result.value).None? ==> run.reply == NothingPending && run.input.None?)
    // the first pending row with a prompt and images is sent, and an image answer
    // that is saved comes back as that data URL
    ensures body.Ok? && Truthy(apiKeys) && TotalImages(body.value.groups) > 0
            && GetSheetData(read).result.Ok? && FirstPending(GetSheetData(read).result.value).Some? ==>
              var rows := GetSheetData(read).result.value;
              var row := rows[FirstPending(rows).value];
              var sel := SelectImages(body.value.groups, ProductName(row));
              var gen := GenerateWithProductImage(apiKeys.value, respond);
              sel.Selected? && |sel.urls| > 0 && HasPrompt(row) ==>
                && run.input.Some?
                && run.input.value.images == Payloads(sel.urls)
                && run.input.value.format == CleanFormat(Cell(row, "Format"))
                && run.input.value.prompt == Cell(row, "Prompt").value
                && (gen.result.Ok? && save.None? ==>
                      run.reply == Generated(gen.result.value, Cell(row, "Prompt").value, PendingCount(rows) - 1))
  {
    match body
    case Err(m) => PostRun(Failed(m), None, 0, None)
    case Ok(b) =>
      if !Truthy(apiKeys) then PostRun(ApiKeyMissing, None, 0, None)
      else if TotalImages(b.groups) == 0 then PostRun(NoProductImages, None, 0, None)
      else
        var fetch := GetSheetData(read);
        match fetch.result
        case Err(m) => PostRun(Failed(m), None, fetch.readCount, None)
        case Ok(rows) =>
          match FirstPending(rows)
          case None => PostRun(NothingPending, None, fetch.readCount, None)
          case Some(k) => GenerateRow(b, apiKeys.value, rows, k, fetch.readCount, respond, save, now)
  }

  /** Once the checks pass and the sheet is read, `POST` gives the row-level reply for
      the first pending row: unknown group, no images, no prompt, a failed generation
      or save, or the generated picture. */
  lemma PostAnswersFirstPending(b: Body, apiKeys: string, read: nat -> Result<seq<SheetRow>>,
                                respond: (nat, string) -> Fetch<ModelReply>, save: Option<string>, now: string)
    requires DistinctNames(b.groups) && apiKeys != "" && TotalImages(b.groups) > 0
    requires GetSheetData(read).result.Ok? && FirstPending(GetSheetData(read).result.value).Some?
    ensures Post(Ok(b), Some(apiKeys), read, respond, save, now)
            == GenerateRow(b, apiKeys, GetSheetData(read).result.value, FirstPending(GetSheetData(read).result.value).value,
                           GetSheetData(read).readCount, respond, save, now)
  {
    assert Truthy(Some(apiKeys));
  }

  /** The part of `POST` after the first pending row `k` is found: the images for its
      product, its format, options and prompt, the generation, and the saved row. */
  function GenerateRow(b: Body, apiKey: string, rows: seq<SheetRow>, k: nat, readCount: nat,
                       respond: (nat, string) -> Fetch<ModelReply>, save: Option<string>, now: string): (run: PostRun)
    requires FirstPending(rows) == Some(k)
    ensures run.sheetReadCount == readCount
    ensures !run.reply.ApiKeyMissing? && !run.reply.NoProductImages?
    ensures run.input.Some? ==> run.input.value.format in ValidFormats && |run.input.value.images| > 0
    ensures run.saved.Some? <==> run.reply.Generated?
    ensures run.reply.Generated? ==> IsPngDataUrl(run.reply.imageUrl)
    ensures run.saved.Some? ==>
              && run.saved.value.index == k
              && run.saved.value.row == rows[k][StatusHeader := DoneStatus][UrlHeader := LocalUrl][DateHeader := now]
              && run.reply.remaining + 1 == PendingCount(rows)
    ensures run.input.Some? ==>
              run.input.value.brand == Payloads(AssetUrls(BrandAssets(b.assets, run.input.value.includeLogo)))
    // a row that cannot be sent: unknown product, no images, or no prompt
    ensures SelectImages(b.groups, ProductName(rows[k])).UnknownGroup? ==>
              run.reply == GroupNotFound(SelectImages(b.groups, ProductName(rows[k])).message) && run.input.None?
    ensures SelectImages(b.groups, ProductName(rows[k])) == Selected([]) ==> run.reply == NoImages && run.input.None?
    ensures var sel := SelectImages(b.groups, ProductName(rows[k]));
            sel.Selected? && |sel.urls| > 0 && !HasPrompt(rows[k]) ==> run.reply == EmptyPrompt && run.input.None?
    // a row with images and a prompt is sent
    ensures var sel := SelectImages(b.groups, ProductName(rows[k]));
            sel.Selected? && |sel.urls| > 0 && HasPrompt(rows[k]) ==>
              run == SendRow(b, apiKey, rows, k, readCount, sel.urls, respond, save, now)
  {
    var row := rows[k];
    match SelectImages(b.groups, ProductName(row))
    case UnknownGroup(msg) => PostRun(GroupNotFound(msg), None, readCount, None)
    case Selected(urls) =>
      if |urls| == 0 then PostRun(NoImages, None, readCount, None)
      else if !HasPrompt(row) then PostRun(EmptyPrompt, None, readCount, None)
      else SendRow(b, apiKey, rows, k, readCount, urls, respond, save, now)
  }

  /** The part of `POST` once row `k` has images and a prompt: the request with its
      format and options, the generation, and the saved row. */
  function SendRow(b: Body, apiKey: string, rows: seq<SheetRow>, k: nat, readCount: nat, urls: seq<string>,
                   respond: (nat, string) -> Fetch<ModelReply>, save: Option<string>, now: string): (run: PostRun)
    requires FirstPending(rows) == Some(k) && |urls| > 0 && HasPrompt(rows[k])
    ensures run.sheetReadCount == readCount
    ensures run.reply.Failed? || run.reply.Generated?
    ensures run.input.Some?
    ensures run.input.value.prompt == Cell(rows[k], "Prompt").value
    ensures run.input.value.images == Payloads(urls) && |run.input.value.images| > 0
    ensures run.input.value.format == CleanFormat(Cell(rows[k], "Format")) && run.input.value.format in ValidFormats
    ensures run.input.value.includeText == OptionOn(Cell(rows[k], "Avec Texte"), "oui")
    ensures run.input.value.includeLogo == OptionOn(Cell(rows[k], "Avec Logo"), "non")
    ensures run.input.value.brand == Payloads(AssetUrls(BrandAssets(b.assets, run.input.value.includeLogo)))
    ensures GenerateWithProductImage(apiKey, respond).result.Err? ==>
              run.reply == Failed(GenerateWithProductImage(apiKey, respond).result.error)
    ensures GenerateWithProductImage(apiKey, respond).result.Ok? && save.Some? ==> run.reply == Failed(save.value)
    ensures GenerateWithProductImage(apiKey, respond).result.Ok? && save.None? ==>
              && run.reply.Generated?
              && run.reply.imageUrl == GenerateWithProductImage(apiKey, respond).result.value
              && run.reply.prompt == Cell(rows[k], "Prompt").value
    ensures run.saved.Some? <==> run.reply.Generated?
    ensures run.reply.Generated? ==> IsPngDataUrl(run.reply.imageUrl)
    ensures run.saved.Some? ==>
              && run.saved.value.index == k
              && run.saved.value.row == rows[k][StatusHeader := DoneStatus][UrlHeader := LocalUrl][DateHeader := now]
              && run.reply.remaining + 1 == PendingCount(rows)
  {
    var row := rows[k];
    var includeLogo := OptionOn(Cell(row, "Avec Logo"), "non");
    var input := ModelInput(Cell(row, "Prompt").value, Payloads(urls), Payloads(AssetUrls(BrandAssets(b.assets, includeLogo))),
                            includeLogo, OptionOn(Cell(row, "Avec Texte"), "oui"), CleanFormat(Cell(row, "Format")));
    var gen := GenerateWithProductImage(apiKey, respond);
    match gen.result
    case Err(m) => PostRun(Failed(m), None, readCount, Some(input))
    case Ok(url) =>
      match save
      case Some(m) => PostRun(Failed(m), None, readCount, Some(input))
      case None =>
        var edited := row[StatusHeader := DoneStatus][UrlHeader := LocalUrl][DateHeader := now];
        PostRun(Generated(url, Cell(row, "Prompt").value, PendingCount(rows) - 1), Some(Saved(k, edited)), readCount, Some(input))
  }
}

=== FILE: kling.dfy ===
/** The Kling image-to-video routes: `POST /api/kling-generate`
    (app/api/kling-generate/route.ts) starts a task and polls it a few times inline;
    `GET /api/kling-poll` (app/api/kling-poll/route.ts) polls it once for the client.
    Both authenticate with a short-lived JSON Web Token (RFC 7519) signed with
    HMAC-SHA256 and sent in the compact serialization of section 7.1 of RFC 7515. */
module Kling {
  import opened Base
  import opened Text
  import opened Decimal

  // ------------------------------------------------------------------ the token

  /** The registered claims of section 4.1 of RFC 7519 that the token carries. */
  datatype Claims = Claims(iss: string, iat: int, exp: int, nbf: int)

  /** The token and the claims it was made from. */
  datatype Jwt = Jwt(claims: Claims, token: string)

  const TokenLifetime: nat := 1800
  const ClockSkew: nat := 5
  const KeysMissing: string := "KLING_ACCESS_KEY ou KLING_SECRET_KEY non configuré"

  /** The claims issued at `nowMs` milliseconds since the epoch: issued at the current
      second, valid from five seconds before it and for thirty minutes after it. */
  function ClaimsAt(accessKey: string, nowMs: nat): (c: Claims)
    ensures c.iss == accessKey
    ensures c.iat * 1000 <= nowMs < (c.iat + 1) * 1000
    ensures c.exp == c.iat + TokenLifetime && c.nbf == c.iat - ClockSkew
    ensures c.nbf < c.iat < c.exp
  {
    var now := nowMs / 1000;
    Claims(accessKey, now, now + TokenLifetime, now - ClockSkew)
  }

  /** `header.payload.signature`. */
  function Compact(header: string, payload: string, signature: string): string {
    header + "." + payload + "." + signature
  }

  /** `generateKlingJWT()`. The encodings are supplied: `header` is the base64url text
      of the fixed header, `encode` gives the base64url text of the claims' JSON and
      `sign(secret, input)` the base64url HMAC-SHA256 signature of `input`. The call
      fails when either key is unset or empty. */
  function GenerateJwt(accessKey: Option<string>, secretKey: Option<string>, nowMs: nat,
                       header: string, encode: Claims -> string, sign: (string, string) -> string): (r: Result<Jwt>)
    ensures r.Err? <==> !Truthy(accessKey) || !Truthy(secretKey)
    ensures r.Err? ==> r.error == KeysMissing
    ensures r.Ok? ==> r.value.claims == ClaimsAt(accessKey.value, nowMs)
    ensures r.Ok? ==>
              var payload := encode(r.value.claims);
              r.value.token == Compact(header, payload, sign(secretKey.value, header + "." + payload))
  {
    if !Truthy(accessKey) || !Truthy(secretKey) then Err(KeysMissing)
    else
      var claims := ClaimsAt(accessKey.value, nowMs);
      var payload := encode(claims);
      Ok(Jwt(claims, Compact(header, payload, sign(secretKey.value, header + "." + payload))))
  }

  /** The base64url alphabet (section 5 of RFC 4648) has no '.', so segments made of
      it are read back by splitting the token on '.'. */
  predicate Base64UrlChar(c: char) {
    ('A' <= c <= 'Z') || ('a' <= c <= 'z') || ('0' <= c <= '9') || c == '-' || c == '_'
  }

  predicate Base64UrlText(s: string) {
    forall i :: 0 <= i < |s| ==> Base64UrlChar(s[i])
  }

  /** A token made of three base64url segments splits back into exactly those three. */
  lemma CompactSplits(header: string, payload: string, signature: string)
    requires Base64UrlText(header) && Base64UrlText(payload) && Base64UrlText(signature)
    ensures Split(Compact(header, payload, signature), '.') == [header, payload, signature]
  {
    var parts := [header, payload, signature];
    assert Join(parts, ".") == Compact(header, payload, signature) by {
      assert Join(parts[1..], ".") == payload + "." + signature by {
        assert parts[1..][1..] == [signature];
      }
    }
    assert !Base64UrlChar('.');
    SplitJoin(parts, '.');
  }

  // ------------------------------------------------------------------ task polls

  /** What a task poll reads: `data.task_status`, `data.task_status_msg` and
      `data.task_result.videos[0].url`. */
  datatype Task = Task(status: Option<string>, statusMsg: Option<string>, videoUrl: Option<string>)

  const Succeed: string := "succeed"
  const FailedStatus: string := "failed"

  // ------------------------------------------------------------------ POST

  /** The request body with the values it names; absent fields take their defaults. */
  datatype GenerateBody = GenerateBody(prompt: Option<string>, imageUrl: Option<string>,
                                       duration: Option<int>, aspectRatio: Option<string>, mode: Option<string>)

  /** The body of the start request. */
  datatype StartRequest = StartRequest(prompt: string, image: string, mode: string, duration: string, aspectRatio: string)

  /** The answer to the start request: `code`, `message` and `data.task_id`. */
  datatype Started = Started(code: Option<int>, message: Option<string>, taskId: Option<string>)

  datatype GenerateReply =
    | Invalid(error: string)                  // 400
    | RateLimited                             // 429, retryable
    | Rejected(error: string, status: nat)    // the start request's own status
    | BadGateway(error: string)               // 502
    | TaskFailed(error: string)               // 500
    | Crashed(error: string)                  // 500: a thrown error
    | Done(videoUri: string, taskId: string)
    | Pending(taskId: string)
  {
    function StatusCode(): nat {
      match this
      case Invalid(_) => 400
      case RateLimited => 429
      case Rejected(_, status) => status
      case BadGateway(_) => 502
      case TaskFailed(_) | Crashed(_) => 500
      case Done(_, _) | Pending(_) => 200
    }
  }

  const PromptRequired: string := "Prompt requis"
  const ImageRequired: string := "Image requise pour image-to-video"
  const UnexpectedReply: string := "Réponse inattendue de Kling"
  const NoTaskId: string := "Kling n'a pas retourné de task_id"
  const GenerationFailed: string := "Échec de la génération"
  const MaxInlinePolls: nat := 5

  /** A readable 2xx answer about a task. */
  predicate ReadTask(f: Fetch<Task>) {
    f.Http? && IsOk(f.status) && f.body.Json?
  }

  /** A finished task with its video. */
  predicate Finished(t: Task) {
    t.status == Some(Succeed) && Truthy(t.videoUrl)
  }

  /** The verdict of one inline poll, `None` to keep polling: a rejected or unreadable
      poll is skipped, a thrown one ends the request, a finished video is delivered, a
      failed task is reported, and anything else (a success without video included)
      waits for the next poll. */
  function InlineStep(f: Fetch<Task>, taskId: string, download: string -> Download): (v: Option<GenerateReply>)
    ensures f.Http? && (!IsOk(f.status) || f.body.NotJson?) ==> v.None?
    ensures f.Threw? ==> v == Some(Crashed(f.message))
    ensures v.Some? && v.value.Done? ==>
              && f.Http? && f.body.Json? && f.body.value.status == Some(Succeed) && Truthy(f.body.value.videoUrl)
              && v.value.taskId == taskId
    ensures v.Some? ==> !v.value.Pending? && !v.value.Invalid?
    // a readable answer: a finished task is delivered, a failed one reported, any other waits
    ensures ReadTask(f) && Finished(f.body.value) ==>
              var url := f.body.value.videoUrl.value;
              v == Some(Done(Deliver(url, download(url)), taskId))
    ensures ReadTask(f) && !Finished(f.body.value) ==>
              (f.body.value.status == Some(FailedStatus) ==> v == Some(TaskFailed(OrElse(f.body.value.statusMsg, GenerationFailed))))
              && (f.body.value.status != Some(FailedStatus) ==> v.None?)
  {
    match f
    case Threw(m) => Some(Crashed(m))
    case Http(status, body) =>
      if !IsOk(status) then None
      else match body
        case NotJson(_) => None
        case Json(task) =>
          if task.status == Some(Succeed) && Truthy(task.videoUrl) then
            Some(Done(Deliver(task.videoUrl.value, download(task.videoUrl.value)), taskId))
          else if task.status == Some(FailedStatus) then
            Some(TaskFailed(OrElse(task.statusMsg, GenerationFailed)))
          else None
  }

  /** The result of the inline polls and how many were made. */
  datatype Polled = Polled(reply: GenerateReply, polls: nat)

  /** Polls `n` to `MaxInlinePolls` of task `taskId`: the first verdict wins; without
      one the task is handed to the client as pending. */
  function InlinePolls(taskId: string, n: nat, poll: nat -> Fetch<Task>, download: string -> Download): (r: Polled)
    requires 1 <= n <= MaxInlinePolls + 1
    decreases MaxInlinePolls + 1 - n
    ensures r.polls <= MaxInlinePolls + 1 - n
    ensures r.reply.Pending? ==> r.polls == MaxInlinePolls + 1 - n && r.reply.taskId == taskId
    ensures !r.reply.Pending? ==> r.polls >= 1 && InlineStep(poll(n + r.polls - 1), taskId, download) == Some(r.reply)
    ensures SkipsBefore(taskId, n, n + r.polls - (if r.reply.Pending? then 0 else 1), poll, download)
  {
    if n > MaxInlinePolls then Polled(Pending(taskId), 0)
    else match InlineStep(poll(n), taskId, download)
      case Some(v) => Polled(v, 1)
      case None =>
        var rest := InlinePolls(taskId, n + 1, poll, download);
        Polled(rest.reply, rest.polls + 1)
  }

  /** Every poll from `n` up to (not including) `m` gave no verdict. */
  predicate SkipsBefore(taskId: string, n: nat, m: nat, poll: nat -> Fetch<Task>, download: string -> Download)
    decreases m - n
  {
    n >= m || (InlineStep(poll(n), taskId, download).None? && SkipsBefore(taskId, n + 1, m, poll, download))
  }

  /** A start answer that names a task: 2xx, readable, not rate limited, no error code. */
  predicate StartAccepted(s: Fetch<Started>) {
    s.Http? && s.body.Json? && s.status != 429 && IsOk(s.status)
    && !(s.body.value.code.Some? && s.body.value.code.value != 0)
  }

  /** One run of the route: its reply, the start request it sent if any, and how many
      task polls it made. */
  datatype GenerateRun = GenerateRun(reply: GenerateReply, request: Option<StartRequest>, polls: nat)

  /** `POST /api/kling-generate`. `body` is the parsed body or the parse error; `jwt` is
      the token generation, which depends only on the environment and the clock. */
  function Post(body: Result<GenerateBody>, jwt: Result<Jwt>, start: StartRequest -> Fetch<Started>,
                poll: nat -> Fetch<Task>, download: string -> Download): (run: GenerateRun)
    // validation comes before any token or request
    ensures body.Ok? && !Truthy(body.value.prompt) ==> run == GenerateRun(Invalid(PromptRequired), None, 0)
    ensures body.Ok? && Truthy(body.value.prompt) && !Truthy(body.value.imageUrl) ==>
              run == GenerateRun(Invalid(ImageRequired), None, 0)
    ensures run.reply.Invalid? ==> run.request.None?
    ensures body.Err? ==> run == GenerateRun(Crashed(body.error), None, 0)
    ensures body.Ok? && Truthy(body.value.prompt) && Truthy(body.value.imageUrl) && jwt.Err? ==>
              run == GenerateRun(Crashed(jwt.error), None, 0)
    // the request carries the image unchanged and the defaults of the absent fields
    ensures run.request.Some? ==>
              && body.Ok? && jwt.Ok?
              && run.request.value.image == body.value.imageUrl.value
              && run.request.value.prompt == body.value.prompt.value
              && run.request.value.duration == IntToDecimal(body.value.duration.GetOr(5))
              && run.request.value.aspectRatio == body.value.aspectRatio.GetOr("16:9")
              && run.request.value.mode == body.value.mode.GetOr("pro")
    // the start answer is classified in order: unreadable, rate limited, refused, no task
    ensures run.request.Some? && start(run.request.value).Http? ==>
              var s := start(run.request.value);
              && (s.body.NotJson? ==> run.reply == BadGateway(UnexpectedReply))
              && (s.body.Json? && s.status == 429 ==> run.reply == RateLimited)
              && (s.body.Json? && s.status != 429 && (!IsOk(s.status) || (s.body.value.code.Some? && s.body.value.code.value != 0)) ==>
                    run.reply == Rejected(OrElse(s.body.value.message, "Erreur Kling (" + NatToDecimal(s.status) + ")"), s.status))
    ensures run.polls <= MaxInlinePolls
    ensures run.polls > 0 ==> run.request.Some?
    // a thrown start ends the request; an accepted one is polled inline under its task id
    ensures run.request.Some? && start(run.request.value).Threw? ==>
              run.reply == Crashed(start(run.request.value).message) && run.polls == 0
    ensures run.request.Some? && StartAccepted(start(run.request.value)) ==>
              var started := start(run.request.value).body.value;
              && (!Truthy(started.taskId) ==> run.reply == BadGateway(NoTaskId) && run.polls == 0)
              && (Truthy(started.taskId) ==>
                    var polled := InlinePolls(started.taskId.value, 1, poll, download);
                    run.reply == polled.reply && run.polls == polled.polls)
    ensures body.Ok? && Truthy(body.value.prompt) && Truthy(body.value.imageUrl) && jwt.Ok? ==> run.request.Some?
  {
    match body
    case Err(m) => GenerateRun(Crashed(m), None, 0)
    case Ok(b) =>
      if !Truthy(b.prompt) then GenerateRun(Invalid(PromptRequired), None, 0)
      else if !Truthy(b.imageUrl) then GenerateRun(Invalid(ImageRequired), None, 0)
      else match jwt
        case Err(m) => GenerateRun(Crashed(m), None, 0)
        case Ok(_) =>
          var request := StartRequest(b.prompt.value, b.imageUrl.value, b.mode.GetOr("pro"),
                                      IntToDecimal(b.duration.GetOr(5)), b.aspectRatio.GetOr("16:9"));
          match start(request)
          case Threw(m) => GenerateRun(Crashed(m), Some(request), 0)
          case Http(status, NotJson(_)) => GenerateRun(BadGateway(UnexpectedReply), Some(request), 0)
          case Http(status, Json(started)) =>
            if status == 429 then GenerateRun(RateLimited, Some(request), 0)
            else if !IsOk(status) || (started.code.Some? && started.code.value != 0) then
              GenerateRun(Rejected(OrElse(started.message, "Erreur Kling (" + NatToDecimal(status) + ")"), status), Some(request), 0)
            else if !Truthy(started.taskId) then GenerateRun(BadGateway(NoTaskId), Some(request), 0)
            else
              var polled := InlinePolls(started.taskId.value, 1, poll, download);
              GenerateRun(polled.reply, Some(request), polled.polls)
  }

  /** A task that is finished at the first inline poll is delivered by the route. */
  lemma FinishedAtFirstPollDelivered(body: Result<GenerateBody>, jwt: Result<Jwt>, start: StartRequest -> Fetch<Started>,
                                     poll: nat -> Fetch<Task>, download: string -> Download)
    requires body.Ok? && Truthy(body.value.prompt) && Truthy(body.value.imageUrl) && jwt.Ok?
    requires var run := Post(body, jwt, start, poll, download);
             StartAccepted(start(run.request.value)) && Truthy(start(run.request.value).body.value.taskId)
    requires ReadTask(poll(1)) && Finished(poll(1).body.value)
    ensures var run := Post(body, jwt, start, poll, download);
            var url := poll(1).body.value.videoUrl.value;
            run.reply == Done(Deliver(url, download(url)), start(run.request.value).body.value.taskId.value)
            && run.polls == 1
  {
  }

  /** A success without a video is not final: the inline loop keeps polling. */
  lemma SucceedWithoutVideoContinues(msg: Option<string>, taskId: string, download: string -> Download)
    ensures InlineStep(Http(200, Json(Task(Some(Succeed), msg, None))), taskId, download).None?
    ensures InlineStep(Http(200, Json(Task(Some(Succeed), msg, Some("")))), taskId, download).None?
  {
  }

  /** When no poll gives a verdict the task is handed over after exactly five polls. */
  lemma {:induction false} NoVerdictHandsOver(taskId: string, n: nat, poll: nat -> Fetch<Task>, download: string -> Download)
    requires 1 <= n <= MaxInlinePolls + 1
    requires forall i :: n <= i <= MaxInlinePolls ==> InlineStep(poll(i), taskId, download).None?
    decreases MaxInlinePolls + 1 - n
    ensures InlinePolls(taskId, n, poll, download) == Polled(Pending(taskId), MaxInlinePolls + 1 - n)
  {
    if n <= MaxInlinePolls {
      NoVerdictHandsOver(taskId, n + 1, poll, download);
    }
  }

  // ------------------------------------------------------------------ GET /api/kling-poll

  datatype PollReply =
    | MissingTask                             // 400
    | RateLimitedPoll                         // success false, pending
    | HttpError(status: nat)                  // the poll's own status
    | Unreadable                              // success false, pending
    | NoVideo                                 // success false
    | VideoReady(videoUri: string)            // success, done
    | GenerationRefused(message: string)      // success false, done
    | InProgress(taskStatus: Option<string>, message: string)
    | Interrupted(message: string)            // success false, pending: a thrown error
  {
    function StatusCode(): nat {
      match this
      case MissingTask => 400
      case HttpError(status) => status
      case _ => 200
    }

    predicate Success() {
      VideoReady? || InProgress?
    }

    /** The client is told to poll again. */
    predicate PollAgain() {
      RateLimitedPoll? || Unreadable? || InProgress? || Interrupted?
    }
  }

  const VideoRefused: string := "Génération vidéo échouée"

  /** `GET /api/kling-poll?taskId=…`. `jwt` is the token generation; `poll` the task
      poll made with it. */
  function Get(taskId: Option<string>, jwt: Result<Jwt>, poll: Fetch<Task>, download: string -> Download): (r: PollReply)
    ensures !Truthy(taskId) ==> r == MissingTask
    // errors that are thrown, a rate limit and an unreadable body all ask for another poll
    ensures Truthy(taskId) && jwt.Err? ==> r == Interrupted(jwt.error)
    ensures Truthy(taskId) && jwt.Ok? && poll.Threw? ==> r == Interrupted(poll.message)
    ensures Truthy(taskId) && jwt.Ok? && poll.Http? && poll.status == 429 ==> r == RateLimitedPoll
    ensures Truthy(taskId) && jwt.Ok? && poll.Http? && !IsOk(poll.status) && poll.status != 429 ==>
              r == HttpError(poll.status) && r.StatusCode() == poll.status
    ensures Truthy(taskId) && jwt.Ok? && poll.Http? && IsOk(poll.status) && poll.body.NotJson? ==> r == Unreadable
    // terminal answers
    ensures r.VideoReady? ==> poll.Http? && poll.body.Json? && poll.body.value.status == Some(Succeed) && Truthy(poll.body.value.videoUrl)
    ensures r == NoVideo <==>
              Truthy(taskId) && jwt.Ok? && poll.Http? && IsOk(poll.status) && poll.body.Json?
              && poll.body.value.status == Some(Succeed) && !Truthy(poll.body.value.videoUrl)
    ensures r.GenerationRefused? ==> r.message == OrElse(poll.body.value.statusMsg, VideoRefused)
    ensures r.InProgress? ==>
              && poll.Http? && poll.body.Json?
              && r.taskStatus == poll.body.value.status
              && r.taskStatus != Some(Succeed) && r.taskStatus != Some(FailedStatus)
    // a readable answer about a finished task reports its video; a failed task its message
    ensures Truthy(taskId) && jwt.Ok? && ReadTask(poll) ==>
              var t := poll.body.value;
              && (Finished(t) ==> r == VideoReady(Deliver(t.videoUrl.value, download(t.videoUrl.value))))
              && (t.status == Some(FailedStatus) ==> r == GenerationRefused(OrElse(t.statusMsg, VideoRefused)))
              && (t.status != Some(Succeed) && t.status != Some(FailedStatus) ==> r.InProgress? && r.taskStatus == t.status)
  {
    if !Truthy(taskId) then MissingTask
    else match jwt
      case Err(m) => Interrupted(m)
      case Ok(_) =>
        match poll
        case Threw(m) => Interrupted(m)
        case Http(status, body) =>
          if !IsOk(status) then
            if status == 429 then RateLimitedPoll else HttpError(status)
          else match body
            case NotJson(_) => Unreadable
            case Json(task) =>
              if task.status == Some(Succeed) then
                if !Truthy(task.videoUrl) then NoVideo
                else VideoReady(Deliver(task.videoUrl.value, download(task.videoUrl.value)))
              else if task.status == Some(FailedStatus) then
                GenerationRefused(OrElse(task.statusMsg, VideoRefused))
              else InProgress(task.status, "Vidéo en cours (" + OrElse(task.status, "processing") + ")...")
  }

  /** The inline loop and the client poll agree on a readable answer: both deliver the
      same video, and both report a failed task, each with its own default message. */
  lemma InlineAndClientAgree(id: string, jwt: Jwt, status: nat, task: Task, download: string -> Download)
    requires IsOk(status) && id != ""
    ensures var inline := InlineStep(Http(status, Json(task)), id, download);
            var client := Get(Some(id), Ok(jwt), Http(status, Json(task)), download);
            && (inline.Some? && inline.value.Done? <==> client.VideoReady?)
            && (client.VideoReady? ==> inline == Some(Done(client.videoUri, id)))
            && (inline.Some? && inline.value.TaskFailed? <==> client.GenerationRefused?)
  {
  }

  /** The client poll never reports a hard failure for a thrown error: it asks for
      another poll instead. */
  lemma ThrownErrorsAskToPollAgain(id: string, jwt: Result<Jwt>, m: string, download: string -> Download)
    requires id != ""
    ensures Get(Some(id), jwt, Threw(m), download).PollAgain()
  {
  }
}

=== FILE: prompts.dfy ===
/** The prompt library: `app/api/prompts/route.ts` (list, edit, delete) and
    `app/api/prompts/add/route.ts` (add one). A row is its id, its creation time and
    its other columns by name. */
module Prompts {
  import opened Base
  import opened Text
  import opened Decimal
  import opened Tables

  /** A column value: text or SQL null. */
  datatype Value = Text(text: string) | Null

  /** The columns of a row other than `id` and `created_at`. */
  type Fields = map<string, Value>

  datatype PromptRow = PromptRow(id: string, createdAt: int, fields: Fields)

  function CreatedAt(r: PromptRow): int { r.createdAt }

  /** `x || null` for an optional text. */
  function TextOrNull(x: Option<string>): (v: Value)
    ensures v == Null <==> !Truthy(x)
    ensures v.Text? ==> v.text == x.value
  {
    if Truthy(x) then Text(x.value) else Null
  }

  /** The status a new prompt is stored with. */
  const Pending: string := "pending"

  // ------------------------------------------------------------------ GET

  const DefaultLimit: string := "500"

  /** Whether a row passes the optional status filter (`.eq('status', status)` when the
      parameter is non-empty). */
  predicate HasStatus(r: PromptRow, status: Option<string>) {
    !Truthy(status) || ("status" in r.fields && r.fields["status"] == Text(status.value))
  }

  /** The row limit: `parseInt(limit || '500')`; `None` when that is not a count the
      database accepts. */
  function RowLimit(limit: Option<string>): (n: Option<nat>)
    ensures !Truthy(limit) ==> n == Some(500)
  {
    if !Truthy(limit) then
      ParseIntOfDecimal(500);
      assert NatToDecimal(500) == DefaultLimit;
      Some(500)
    else match ParseInt(limit.value)
      case Some(v) => if v >= 0 then Some(v) else None
      case None => None
  }

  /** The rows that pass the status filter. */
  function Matching(rows: seq<PromptRow>, status: Option<string>): (m: seq<PromptRow>)
    ensures forall x :: x in m <==> x in rows && HasStatus(x, status)
  {
    Filter(rows, (x: PromptRow) => HasStatus(x, status))
  }

  /** `GET(request)`: `status` and `limit` are the query parameters, `table` the table (or
      the database error) and `rejected` the database's message for a limit it cannot
      read. The result is the first `limit` rows of a newest-first arrangement of the
      matching rows (rows with equal times may come in any order). */
  function List(status: Option<string>, limit: Option<string>, table: Result<seq<PromptRow>>, rejected: string): (r: Result<seq<PromptRow>>)
    ensures table.Err? ==> r == Err(table.error)
    ensures table.Ok? && RowLimit(limit).None? ==> r == Err(rejected)
    ensures table.Ok? && RowLimit(limit).Some? ==>
              && r.Ok?
              && |r.value| <= RowLimit(limit).value
              && exists order: seq<PromptRow> ::
                   && multiset(order) == multiset(Matching(table.value, status))
                   && Descending(order, CreatedAt)
                   && r.value == Limit(order, RowLimit(limit).value)
  {
    match table
    case Err(m) => Err(m)
    case Ok(rows) =>
      match RowLimit(limit)
      case None => Err(rejected)
      case Some(n) => Ok(Limit(SortDescending(Matching(rows, status), CreatedAt), n))
  }

  /** The order a listing was cut from. */
  lemma ListOrder(status: Option<string>, limit: Option<string>, rows: seq<PromptRow>, rejected: string)
    returns (order: seq<PromptRow>)
    requires RowLimit(limit).Some?
    ensures multiset(order) == multiset(Matching(rows, status))
    ensures Descending(order, CreatedAt)
    ensures List(status, limit, Ok(rows), rejected).value == Limit(order, RowLimit(limit).value)
  {
    order := SortDescending(Matching(rows, status), CreatedAt);
  }

  /** Every listed row is a row of the table with the requested status, and the listing
      is newest first. */
  lemma ListedMatch(status: Option<string>, limit: Option<string>, rows: seq<PromptRow>, rejected: string)
    requires RowLimit(limit).Some?
    ensures var r := List(status, limit, Ok(rows), rejected).value;
            && (forall x :: x in r ==> x in rows && HasStatus(x, status))
            && Descending(r, CreatedAt)
  {
    var order := ListOrder(status, limit, rows, rejected);
    var r := List(status, limit, Ok(rows), rejected).value;
    forall x | x in r ensures x in rows && HasStatus(x, status) {
      assert x in order;
      assert x in multiset(Matching(rows, status));
    }
    forall i, j | 0 <= i < j < |r| ensures CreatedAt(r[i]) >= CreatedAt(r[j]) {
      assert r[i] == order[i] && r[j] == order[j];
    }
  }

  /** The listing keeps the newest matching rows: a matching row left out is no newer
      than any returned row, and only when the limit is reached. */
  lemma ListKeepsNewest(status: Option<string>, limit: Option<string>, rows: seq<PromptRow>, rejected: string, x: PromptRow)
    requires RowLimit(limit).Some?
    requires x in rows && HasStatus(x, status)
    requires x !in List(status, limit, Ok(rows), rejected).value
    ensures var r := List(status, limit, Ok(rows), rejected).value;
            |r| == RowLimit(limit).value && forall y :: y in r ==> y.createdAt >= x.createdAt
  {
    var order := ListOrder(status, limit, rows, rejected);
    assert x in Matching(rows, status);
    assert x in multiset(order);
    LimitKeepsNewest(order, CreatedAt, RowLimit(limit).value, x);
  }

  /** When the matching rows fit under the limit, all of them are listed. */
  lemma ListAllWhenRoom(status: Option<string>, limit: Option<string>, rows: seq<PromptRow>, rejected: string, x: PromptRow)
    requires RowLimit(limit).Some? && |Matching(rows, status)| <= RowLimit(limit).value
    requires x in rows && HasStatus(x, status)
    ensures x in List(status, limit, Ok(rows), rejected).value
  {
    var order := ListOrder(status, limit, rows, rejected);
    assert |order| == |Matching(rows, status)| by {
      assert |multiset(order)| == |multiset(Matching(rows, status))|;
    }
    assert x in Matching(rows, status);
    assert x in multiset(order);
  }

  // ------------------------------------------------------------------ PATCH

  datatype PatchReply =
    | PatchMissingId            // 400
    | NotSingle                 // 500: `.single()` found no row, or several
    | PatchFailed(error: string)  // 500
    | Patched(row: PromptRow)
  {
    function StatusCode(): nat {
      if Patched? then 200 else if PatchMissingId? then 400 else 500
    }
  }

  datatype PatchRun = PatchRun(reply: PatchReply, table: seq<PromptRow>)

  /** A row with `updates` written over its columns. */
  function Updated(r: PromptRow, updates: Fields): (u: PromptRow)
    ensures u.id == r.id && u.createdAt == r.createdAt
    ensures forall c :: c in updates ==> c in u.fields && u.fields[c] == updates[c]
    ensures forall c :: c !in updates ==> (c in u.fields <==> c in r.fields)
    ensures forall c :: c !in updates && c in r.fields ==> u.fields[c] == r.fields[c]
  {
    PromptRow(r.id, r.createdAt, r.fields + updates)
  }

  /** The number of rows with id `id`. */
  function CountId(table: seq<PromptRow>, id: string): (n: nat)
    ensures n <= |table|
    ensures n == 0 <==> forall k :: 0 <= k < |table| ==> table[k].id != id
    decreases |table|
  {
    if table == [] then 0
    else (if table[0].id == id then 1 else 0) + CountId(table[1..], id)
  }

  /** `PATCH(request)`: `body` is the body's `id` and the rest of its fields (or the
      parse error), `failure` the database's refusal of the update, if any. A request
      that does not match exactly one row is refused by `.single()` and rolled back. */
  function Patch(body: Result<(Option<string>, Fields)>, table: seq<PromptRow>, failure: Option<string>): (run: PatchRun)
    ensures body.Ok? && !Truthy(body.value.0) ==> run == PatchRun(PatchMissingId, table)
    ensures !run.reply.Patched? ==> run.table == table
    ensures run.reply.Patched? ==>
              && body.Ok? && Truthy(body.value.0) && failure.None?
              && CountId(table, body.value.0.value) == 1
              && |run.table| == |table|
              // the one row with that id gets exactly the supplied fields
              && (forall k :: 0 <= k < |table| && table[k].id == body.value.0.value ==>
                    run.table[k] == Updated(table[k], body.value.1) && run.reply.row == run.table[k])
              // and no other row changes
              && (forall k :: 0 <= k < |table| && table[k].id != body.value.0.value ==> run.table[k] == table[k])
    // when the update goes through: patched exactly when one row has the id
    ensures body.Ok? && Truthy(body.value.0) && failure.None? ==>
              && (run.reply.Patched? <==> CountId(table, body.value.0.value) == 1)
              && (CountId(table, body.value.0.value) != 1 ==> run == PatchRun(NotSingle, table))
    ensures body.Ok? && Truthy(body.value.0) && failure.Some? ==> run == PatchRun(PatchFailed(failure.value), table)
    ensures body.Err? ==> run == PatchRun(PatchFailed(body.error), table)
  {
    match body
    case Err(m) => PatchRun(PatchFailed(m), table)
    case Ok((id, updates)) =>
      if !Truthy(id) then PatchRun(PatchMissingId, table)
      else match failure
        case Some(m) => PatchRun(PatchFailed(m), table)
        case None =>
          if CountId(table, id.value) != 1 then PatchRun(NotSingle, table)
          else
            var after := seq(|table|, k requires 0 <= k < |table| =>
                               if table[k].id == id.value then Updated(table[k], updates) else table[k]);
            var k :| 0 <= k < |table| && table[k].id == id.value;
            OnlyOneId(table, id.value, k);
            PatchRun(Patched(after[k]), after)
  }

  /** With a single row of that id, every other row has another id. */
  lemma {:induction false} OnlyOneId(table: seq<PromptRow>, id: string, k: nat)
    requires CountId(table, id) == 1 && k < |table| && table[k].id == id
    ensures forall j :: 0 <= j < |table| && j != k ==> table[j].id != id
    decreases |table|
  {
    if k > 0 {
      assert table[1..][k - 1].id == id;
      assert CountId(table[1..], id) != 0;
      OnlyOneId(table[1..], id, k - 1);
      forall j | 0 <= j < |table| && j != k ensures table[j].id != id {
        if j > 0 { assert table[j] == table[1..][j - 1]; }
      }
    } else {
      assert CountId(table[1..], id) == 0;
      forall j | 0 < j < |table| ensures table[j].id != id {
        assert table[j] == table[1..][j - 1];
      }
    }
  }

  /** Patching the same fields twice is patching them once. */
  lemma PatchTwiceIsOnce(id: string, updates: Fields, table: seq<PromptRow>)
    requires Patch(Ok((Some(id), updates)), table, None).reply.Patched?
    ensures var once := Patch(Ok((Some(id), updates)), table, None).table;
            Patch(Ok((Some(id), updates)), once, None).table == once
  {
    var once := Patch(Ok((Some(id), updates)), table, None).table;
    assert forall k :: 0 <= k < |once| ==> once[k].id == table[k].id;
    assert CountId(once, id) == CountId(table, id) by { SameIds(table, once, id); }
    var again := Patch(Ok((Some(id), updates)), once, None);
    assert again.reply.Patched?;
    var twice := again.table;
    assert |twice| == |once|;
    forall k | 0 <= k < |once| ensures twice[k] == once[k] {
      if once[k].id == id {
        assert table[k].id == id;
        assert twice[k] == Updated(once[k], updates);
        assert once[k].fields + updates == once[k].fields;
      } else {
        assert twice[k] == once[k];
      }
    }
  }

  /** Two tables with the same ids in the same places count an id alike. */
  lemma {:induction false} SameIds(a: seq<PromptRow>, b: seq<PromptRow>, id: string)
    requires |a| == |b| && forall k :: 0 <= k < |a| ==> a[k].id == b[k].id
    ensures CountId(a, id) == CountId(b, id)
    decreases |a|
  {
    if a != [] {
      SameIds(a[1..], b[1..], id);
    }
  }

  // ------------------------------------------------------------------ DELETE

  datatype DeleteReply = DeleteMissingId | DeleteFailed(error: string) | Deleted {
    function StatusCode(): nat {
      match this
      case DeleteMissingId => 400
      case DeleteFailed(_) => 500
      case Deleted => 200
    }
  }

  /** `DELETE(request)`: `id` is the query parameter, `failure` the database's refusal. */
  function Delete(id: Option<string>, table: seq<PromptRow>, failure: Option<string>): (r: (DeleteReply, seq<PromptRow>))
    ensures !Truthy(id) ==> r == (DeleteMissingId, table)
    ensures r.0 != Deleted ==> r.1 == table
    ensures r.0 == Deleted ==>
              && Truthy(id) && failure.None?
              && (forall x :: x in r.1 <==> x in table && x.id != id.value)
              && r.1 == Filter(table, (x: PromptRow) => x.id != id.value)
    // with an id, the database's answer decides
    ensures Truthy(id) ==> (r.0 == Deleted <==> failure.None?)
    ensures Truthy(id) && failure.Some? ==> r == (DeleteFailed(failure.value), table)
  {
    if !Truthy(id) then (DeleteMissingId, table)
    else match failure
      case Some(m) => (DeleteFailed(m), table)
      case None => (Deleted, Filter(table, (x: PromptRow) => x.id != id.value))
  }

  // ------------------------------------------------------------------ add

  /** The body of `POST /api/prompts/add`; `kind` is its `type` field. */
  datatype AddBody = AddBody(prompt: Option<string>, format: Option<string>, kind: Option<string>, brand: Option<string>,
                             angle: Option<string>, concept: Option<string>, productGroup: Option<string>)

  /** The columns of an accepted prompt, with the destructuring defaults of the route:
      format "9:16", type "photo", brand "" (each only when the field is absent), empty
      angle, concept and product group stored as null, status "pending". */
  function NewFields(b: AddBody, client: string): (f: Fields)
    requires Truthy(b.prompt)
    ensures "client_id" in f && f["client_id"] == Text(client)
    ensures "prompt" in f && f["prompt"] == Text(Trim(b.prompt.value))
    ensures "status" in f && f["status"] == Text(Pending)
    ensures "format" in f && f["format"] == Text(b.format.GetOr("9:16"))
    ensures "type" in f && f["type"] == Text(b.kind.GetOr("photo"))
    ensures "brand" in f && f["brand"] == Text(b.brand.GetOr(""))
    ensures "angle" in f && f["angle"] == TextOrNull(b.angle)
    ensures "concept" in f && f["concept"] == TextOrNull(b.concept)
    ensures "product_group" in f && f["product_group"] == TextOrNull(b.productGroup)
  {
    map["client_id" := Text(client), "prompt" := Text(Trim(b.prompt.value)),
        "format" := Text(b.format.GetOr("9:16")), "type" := Text(b.kind.GetOr("photo")),
        "brand" := Text(b.brand.GetOr("")), "angle" := TextOrNull(b.angle),
        "concept" := TextOrNull(b.concept), "product_group" := TextOrNull(b.productGroup),
        "status" := Text(Pending)]
  }

  datatype AddReply =
    | ClientIdMissing         // 500, before the body is read
    | AddThrown(error: string)  // 500
    | PromptRequired          // 400
    | InsertFailed            // 500, "Erreur ajout en base"
    | Added(row: PromptRow)
  {
    function StatusCode(): nat {
      if Added? then 200 else if PromptRequired? then 400 else 500
    }
  }

  datatype AddRun = AddRun(reply: AddReply, table: seq<PromptRow>)

  /** `POST(request)` of the add route: `env` is `CLIENT_ID` (never taken from the body),
      `newId` and `now` what the database assigns, `insertError` whether it refuses. */
  function Add(env: Option<string>, body: Result<AddBody>, table: seq<PromptRow>,
               newId: string, now: int, insertError: bool): (run: AddRun)
    ensures !Truthy(env) ==> run == AddRun(ClientIdMissing, table)
    ensures (Truthy(env) && body.Ok? && (!Truthy(body.value.prompt) || Trim(body.value.prompt.value) == ""))
              ==> run == AddRun(PromptRequired, table)
    ensures !run.reply.Added? ==> run.table == table
    ensures run.reply.Added? ==>
              && Truthy(env) && body.Ok? && Truthy(body.value.prompt) && Trim(body.value.prompt.value) != ""
              && run.reply.row == PromptRow(newId, now, NewFields(body.value, env.value))
              && run.table == table + [run.reply.row]
  {
    if !Truthy(env) then AddRun(ClientIdMissing, table)
    else match body
      case Err(m) => AddRun(AddThrown(m), table)
      case Ok(b) =>
        if !Truthy(b.prompt) || Trim(b.prompt.value) == "" then AddRun(PromptRequired, table)
        else if insertError then AddRun(InsertFailed, table)
        else
          var row := PromptRow(newId, now, NewFields(b, env.value));
          AddRun(Added(row), table + [row])
  }

  /** A prompt just added shows in the pending listing, when the table held fewer than
      500 pending prompts. */
  lemma AddedIsListedPending(env: Option<string>, body: AddBody, table: seq<PromptRow>, newId: string, now: int, rejected: string)
    requires Add(env, Ok(body), table, newId, now, false).reply.Added?
    requires |Matching(table, Some(Pending))| < 500
    ensures var run := Add(env, Ok(body), table, newId, now, false);
            run.reply.row in List(Some(Pending), None, Ok(run.table), rejected).value
  {
    var run := Add(env, Ok(body), table, newId, now, false);
    var row := run.reply.row;
    FilterAppend(table, [row], (x: PromptRow) => HasStatus(x, Some(Pending)));
    assert Matching([row], Some(Pending)) == [row] by { assert [row][1..] == []; }
    ListAllWhenRoom(Some(Pending), None, run.table, rejected, row);
  }
}

=== FILE: prompts_table.dfy ===
/** The prompt table of the interface (app/components/PromptsTable.tsx): how it shapes
    every server answer, the guard and body of adding one prompt, bulk import of
    pasted lines, the values an edit starts from, and the label shown for a status.
    The server side of adding and editing is the `Prompts` module. */
module PromptsTable {
  import opened Base
  import opened Text
  import Tables
  import Prompts

  // ------------------------------------------------------------------ safeFetch

  /** What `safeFetch` hands back: the answer's `ok` flag and its data, or an error
      message in place of data it could not get. */
  datatype Data<+T> = Parsed(value: T) | Unavailable(error: string)

  datatype Answer<+T> = Answer(ok: bool, data: Data<T>)

  const UnexpectedReply: string := "Réponse inattendue du serveur"
  const NoConnection: string := "Connexion au serveur impossible"

  /** `safeFetch`: never throws. A failed request is not ok and carries the connection
      message; a reply that is not JSON keeps the reply's own `ok` flag and carries the
      unexpected-reply message; a JSON reply is passed on. */
  function SafeFetch<T>(f: Fetch<T>): (a: Answer<T>)
    ensures a.ok <==> f.Http? && IsOk(f.status)
    ensures a.data.Unavailable? <==> !(f.Http? && f.body.Json?)
    ensures a.data.Unavailable? ==> (a.data.error == NoConnection <==> f.Threw?)
    ensures a.data.Unavailable? ==> a.data.error == NoConnection || a.data.error == UnexpectedReply
    ensures a.data.Parsed? ==> a.data.value == f.body.value
  {
    match f
    case Threw(_) => Answer(false, Unavailable(NoConnection))
    case Http(status, NotJson(_)) => Answer(IsOk(status), Unavailable(UnexpectedReply))
    case Http(status, Json(v)) => Answer(IsOk(status), Parsed(v))
  }

  // ------------------------------------------------------------------ the loaded prompts

  /** A prompt as the listing returns it; `kind` is its `type` column. */
  datatype Prompt = Prompt(id: string, brand: string, prompt: string, format: string, kind: string,
                           angle: Option<string>, concept: Option<string>, status: string,
                           imageUrl: Option<string>, productGroup: Option<string>, createdAt: string)

  const DefaultBrand: string := "Ma Marque"

  /** The brand new prompts are sent with: that of the first loaded prompt, or a
      placeholder when none is loaded. */
  function BrandFor(loaded: seq<Prompt>): (b: string)
    ensures loaded == [] ==> b == DefaultBrand
    ensures loaded != [] ==> b == loaded[0].brand
  {
    if |loaded| > 0 then loaded[0].brand else DefaultBrand
  }

  // ------------------------------------------------------------------ adding one prompt

  /** The add form; every field is the text of an input. */
  datatype AddForm = AddForm(prompt: string, format: string, kind: string, angle: string,
                             concept: string, productGroup: string)

  /** The form as it opens and as it is reset after a successful add. */
  const BlankForm: AddForm := AddForm("", "9:16", "photo", "", "", "")

  /** `addPrompt` up to the request: an empty prompt is refused with no request; any
      other form is sent whole, with the brand added. */
  function AddRequest(form: AddForm, loaded: seq<Prompt>): (r: Option<Prompts.AddBody>)
    ensures r.None? <==> form.prompt == ""
    ensures r.Some? ==> r.value.prompt == Some(form.prompt) && r.value.brand == Some(BrandFor(loaded))
    ensures r.Some? ==> r.value.format == Some(form.format) && r.value.kind == Some(form.kind)
    ensures r.Some? ==> r.value.angle == Some(form.angle) && r.value.concept == Some(form.concept)
    ensures r.Some? ==> r.value.productGroup == Some(form.productGroup)
  {
    if form.prompt == "" then None
    else Some(Prompts.AddBody(Some(form.prompt), Some(form.format), Some(form.kind), Some(BrandFor(loaded)),
                              Some(form.angle), Some(form.concept), Some(form.productGroup)))
  }

  /** The form after an answer: reset when the server accepted, kept otherwise. */
  function AfterAdd(form: AddForm, ok: bool): (f: AddForm)
    ensures ok ==> f.prompt == ""
    // the other inputs go back to their opening values: 9:16, photo and empty texts
    ensures ok ==> f == BlankForm && f.format == "9:16" && f.kind == "photo"
    ensures ok ==> f.angle == "" && f.concept == "" && f.productGroup == ""
    ensures !ok ==> f == form
  {
    if ok then BlankForm else form
  }

  /** The interface only refuses an empty prompt: a prompt of spaces is sent, and it is
      the server that refuses it, leaving the table as it was. */
  lemma BlankPromptRefusedByServer(form: AddForm, loaded: seq<Prompt>, env: Option<string>,
                                   table: seq<Prompts.PromptRow>, newId: string, now: int, insertError: bool)
    requires form.prompt != "" && Trim(form.prompt) == ""
    requires Truthy(env)
    ensures AddRequest(form, loaded).Some?
    ensures Prompts.Add(env, Ok(AddRequest(form, loaded).value), table, newId, now, insertError)
            == Prompts.AddRun(Prompts.PromptRequired, table)
  {
  }

  /** A prompt added from the form is stored with the form's text trimmed, its brand,
      and empty optional fields as null. */
  lemma AddedFromForm(form: AddForm, loaded: seq<Prompt>, env: Option<string>,
                      table: seq<Prompts.PromptRow>, newId: string, now: int)
    requires Truthy(env) && Trim(form.prompt) != ""
    ensures var run := Prompts.Add(env, Ok(AddRequest(form, loaded).value), table, newId, now, false);
      && run.reply.Added?
      && run.reply.row.fields["prompt"] == Prompts.Text(Trim(form.prompt))
      && run.reply.row.fields["brand"] == Prompts.Text(BrandFor(loaded))
      && (run.reply.row.fields["angle"] == Prompts.Null <==> form.angle == "")
      && Label(Prompts.Pending) == Waiting
  {
    assert form.prompt != "";
  }

  // ------------------------------------------------------------------ bulk import

  /** Text that begins and ends with a non-space character, or is empty. */
  predicate Trimmed(s: string) {
    s == [] || (!IsSpace(s[0]) && !IsSpace(s[|s| - 1]))
  }

  /** Every piece trimmed. */
  function TrimAll(parts: seq<string>): (r: seq<string>)
    ensures |r| == |parts|
    ensures forall k :: 0 <= k < |parts| ==> r[k] == Trim(parts[k])
  {
    seq(|parts|, k requires 0 <= k < |parts| => Trim(parts[k]))
  }

  predicate NonEmpty(l: string) {
    |l| > 0
  }

  /** The prompts of a pasted text: its lines, each trimmed, the empty ones dropped. */
  function ImportLines(text: string): (lines: seq<string>)
    ensures forall k :: 0 <= k < |lines| ==> lines[k] != ""
  {
    var lines := Tables.Filter(TrimAll(Split(text, '\n')), NonEmpty);
    assert forall k :: 0 <= k < |lines| ==> lines[k] in lines;
    lines
  }

  /** Every imported line is trimmed and holds no line break. */
  lemma ImportLineShape(text: string, k: nat)
    requires k < |ImportLines(text)|
    ensures Trimmed(ImportLines(text)[k]) && '\n' !in ImportLines(text)[k]
  {
    var parts := Split(text, '\n');
    var trimmed := TrimAll(parts);
    var lines := Tables.Filter(trimmed, NonEmpty);
    assert ImportLines(text) == lines;
    assert lines[k] in lines;
    var j :| 0 <= j < |trimmed| && trimmed[j] == lines[k];
    assert lines[k] == Trim(parts[j]);
    TrimKeepsOut(parts[j], '\n');
  }

  /** Lines that are non-empty, trimmed and free of line breaks, pasted one per line,
      are imported as exactly those lines. */
  lemma ImportLinesOfJoin(lines: seq<string>)
    requires forall k :: 0 <= k < |lines| ==> lines[k] != "" && Trimmed(lines[k]) && '\n' !in lines[k]
    ensures ImportLines(Join(lines, "\n")) == lines
  {
    if lines == [] {
      EmptyTextImportsNothing();
    } else {
      SplitJoin(lines, '\n');
      TrimmedLinesKept(lines);
    }
  }

  /** An empty paste has no line. */
  lemma EmptyTextImportsNothing()
    ensures ImportLines("") == []
  {
    assert Split("", '\n') == [""];
    assert TrimAll([""]) == [""];
    assert [""][1..] == [];
  }

  /** Trimming and dropping empty lines leaves non-empty trimmed lines alone. */
  lemma TrimmedLinesKept(lines: seq<string>)
    requires forall k :: 0 <= k < |lines| ==> lines[k] != "" && Trimmed(lines[k])
    ensures Tables.Filter(TrimAll(lines), NonEmpty) == lines
  {
    forall k | 0 <= k < |lines| ensures Trim(lines[k]) == lines[k] {
      TrimOfTrimmed(lines[k]);
    }
    assert TrimAll(lines) == lines;
    Tables.FilterAll(lines, NonEmpty);
  }

  /** What one import line is sent as: the chosen format, type and product group (none
      when left empty), the brand, and empty angle and concept. */
  function ImportRequest(line: string, format: string, kind: string, group: string, brand: string): (b: Prompts.AddBody)
    ensures b.prompt == Some(line) && b.brand == Some(brand)
    ensures b.format == Some(format) && b.kind == Some(kind)
    ensures b.angle == Some("") && b.concept == Some("")
    ensures b.productGroup.None? <==> group == ""
    ensures group != "" ==> b.productGroup == Some(group)
  {
    Prompts.AddBody(Some(line), Some(format), Some(kind), Some(brand), Some(""), Some(""),
                    if group == "" then None else Some(group))
  }

  datatype ImportOutcome = BlankImport | Imported(requests: seq<Prompts.AddBody>, succeeded: nat, failed: nat)

  /** The number of the first `n` answers that `safeFetch` reports ok. */
  function Successes<T>(replies: nat -> Fetch<T>, n: nat): (c: nat)
    ensures c <= n
  {
    if n == 0 then 0 else Successes(replies, n - 1) + (if SafeFetch(replies(n - 1)).ok then 1 else 0)
  }

  /** `importPrompts`: a blank text is refused with no request; otherwise every line is
      sent in order, and each answer is counted as a success or a failure by its `ok`
      flag. `replies(k)` is the answer to the `k`-th request. */
  method Import<T>(text: string, loaded: seq<Prompt>, format: string, kind: string, group: string,
                   replies: nat -> Fetch<T>) returns (r: ImportOutcome)
    ensures r.BlankImport? <==> Trim(text) == ""
    ensures r.Imported? ==> |r.requests| == |ImportLines(text)|
    ensures r.Imported? ==> forall k :: 0 <= k < |r.requests| ==>
      r.requests[k] == ImportRequest(ImportLines(text)[k], format, kind, group, BrandFor(loaded))
    ensures r.Imported? ==> r.succeeded + r.failed == |ImportLines(text)|
    ensures r.Imported? ==> r.succeeded == Successes(replies, |ImportLines(text)|)
  {
    if Trim(text) == "" {
      return BlankImport;
    }
    r := SendLines(ImportLines(text), format, kind, group, BrandFor(loaded), replies);
  }

  /** The loop of `importPrompts` over the lines. */
  method SendLines<T>(lines: seq<string>, format: string, kind: string, group: string, brand: string,
                      replies: nat -> Fetch<T>) returns (r: ImportOutcome)
    ensures r.Imported? && |r.requests| == |lines|
    ensures forall k :: 0 <= k < |lines| ==> r.requests[k] == ImportRequest(lines[k], format, kind, group, brand)
    ensures r.succeeded + r.failed == |lines|
    ensures r.succeeded == Successes(replies, |lines|)
  {
    var requests: seq<Prompts.AddBody> := [];
    var succeeded: nat := 0;
    var failed: nat := 0;
    var i: nat := 0;
    while i < |lines|
      invariant i <= |lines|
      invariant |requests| == i
      invariant forall k :: 0 <= k < i ==> requests[k] == ImportRequest(lines[k], format, kind, group, brand)
      invariant succeeded == Successes(replies, i)
      invariant succeeded + failed == i
    {
      requests := requests + [ImportRequest(lines[i], format, kind, group, brand)];
      if SafeFetch(replies(i)).ok {
        succeeded := succeeded + 1;
      } else {
        failed := failed + 1;
      }
      i := i + 1;
    }
    return Imported(requests, succeeded, failed);
  }

  /** Every imported line the server accepts is stored as that exact line, pending. */
  lemma ImportedLineStored(line: string, format: string, kind: string, group: string, brand: string,
                           env: Option<string>, table: seq<Prompts.PromptRow>, newId: string, now: int)
    requires line != "" && Trimmed(line) && Truthy(env)
    ensures var run := Prompts.Add(env, Ok(ImportRequest(line, format, kind, group, brand)), table, newId, now, false);
      && run.reply.Added?
      && run.reply.row.fields["prompt"] == Prompts.Text(line)
      && run.reply.row.fields["status"] == Prompts.Text(Prompts.Pending)
      && run.reply.row.fields["angle"] == Prompts.Null
  {
    TrimOfTrimmed(line);
    TrimEmptyIff(line);
    assert !IsSpace(line[0]);
  }

  // ------------------------------------------------------------------ editing

  /** The values an edit starts from; the text inputs cannot hold null. */
  datatype EditValues = EditValues(prompt: string, format: string, kind: string, angle: string,
                                   concept: string, status: string, productGroup: string)

  /** `startEdit`: the prompt's values, with a missing angle, concept or product group
      shown as empty text. */
  function StartEdit(p: Prompt): (e: EditValues)
    ensures e.prompt == p.prompt && e.format == p.format && e.kind == p.kind && e.status == p.status
    ensures p.angle.None? ==> e.angle == ""
    ensures p.angle.Some? ==> e.angle == p.angle.value
    ensures p.concept.None? ==> e.concept == ""
    ensures p.concept.Some? ==> e.concept == p.concept.value
    ensures p.productGroup.None? ==> e.productGroup == ""
    ensures p.productGroup.Some? ==> e.productGroup == p.productGroup.value
  {
    EditValues(p.prompt, p.format, p.kind, p.angle.GetOr(""), p.concept.GetOr(""), p.status, p.productGroup.GetOr(""))
  }

  /** The columns a saved edit sends (`{ id, ...editValues }` without the id). */
  function EditFields(e: EditValues): (f: Prompts.Fields)
    ensures forall c :: c in f <==> c in EditColumns
  {
    map["prompt" := Prompts.Text(e.prompt), "format" := Prompts.Text(e.format), "type" := Prompts.Text(e.kind),
        "angle" := Prompts.Text(e.angle), "concept" := Prompts.Text(e.concept),
        "status" := Prompts.Text(e.status), "product_group" := Prompts.Text(e.productGroup)]
  }

  const EditColumns: set<string> := {"prompt", "format", "type", "angle", "concept", "status", "product_group"}

  /** The stored value of an optional column as the listing shows it. */
  function Shown(v: Prompts.Value): Option<string> {
    match v
    case Text(t) => Some(t)
    case Null => None
  }

  /** The loaded prompt `p` is what the listing shows for `row`. */
  predicate Shows(row: Prompts.PromptRow, p: Prompt) {
    && EditColumns <= row.fields.Keys
    && row.fields["prompt"] == Prompts.Text(p.prompt)
    && row.fields["format"] == Prompts.Text(p.format)
    && row.fields["type"] == Prompts.Text(p.kind)
    && row.fields["status"] == Prompts.Text(p.status)
    && Shown(row.fields["angle"]) == p.angle
    && Shown(row.fields["concept"]) == p.concept
    && Shown(row.fields["product_group"]) == p.productGroup
  }

  /** Saving an edit without touching it changes the row in one way only: a null
      angle, concept or product group becomes empty text. */
  lemma UnchangedEditOnlyFillsNulls(row: Prompts.PromptRow, p: Prompt)
    requires Shows(row, p)
    ensures var u := Prompts.Updated(row, EditFields(StartEdit(p)));
      && u.id == row.id && u.fields.Keys == row.fields.Keys
      && forall c :: c in row.fields ==>
           u.fields[c] == (if row.fields[c] == Prompts.Null && c in EditColumns then Prompts.Text("") else row.fields[c])
  {
    var f := EditFields(StartEdit(p));
    var u := Prompts.Updated(row, f);
    assert u.fields.Keys == row.fields.Keys by {
      assert forall c :: c in u.fields <==> c in row.fields;
    }
    forall c | c in row.fields
      ensures u.fields[c] == (if row.fields[c] == Prompts.Null && c in EditColumns then Prompts.Text("") else row.fields[c])
    {
      if c in EditColumns {
        assert u.fields[c] == f[c];
      }
    }
  }

  // ------------------------------------------------------------------ status labels

  /** The four badges of the status column. */
  datatype StatusLabel = Waiting | Running | Done | Failed

  /** "pending", "generating" and "generated" have their own badge; any other status,
      including one the table does not know, shows as an error. */
  function Label(status: string): (l: StatusLabel)
    ensures l == Waiting <==> status == "pending"
    ensures l == Running <==> status == "generating"
    ensures l == Done <==> status == "generated"
    ensures l == Failed <==> status !in {"pending", "generating", "generated"}
  {
    if status == "pending" then Waiting
    else if status == "generating" then Running
    else if status == "generated" then Done
    else Failed
  }
}

=== FILE: tables.dfy ===
/** Database tables as sequences of records, and the three query steps the routes
    use on them: a filter (`.eq(...)`), an ordering on a time column
    (`.order(..., { ascending: false })`) and a row limit (`.limit(n)`). */
module Tables {

  /** The records of `s` that satisfy `p`, in their order. */
  function Filter<T(!new)>(s: seq<T>, p: T -> bool): (r: seq<T>)
    ensures |r| <= |s|
    ensures forall x :: x in r <==> x in s && p(x)
    decreases |s|
  {
    if s == [] then []
    else (if p(s[0]) then [s[0]] else []) + Filter(s[1..], p)
  }

  /** Filtering distributes over concatenation: the kept records stay in order. */
  lemma {:induction false} FilterAppend<T(!new)>(a: seq<T>, b: seq<T>, p: T -> bool)
    ensures Filter(a + b, p) == Filter(a, p) + Filter(b, p)
    decreases |a|
  {
    if a != [] {
      assert (a + b)[0] == a[0] && (a + b)[1..] == a[1..] + b;
      FilterAppend(a[1..], b, p);
      var head := if p(a[0]) then [a[0]] else [];
      assert Filter(a, p) == head + Filter(a[1..], p);
      assert Filter(a + b, p) == head + Filter(a[1..] + b, p);
    } else {
      assert a + b == b;
    }
  }

  /** A table whose every record passes the filter is returned whole. */
  lemma {:induction false} FilterAll<T(!new)>(s: seq<T>, p: T -> bool)
    requires forall i :: 0 <= i < |s| ==> p(s[i])
    ensures Filter(s, p) == s
    decreases |s|
  {
    if s != [] {
      FilterAll(s[1..], p);
    }
  }

  /** Applying the same filter twice removes nothing more. */
  lemma FilterIdempotent<T(!new)>(s: seq<T>, p: T -> bool)
    ensures Filter(Filter(s, p), p) == Filter(s, p)
  {
    var r := Filter(s, p);
    assert forall i :: 0 <= i < |r| ==> r[i] in r;
    FilterAll(r, p);
  }

  /** Filtering with a weaker condition first does not change what a stronger filter
      keeps afterwards. */
  lemma {:induction false} FilterSubsumed<T(!new)>(s: seq<T>, p: T -> bool, q: T -> bool)
    requires forall x :: q(x) ==> p(x)
    ensures Filter(Filter(s, p), q) == Filter(s, q)
    decreases |s|
  {
    if s != [] {
      FilterSubsumed(s[1..], p, q);
      if p(s[0]) {
        assert Filter(s, p) == [s[0]] + Filter(s[1..], p);
        FilterAppend([s[0]], Filter(s[1..], p), q);
        assert Filter([s[0]], q) == (if q(s[0]) then [s[0]] else []) by {
          assert [s[0]][1..] == [];
        }
      } else {
        assert !q(s[0]);
        assert Filter(s, p) == Filter(s[1..], p);
        assert Filter(s, q) == Filter(s[1..], q);
      }
    }
  }

  /** Every record is kept by exactly one of a filter and its negation. */
  lemma {:induction false} FilterSplits<T(!new)>(s: seq<T>, p: T -> bool)
    ensures |Filter(s, p)| + |Filter(s, x => !p(x))| == |s|
    decreases |s|
  {
    if s != [] {
      FilterSplits(s[1..], p);
    }
  }

  /** The records in non-increasing order of `key`. */
  predicate Descending<T>(s: seq<T>, key: T -> int) {
    forall i, j :: 0 <= i < j < |s| ==> key(s[i]) >= key(s[j])
  }

  /** Putting a record no older than the head in front keeps a table descending. */
  lemma DescendingCons<T>(h: T, t: seq<T>, key: T -> int)
    requires Descending(t, key) && (t == [] || key(h) >= key(t[0]))
    ensures Descending([h] + t, key)
  {
    var r := [h] + t;
    forall i, j | 0 <= i < j < |r| ensures key(r[i]) >= key(r[j]) {
      if i == 0 {
        assert key(t[0]) >= key(t[j - 1]);
      }
    }
  }

  /** Inserts `x` before the first record with a smaller key. */
  function Insert<T>(x: T, s: seq<T>, key: T -> int): (r: seq<T>)
    requires Descending(s, key)
    ensures Descending(r, key)
    ensures multiset(r) == multiset(s) + multiset{x}
    ensures r[0] == x || (s != [] && r[0] == s[0])
    decreases |s|
  {
    if s == [] || key(x) >= key(s[0]) then
      DescendingCons(x, s, key);
      [x] + s
    else
      var rest := Insert(x, s[1..], key);
      DescendingCons(s[0], rest, key);
      assert s == [s[0]] + s[1..];
      [s[0]] + rest
  }

  /** The records sorted newest first on `key`; the order of records with equal keys
      is the database's choice, and this is one such choice. */
  function SortDescending<T>(s: seq<T>, key: T -> int): (r: seq<T>)
    ensures Descending(r, key)
    ensures multiset(r) == multiset(s)
    decreases |s|
  {
    if s == [] then []
    else
      assert s == [s[0]] + s[1..];
      Insert(s[0], SortDescending(s[1..], key), key)
  }

  /** The first `n` records (`.limit(n)`). */
  function Limit<T>(s: seq<T>, n: nat): (r: seq<T>)
    ensures |r| <= n && |r| <= |s| && r == s[..|r|]
    ensures |s| <= n ==> r == s
    ensures n <= |s| ==> |r| == n
  {
    if |s| <= n then s else s[..n]
  }

  /** Cutting the tail before putting records in front changes nothing once the whole
      is cut again. */
  lemma LimitOfAppend<T>(a: seq<T>, b: seq<T>, n: nat)
    ensures Limit(a + Limit(b, n), n) == Limit(a + b, n)
  {
    if |b| > n {
      var l := a + b[..n];
      assert |l| >= n;
      forall i | 0 <= i < n && i < |a| + |b| ensures (a + b)[i] == l[i] {
        if i >= |a| {
          assert (a + b)[i] == b[i - |a|];
        }
      }
    }
  }

  /** The first `n` records of a descending table are its newest: a record left out is
      no newer than any record kept, and nothing is left out when there is room. */
  lemma LimitKeepsNewest<T>(s: seq<T>, key: T -> int, n: nat, x: T)
    requires Descending(s, key)
    requires x in s && x !in Limit(s, n)
    ensures |Limit(s, n)| == n
    ensures forall y :: y in Limit(s, n) ==> key(y) >= key(x)
  {
    var k :| 0 <= k < |s| && s[k] == x;
    var r := Limit(s, n);
    assert |s| > n;
    assert k >= n;
    forall y | y in r ensures key(y) >= key(x) {
      var i :| 0 <= i < |r| && r[i] == y;
      assert s[i] == y;
    }
  }
}

=== FILE: text.dfy ===
/** String operations the routes use, with the semantics of their JavaScript and
    Python counterparts: `\s` whitespace, `trim`, `toLowerCase`, `startsWith`,
    `includes`, `split` on one character, `join`, global literal `replace`,
    and `substring(0, n)`. Strings are sequences of Unicode scalar values. */
module Text {

  /** The characters JavaScript treats as whitespace in `\s` and `String.prototype.trim`. */
  predicate IsSpace(c: char) {
    || c == ' ' || c == '\t' || c == '\n' || c == '\r' || c == '\U{000B}' || c == '\U{000C}'
    || c == '\U{00A0}' || c == '\U{1680}' || ('\U{2000}' <= c <= '\U{200A}')
    || c == '\U{2028}' || c == '\U{2029}' || c == '\U{202F}' || c == '\U{205F}'
    || c == '\U{3000}' || c == '\U{FEFF}'
  }

  predicate NoSpace(s: string) {
    forall i :: 0 <= i < |s| ==> !IsSpace(s[i])
  }

  // ---------------------------------------------------------------- trimming

  /** Drops leading whitespace. */
  function TrimStart(s: string): (r: string)
    ensures |r| <= |s| && r == s[|s| - |r|..]
    ensures r == [] || !IsSpace(r[0])
    ensures forall i :: 0 <= i < |s| - |r| ==> IsSpace(s[i])
  {
    if |s| > 0 && IsSpace(s[0]) then TrimStart(s[1..]) else s
  }

  /** Drops trailing whitespace. */
  function TrimEnd(s: string): (r: string)
    ensures |r| <= |s| && r == s[..|r|]
    ensures r == [] || !IsSpace(r[|r| - 1])
    ensures forall i :: |r| <= i < |s| ==> IsSpace(s[i])
  {
    if |s| > 0 && IsSpace(s[|s| - 1]) then TrimEnd(s[..|s| - 1]) else s
  }

  /** Number of leading whitespace characters. */
  function Lead(s: string): (n: nat)
    ensures n <= |s|
  {
    |s| - |TrimStart(s)|
  }

  /** `String.prototype.trim`: the slice of `s` left after cutting the leading and the
      trailing whitespace; the result neither starts nor ends with whitespace. */
  function Trim(s: string): (r: string)
    ensures Lead(s) + |r| <= |s| && r == s[Lead(s)..Lead(s) + |r|]
    ensures forall i :: 0 <= i < Lead(s) ==> IsSpace(s[i])
    ensures forall i :: Lead(s) + |r| <= i < |s| ==> IsSpace(s[i])
    ensures r == [] || (!IsSpace(r[0]) && !IsSpace(r[|r| - 1]))
  {
    TrimEnd(TrimStart(s))
  }

  /** A trimmed string is left alone by `trim`. */
  lemma TrimOfTrimmed(s: string)
    requires s == [] || (!IsSpace(s[0]) && !IsSpace(s[|s| - 1]))
    ensures Trim(s) == s
  {
  }

  lemma TrimIdempotent(s: string)
    ensures Trim(Trim(s)) == Trim(s)
  {
    TrimOfTrimmed(Trim(s));
  }

  /** Trimming adds no character. */
  lemma TrimKeepsOut(s: string, c: char)
    requires c !in s
    ensures c !in Trim(s)
  {
  }

  /** The result of `trim` is empty exactly when the input is all whitespace. */
  lemma TrimEmptyIff(s: string)
    ensures Trim(s) == [] <==> forall i :: 0 <= i < |s| ==> IsSpace(s[i])
  {
    if Trim(s) != [] {
      assert s[Lead(s)] == Trim(s)[0];
    }
  }

  // ---------------------------------------------------------------- lower case

  /** Lower-casing restricted to ASCII and the Latin-1 upper-case letters (plus Ÿ),
      which covers every letter the system compares ("é" in "en cours vidéo"). */
  function LowerChar(c: char): char {
    if 'A' <= c <= 'Z' then (c as int + 32) as char
    else if '\U{00C0}' <= c <= '\U{00DE}' && c != '\U{00D7}' then (c as int + 32) as char
    else if c == '\U{0178}' then '\U{00FF}'
    else c
  }

  function Lower(s: string): (r: string)
    ensures |r| == |s|
    ensures forall i :: 0 <= i < |s| ==> r[i] == LowerChar(s[i])
  {
    if s == [] then [] else [LowerChar(s[0])] + Lower(s[1..])
  }

  lemma LowerIdempotent(s: string)
    ensures Lower(Lower(s)) == Lower(s)
  {
  }

  // ---------------------------------------------------------------- prefixes, suffixes, occurrences

  predicate StartsWith(s: string, prefix: string) {
    |prefix| <= |s| && s[..|prefix|] == prefix
  }

  predicate EndsWith(s: string, suffix: string) {
    |suffix| <= |s| && s[|s| - |suffix|..] == suffix
  }

  predicate OccursAt(s: string, pat: string, i: int) {
    0 <= i && i + |pat| <= |s| && s[i..i + |pat|] == pat
  }

  /** `String.prototype.includes`. */
  predicate Contains(s: string, pat: string) {
    exists i :: 0 <= i <= |s| - |pat| && OccursAt(s, pat, i)
  }

  /** `substring(0, n)`: at most the first `n` characters. */
  function Take(s: string, n: nat): (r: string)
    ensures |r| <= n && |r| <= |s|
    ensures r == s[..|r|]
    ensures |s| <= n ==> r == s
    ensures n <= |s| ==> |r| == n
  {
    if |s| <= n then s else s[..n]
  }

  // ---------------------------------------------------------------- split and join

  /** Index of the first occurrence of `c` in `s`. */
  function IndexOf(s: string, c: char): (i: nat)
    requires c in s
    ensures i < |s| && s[i] == c && c !in s[..i]
  {
    if s[0] == c then 0 else 1 + IndexOf(s[1..], c)
  }

  /** The first occurrence is the one with no earlier occurrence. */
  lemma IndexOfAt(s: string, c: char, i: nat)
    requires i < |s| && s[i] == c && c !in s[..i]
    ensures IndexOf(s, c) == i
  {
  }

  /** `s.split(sep)` for a one-character separator: the pieces between separators. */
  function Split(s: string, sep: char): (parts: seq<string>)
    ensures |parts| >= 1
    ensures forall k :: 0 <= k < |parts| ==> sep !in parts[k]
    decreases |s|
  {
    if sep in s then
      var i := IndexOf(s, sep);
      [s[..i]] + Split(s[i + 1..], sep)
    else
      [s]
  }

  /** `parts.join(sep)`. */
  function Join(parts: seq<string>, sep: string): string {
    if |parts| == 0 then ""
    else if |parts| == 1 then parts[0]
    else parts[0] + sep + Join(parts[1..], sep)
  }

  /** Splitting on the first separator peels off the text before it. */
  lemma SplitCons(a: string, sep: char, b: string)
    requires sep !in a
    ensures Split(a + [sep] + b, sep) == [a] + Split(b, sep)
  {
    var s := a + [sep] + b;
    assert s[|a|] == sep;
    assert sep in s;
    assert s[..|a|] == a;
    assert s[|a| + 1..] == b;
  }

  /** Joining the pieces of a split with the separator gives back the string. */
  lemma {:induction false} JoinSplit(s: string, sep: char)
    ensures Join(Split(s, sep), [sep]) == s
    decreases |s|
  {
    if sep in s {
      var i := IndexOf(s, sep);
      var a, rest := s[..i], s[i + 1..];
      assert s == a + [sep] + rest;
      JoinSplit(rest, sep);
      SplitCons(a, sep, rest);
      JoinCons(a, Split(rest, sep), [sep]);
    }
  }

  /** Joining a piece in front of at least one other puts the separator between them. */
  lemma JoinCons(a: string, parts: seq<string>, sep: string)
    requires |parts| >= 1
    ensures Join([a] + parts, sep) == a + sep + Join(parts, sep)
  {
    assert ([a] + parts)[1..] == parts;
  }

  /** Splitting a join of separator-free pieces gives back the pieces. */
  lemma {:induction false} SplitJoin(parts: seq<string>, sep: char)
    requires |parts| >= 1
    requires forall k :: 0 <= k < |parts| ==> sep !in parts[k]
    ensures Split(Join(parts, [sep]), sep) == parts
    decreases |parts|
  {
    if |parts| > 1 {
      SplitJoin(parts[1..], sep);
      SplitCons(parts[0], sep, Join(parts[1..], [sep]));
      assert parts[0] + [sep] + Join(parts[1..], [sep]) == Join(parts, [sep]);
      assert [parts[0]] + parts[1..] == parts;
    }
  }

  // ---------------------------------------------------------------- global literal replacement

  /** `s.replace(/pat/g, rep)` for a literal pattern: left-to-right, non-overlapping. */
  function ReplaceAll(s: string, pat: string, rep: string): (r: string)
    requires |pat| > 0
    decreases |s|
    ensures |rep| > 0 ==> (r == "" <==> s == "")
  {
    if |s| < |pat| then s
    else if s[..|pat|] == pat then rep + ReplaceAll(s[|pat|..], pat, rep)
    else [s[0]] + ReplaceAll(s[1..], pat, rep)
  }

  /** A string without the pattern is left unchanged by a global replacement. */
  lemma {:induction false} ReplaceAllAbsent(s: string, pat: string, rep: string)
    requires |pat| > 0 && !Contains(s, pat)
    ensures ReplaceAll(s, pat, rep) == s
    decreases |s|
  {
    if |s| >= |pat| {
      assert !OccursAt(s, pat, 0);
      assert !Contains(s[1..], pat) by {
        forall i | OccursAt(s[1..], pat, i) ensures OccursAt(s, pat, i + 1) {
          assert s[i + 1..i + 1 + |pat|] == s[1..][i..i + |pat|];
        }
      }
      ReplaceAllAbsent(s[1..], pat, rep);
    }
  }

  /** The scan of a global replacement copies the text before the first occurrence and
      replaces that occurrence, then goes on after it. */
  lemma {:induction false} ReplaceAllFirst(a: string, pat: string, rep: string, b: string)
    requires |pat| > 0
    requires forall i :: 0 <= i < |a| ==> !OccursAt(a + pat + b, pat, i)
    ensures ReplaceAll(a + pat + b, pat, rep) == a + rep + ReplaceAll(b, pat, rep)
    decreases |a|
  {
    var s := a + pat + b;
    if a == [] {
      assert s == pat + b;
      assert s[..|pat|] == pat;
      assert s[|pat|..] == b;
    } else {
      assert !OccursAt(s, pat, 0);
      assert s[..|pat|] != pat;
      assert s[1..] == a[1..] + pat + b;
      forall i | 0 <= i < |a[1..]|
        ensures !OccursAt(a[1..] + pat + b, pat, i)
      {
        assert !OccursAt(s, pat, i + 1);
        if i + |pat| <= |s[1..]| {
          assert s[i + 1..i + 1 + |pat|] == s[1..][i..i + |pat|];
        }
      }
      ReplaceAllFirst(a[1..], pat, rep, b);
      assert [a[0]] + a[1..] == a;
    }
  }

  /** `s.replace(/pat\n?/g, "")`: removes each occurrence of `pat` together with one
      directly following `opt` character, when there is one. */
  function RemoveWithOptional(s: string, pat: string, opt: char): string
    requires |pat| > 0
    decreases |s|
  {
    if |s| < |pat| then s
    else if s[..|pat|] == pat then
      var rest := s[|pat|..];
      if |rest| > 0 && rest[0] == opt then RemoveWithOptional(rest[1..], pat, opt)
      else RemoveWithOptional(rest, pat, opt)
    else [s[0]] + RemoveWithOptional(s[1..], pat, opt)
  }

  lemma {:induction false} RemoveWithOptionalAbsent(s: string, pat: string, opt: char)
    requires |pat| > 0 && !Contains(s, pat)
    ensures RemoveWithOptional(s, pat, opt) == s
    decreases |s|
  {
    if |s| >= |pat| {
      assert !OccursAt(s, pat, 0);
      assert !Contains(s[1..], pat) by {
        forall i | OccursAt(s[1..], pat, i) ensures OccursAt(s, pat, i + 1) {
          assert s[i + 1..i + 1 + |pat|] == s[1..][i..i + |pat|];
        }
      }
      RemoveWithOptionalAbsent(s[1..], pat, opt);
    }
  }

  // ---------------------------------------------------------------- whitespace runs

  /** `s.replace(/\s+/g, rep)`: every maximal run of whitespace becomes `rep`. */
  function CollapseRuns(s: string, rep: string): string
    decreases |s|
  {
    if s == [] then []
    else if IsSpace(s[0]) then rep + CollapseRuns(TrimStart(s), rep)
    else [s[0]] + CollapseRuns(s[1..], rep)
  }

  /** Collapsing runs to a space-free replacement leaves no whitespace behind. */
  lemma {:induction false} CollapseRunsNoSpace(s: string, rep: string)
    requires NoSpace(rep)
    ensures NoSpace(CollapseRuns(s, rep))
    decreases |s|
  {
    if s != [] {
      if IsSpace(s[0]) {
        CollapseRunsNoSpace(TrimStart(s), rep);
      } else {
        CollapseRunsNoSpace(s[1..], rep);
      }
    }
  }

  /** Collapsing runs into "__" leaves no whitespace behind. */
  lemma CollapseRunsToUnderscores(s: string)
    ensures NoSpace(CollapseRuns(s, "__"))
  {
    assert NoSpace("__") by { assert !IsSpace('_'); }
    CollapseRunsNoSpace(s, "__");
  }

  /** Collapsing runs into "__" and then reading every "__" as a space is the same
      as collapsing runs into one space, provided the text holds no underscore. */
  lemma {:induction false} CollapseThenReplace(s: string)
    requires '_' !in s
    ensures ReplaceAll(CollapseRuns(s, "__"), "__", " ") == CollapseRuns(s, " ")
    decreases |s|
  {
    if s != [] {
      if IsSpace(s[0]) {
        var t := TrimStart(s);
        assert '_' !in t by { assert forall k :: 0 <= k < |t| ==> t[k] == s[|s| - |t| + k]; }
        CollapseThenReplace(t);
        var x := CollapseRuns(t, "__");
        assert ("__" + x)[..2] == "__";
        assert ("__" + x)[2..] == x;
      } else {
        var t := s[1..];
        assert '_' !in t;
        CollapseThenReplace(t);
        var x := CollapseRuns(t, "__");
        var w := [s[0]] + x;
        if |w| >= 2 {
          assert w[..2] != "__" by { assert w[0] == s[0] != '_'; }
          assert w[1..] == x;
        } else {
          assert x == [];
          assert CollapseRuns(t, " ") == [] by { assert t == []; }
        }
      }
    }
  }
}

=== FILE: veo_complete.dfy ===
/** `POST /api/veo-complete` (app/api/veo-complete/route.ts): once the browser has
    fetched a finished Veo video, the sheet row that still holds the operation name in
    its "URL Image" cell is marked generated and its cell replaced by a note that the
    video is kept locally. */
module VeoComplete {
  import opened Base
  import opened Text

  /** The trimmed "URL Image" cell of a row (empty when absent). */
  function UrlKey(row: SheetRow): string {
    Trim(OrElse(Cell(row, "URL Image"), ""))
  }

  function UrlKeys(rows: seq<SheetRow>): (keys: seq<string>)
    ensures |keys| == |rows| && forall i :: 0 <= i < |rows| ==> keys[i] == UrlKey(rows[i])
  {
    seq(|rows|, i requires 0 <= i < |rows| => UrlKey(rows[i]))
  }

  /** The first position from `i` on where `keys` holds `x`. */
  function FindFrom(keys: seq<string>, x: string, i: nat): (r: Option<nat>)
    requires i <= |keys|
    decreases |keys| - i
    ensures r.Some? ==> i <= r.value < |keys| && keys[r.value] == x
                        && forall j :: i <= j < r.value ==> keys[j] != x
    ensures r.None? ==> forall j :: i <= j < |keys| ==> keys[j] != x
  {
    if i == |keys| then None
    else if keys[i] == x then Some(i)
    else FindFrom(keys, x, i + 1)
  }

  /** `rows.find(...)`: the position of the first row whose trimmed "URL Image" cell
      is the operation name. */
  function FindOperation(rows: seq<SheetRow>, operation: string): (r: Option<nat>)
    ensures r.Some? ==> r.value < |rows| && UrlKey(rows[r.value]) == operation
                        && forall j :: 0 <= j < r.value ==> UrlKeys(rows)[j] != operation
    ensures r.None? ==> forall j :: 0 <= j < |rows| ==> UrlKeys(rows)[j] != operation
  {
    FindFrom(UrlKeys(rows), operation, 0)
  }

  /** The row as it is saved: generated, with the note in place of the operation name. */
  function Completed(row: SheetRow): (r: SheetRow)
    ensures Cell(r, "Statut") == Some(DoneStatus) && Cell(r, "URL Image") == Some(LocalUrl)
    ensures forall h :: h != "Statut" && h != "URL Image" ==> Cell(r, h) == Cell(row, h)
  {
    row["Statut" := DoneStatus]["URL Image" := LocalUrl]
  }

  datatype Reply =
    | MissingOperation        // 400
    | Failed(error: string)   // 500: a thrown error
    | NotFound                // success: already updated or unknown
    | Updated
  {
    function StatusCode(): nat {
      match this
      case MissingOperation => 400
      case Failed(_) => 500
      case _ => 200
    }
  }

  /** The reply and the sheet afterwards. */
  datatype Run = Run(reply: Reply, rows: seq<SheetRow>)

  /** `POST(request)`: `operation` is the body's `operationName` (or the parse error),
      `load` the sheet's rows (or the error reading them), and `save` the error of
      saving the row, if any. */
  function Post(operation: Result<Option<string>>, load: Result<seq<SheetRow>>, save: Option<string>): (run: Run)
    ensures operation.Ok? && !Truthy(operation.value) ==> run.reply == MissingOperation
    ensures run.reply == MissingOperation || run.reply.Failed? || run.reply == NotFound ==>
              run.rows == (if load.Ok? then load.value else [])
    ensures operation.Ok? && Truthy(operation.value) && load.Ok? ==>
              run == Complete(load.value, operation.value.value, save)
  {
    match operation
    case Err(m) => Run(Failed(m), if load.Ok? then load.value else [])
    case Ok(name) =>
      var before := if load.Ok? then load.value else [];
      if !Truthy(name) then Run(MissingOperation, before)
      else match load
        case Err(m) => Run(Failed(m), [])
        case Ok(rows) => Complete(rows, name.value, save)
  }

  /** The rows found: the first row holding the operation is completed and saved, and
      every other row is left alone; without such a row nothing changes. */
  function Complete(rows: seq<SheetRow>, name: string, save: Option<string>): (run: Run)
    ensures |run.rows| == |rows|
    ensures run.reply == NotFound <==> FindOperation(rows, name).None?
    ensures run.reply != Updated ==> run.rows == rows
    ensures run.reply == Updated ==>
              var k := FindOperation(rows, name).value;
              && run.rows[k] == Completed(rows[k])
              && forall j :: 0 <= j < |rows| && j != k ==> run.rows[j] == rows[j]
    // a row found is completed exactly when its save goes through
    ensures FindOperation(rows, name).Some? ==>
              && (run.reply == Updated <==> save.None?)
              && (save.Some? ==> run == Run(Failed(save.value), rows))
  {
    match FindOperation(rows, name)
    case None => Run(NotFound, rows)
    case Some(k) =>
      match save
      case Some(m) => Run(Failed(m), rows)
      case None => Run(Updated, rows[k := Completed(rows[k])])
  }

  /** The note left in a completed row is its new key. */
  lemma CompletedKey(row: SheetRow)
    ensures UrlKey(Completed(row)) == LocalUrl
  {
    assert Cell(Completed(row), "URL Image") == Some(LocalUrl);
    TrimOfTrimmed(LocalUrl);
  }

  /** After completing the only row holding `name`, no row holds it. */
  lemma NoRowHoldsAfterCompletion(name: string, rows: seq<SheetRow>, k: nat)
    requires name != LocalUrl && k < |rows| && UrlKeys(rows)[k] == name
    requires forall j :: 0 <= j < |rows| && j != k ==> UrlKeys(rows)[j] != name
    ensures FindOperation(rows[k := Completed(rows[k])], name).None?
  {
    var once := rows[k := Completed(rows[k])];
    var before, after := UrlKeys(rows), UrlKeys(once);
    CompletedKey(rows[k]);
    forall j | 0 <= j < |once| ensures after[j] != name {
      if j != k {
        assert after[j] == before[j];
      }
    }
  }

  /** Completing an operation a second time changes nothing, as long as no other row
      holds it and the name is not the note itself. */
  lemma SecondCompletionChangesNothing(name: string, rows: seq<SheetRow>)
    requires name != "" && name != LocalUrl
    requires forall i, j :: 0 <= i < j < |rows| && UrlKeys(rows)[i] == name ==> UrlKeys(rows)[j] != name
    requires Post(Ok(Some(name)), Ok(rows), None).reply == Updated
    ensures var once := Post(Ok(Some(name)), Ok(rows), None).rows;
            Post(Ok(Some(name)), Ok(once), None) == Run(NotFound, once)
  {
    var k := FindOperation(rows, name).value;
    assert Complete(rows, name, None).rows == rows[k := Completed(rows[k])];
    NoRowHoldsAfterCompletion(name, rows, k);
  }
}

=== FILE: veo_poll.dfy ===
/** The Veo polling routes: `GET /api/veo-poll` (app/api/veo-poll/route.ts) and its
    variant `GET /api/test-veo-long` (app/api/test-veo-long/route.ts). Each takes an
    operation name, polls the long-running operation once and classifies the answer as
    pending, done with a video, or failed. The two routes differ in two points only:
    veo-poll chooses the key by a `keyIndex` parameter and rejects videos held back by
    the safety filter; test-veo-long always uses the first key and has no such screen. */
module VeoPoll {
  import opened Base
  import opened Text
  import opened Decimal

  // ------------------------------------------------------------------ the operation

  /** `error` of a finished operation. */
  datatype OpError = OpError(message: Option<string>)

  /** `response.generateVideoResponse`: the safety filter's reasons and the samples,
      each sample given by its `video.uri`. */
  datatype VideoResponse = VideoResponse(raiReasons: Option<seq<string>>, samples: Option<seq<Option<string>>>)

  /** `response`: the official location of the videos and two older ones. */
  datatype OpResponse = OpResponse(generateVideoResponse: Option<VideoResponse>,
                                   generatedVideos: Option<seq<Option<string>>>,
                                   videos: Option<seq<Option<string>>>)

  /** The polled operation; `done` is the truthiness of its `done` field. */
  datatype Operation = Operation(done: bool, error: Option<OpError>, response: Option<OpResponse>)

  /** The reply of the route. */
  datatype PollReply =
    | MissingOperation        // 400
    | KeyMissing              // 500
    | Pending
    | Failed(error: string)
    | Done(videoUri: string)
  {
    function StatusCode(): nat {
      match this
      case MissingOperation => 400
      case KeyMissing => 500
      case _ => 200
    }

    predicate Success() {
      Pending? || Done?
    }
  }

  const Expired: string := "Opération expirée ou introuvable (404). Regénère la vidéo."
  const HttpFailedPrefix: string := "Polling échoué: HTTP "
  const NetworkPrefix: string := "Erreur réseau polling: "
  const UnknownVeoError: string := "Erreur Veo inconnue dans l'opération"
  const Blocked: string := "🚫 Prompt bloqué par le filtre de sécurité Google. Modifie le prompt et réessaie."
  const NoUri: string := "Vidéo générée mais URI introuvable dans la réponse. Vérifie les logs."

  // ------------------------------------------------------------------ the video URI

  /** `list?.[0]`: the first entry of an optional list, absent when the list is empty. */
  function First(list: Option<seq<Option<string>>>): (u: Option<string>)
    ensures u.Some? ==> list.Some? && |list.value| > 0 && list.value[0] == u
  {
    if list.Some? && |list.value| > 0 then list.value[0] else None
  }

  function SampleUri(op: Operation): Option<string> {
    if op.response.Some? && op.response.value.generateVideoResponse.Some?
    then First(op.response.value.generateVideoResponse.value.samples)
    else None
  }

  function GeneratedUri(op: Operation): Option<string> {
    if op.response.Some? then First(op.response.value.generatedVideos) else None
  }

  function VideosUri(op: Operation): Option<string> {
    if op.response.Some? then First(op.response.value.videos) else None
  }

  /** The URI of the video: the first non-empty one of the official location and the
      two fallbacks, in that order. */
  function VideoUri(op: Operation): (u: Option<string>)
    ensures u.None? <==> !Truthy(SampleUri(op)) && !Truthy(GeneratedUri(op)) && !Truthy(VideosUri(op))
    ensures u.Some? ==> u.value != ""
    ensures Truthy(SampleUri(op)) ==> u == SampleUri(op)
    ensures !Truthy(SampleUri(op)) && Truthy(GeneratedUri(op)) ==> u == GeneratedUri(op)
    ensures !Truthy(SampleUri(op)) && !Truthy(GeneratedUri(op)) && Truthy(VideosUri(op)) ==> u == VideosUri(op)
  {
    if Truthy(SampleUri(op)) then SampleUri(op)
    else if Truthy(GeneratedUri(op)) then GeneratedUri(op)
    else if Truthy(VideosUri(op)) then VideosUri(op)
    else None
  }

  /** The safety filter held the video back: its list of reasons is present and not empty. */
  predicate Filtered(op: Operation) {
    && op.response.Some? && op.response.value.generateVideoResponse.Some?
    && var reasons := op.response.value.generateVideoResponse.value.raiReasons;
       reasons.Some? && |reasons.value| > 0
  }

  // ------------------------------------------------------------------ classification

  /** The classification of one poll. `screen` says whether the safety filter's verdict
      is checked (veo-poll) or not (test-veo-long). */
  function Classify(f: Fetch<Operation>, screen: bool, download: string -> Download): (r: PollReply)
    // a rate-limited poll is not an error: the caller polls again
    ensures f.Http? && f.status == 429 ==> r == Pending
    ensures f.Http? && f.status == 404 ==> r == Failed(Expired)
    ensures f.Http? && !IsOk(f.status) && f.status != 429 && f.status != 404 ==>
              r == Failed(HttpFailedPrefix + NatToDecimal(f.status))
    ensures f.Threw? ==> r == Failed(NetworkPrefix + f.message)
    ensures f.Http? && IsOk(f.status) && f.body.NotJson? ==> r == Failed(NetworkPrefix + f.body.parseError)
    // a finished operation that failed reports its own message
    ensures f.Http? && IsOk(f.status) && f.body.Json? && f.body.value.done && f.body.value.error.Some? ==>
              r == Failed(OrElse(f.body.value.error.value.message, UnknownVeoError))
    // the route never answers with the missing-parameter or missing-key replies
    ensures !r.MissingOperation? && !r.KeyMissing?
    // a video is reported exactly when the operation finished cleanly with a URI
    ensures r.Done? <==>
              && f.Http? && IsOk(f.status) && f.body.Json?
              && f.body.value.done && f.body.value.error.None?
              && !(screen && Filtered(f.body.value))
              && VideoUri(f.body.value).Some?
    ensures r == Pending <==>
              f.Http? && (f.status == 429 || (IsOk(f.status) && f.body.Json? && !f.body.value.done))
  {
    match f
    case Threw(m) => Failed(NetworkPrefix + m)
    case Http(status, body) =>
      if status == 429 then Pending
      else if !IsOk(status) then
        if status == 404 then Failed(Expired) else Failed(HttpFailedPrefix + NatToDecimal(status))
      else match body
        case NotJson(m) => Failed(NetworkPrefix + m)
        case Json(op) =>
          if !op.done then Pending
          else if op.error.Some? then Failed(OrElse(op.error.value.message, UnknownVeoError))
          else if screen && Filtered(op) then Failed(Blocked)
          else match VideoUri(op)
            case None => Failed(NoUri)
            case Some(uri) => Done(Deliver(uri, download(uri)))
  }

  // ------------------------------------------------------------------ key choice

  /** JavaScript's `%`: the remainder takes the sign of the dividend. */
  function TruncRem(k: int, n: nat): (r: int)
    requires n > 0
    ensures -(n as int) < r < n
    ensures k >= 0 ==> r == k % n
    ensures k < 0 ==> r <= 0
  {
    if k >= 0 then k % n else -((-k) % n)
  }

  /** The list of keys of `GOOGLE_API_KEY`. */
  function Keys(apiKeys: Option<string>): (keys: seq<string>)
    ensures |keys| >= 1
  {
    Split(OrElse(apiKeys, ""), ',')
  }

  /** veo-poll's key: `keys[keyIndex % keys.length]` trimmed, where `keyIndex` is the
      parsed parameter, 0 when the parameter is absent or empty. An index that is not a
      number, or a negative remainder, reads past the list and gives no key. */
  function IndexedKey(apiKeys: Option<string>, keyIndexParam: Option<string>): (key: Option<string>)
    ensures !Truthy(keyIndexParam) ==> key == Some(Trim(Keys(apiKeys)[0]))
    ensures Truthy(keyIndexParam) && ParseInt(keyIndexParam.value).Some? && ParseInt(keyIndexParam.value).value >= 0 ==>
              key == Some(Trim(Keys(apiKeys)[ParseInt(keyIndexParam.value).value % |Keys(apiKeys)|]))
    ensures Truthy(keyIndexParam) && ParseInt(keyIndexParam.value).None? ==> key.None?
  {
    var keys := Keys(apiKeys);
    var index := if Truthy(keyIndexParam) then ParseInt(keyIndexParam.value) else Some(0);
    match index
    case None => None
    case Some(k) =>
      var i := TruncRem(k, |keys|);
      if i >= 0 then Some(Trim(keys[i])) else None
  }

  /** test-veo-long's key: always the first one, trimmed. */
  function FirstKey(apiKeys: Option<string>): (key: string) {
    Trim(Keys(apiKeys)[0])
  }

  /** A printed index chooses the key at that index modulo the number of keys. */
  lemma KeyOfDecimal(apiKeys: Option<string>, j: nat)
    ensures IndexedKey(apiKeys, Some(NatToDecimal(j))) == Some(Trim(Keys(apiKeys)[j % |Keys(apiKeys)|]))
  {
    ParseIntOfDecimal(j);
    assert Truthy(Some(NatToDecimal(j)));
  }

  /** Key indices with the same remainder choose the same key, so a caller may keep
      counting without wrapping: `ModShift` gives the remainder of `k + m * |keys|`. */
  lemma IndexWraps(apiKeys: Option<string>, k: nat, j: nat)
    requires k % |Keys(apiKeys)| == j % |Keys(apiKeys)|
    ensures IndexedKey(apiKeys, Some(NatToDecimal(k))) == IndexedKey(apiKeys, Some(NatToDecimal(j)))
  {
    KeyOfDecimal(apiKeys, k);
    KeyOfDecimal(apiKeys, j);
  }

  /** Adding a multiple of `n` keeps the remainder. */
  lemma ModShift(k: nat, m: nat, n: nat)
    requires n > 0
    ensures (k + m * n) % n == k % n
  {
    var q := k / n;
    assert k + m * n == (q + m) * n + k % n;
    ModUnique(k + m * n, n, q + m, k % n);
  }

  // ------------------------------------------------------------------ the routes

  /** `GET /api/veo-poll?operation=…&keyIndex=…`. */
  function Get(operation: Option<string>, keyIndexParam: Option<string>, apiKeys: Option<string>,
               poll: (string, string) -> Fetch<Operation>, download: string -> Download): (r: PollReply)
    ensures !Truthy(operation) ==> r == MissingOperation
    ensures Truthy(operation) && !Truthy(IndexedKey(apiKeys, keyIndexParam)) ==> r == KeyMissing
    ensures Truthy(operation) && Truthy(IndexedKey(apiKeys, keyIndexParam)) ==>
              r == Classify(poll(operation.value, IndexedKey(apiKeys, keyIndexParam).value), true, download)
  {
    if !Truthy(operation) then MissingOperation
    else
      var key := IndexedKey(apiKeys, keyIndexParam);
      if !Truthy(key) then KeyMissing
      else Classify(poll(operation.value, key.value), true, download)
  }

  /** `GET /api/test-veo-long?operation=…`. */
  function GetLong(operation: Option<string>, apiKeys: Option<string>,
                   poll: (string, string) -> Fetch<Operation>, download: string -> Download): (r: PollReply)
    ensures !Truthy(operation) ==> r == MissingOperation
    ensures Truthy(operation) && FirstKey(apiKeys) == "" ==> r == KeyMissing
    ensures Truthy(operation) && FirstKey(apiKeys) != "" ==>
              r == Classify(poll(operation.value, FirstKey(apiKeys)), false, download)
  {
    if !Truthy(operation) then MissingOperation
    else
      var key := FirstKey(apiKeys);
      if key == "" then KeyMissing
      else Classify(poll(operation.value, key), false, download)
  }

  // ------------------------------------------------------------------ properties

  /** Without a key index, and for an operation the safety filter did not flag, the two
      routes give the same reply. */
  lemma RoutesAgree(operation: Option<string>, apiKeys: Option<string>,
                    poll: (string, string) -> Fetch<Operation>, download: string -> Download)
    requires Truthy(operation)
    requires var f := poll(operation.value, FirstKey(apiKeys));
             f.Http? && f.body.Json? ==> !Filtered(f.body.value)
    ensures Get(operation, None, apiKeys, poll, download) == GetLong(operation, apiKeys, poll, download)
  {
    var key := FirstKey(apiKeys);
    assert IndexedKey(apiKeys, None) == Some(key);
    if key != "" {
      ScreenIrrelevant(poll(operation.value, key), download);
    }
  }

  /** For an operation the safety filter did not flag, the screen changes nothing. */
  lemma ScreenIrrelevant(f: Fetch<Operation>, download: string -> Download)
    requires f.Http? && f.body.Json? ==> !Filtered(f.body.value)
    ensures Classify(f, true, download) == Classify(f, false, download)
  {
    match f
    case Threw(_) =>
    case Http(status, body) =>
  }

  /** The only difference the screen makes: a flagged, cleanly finished operation is
      refused by veo-poll, while test-veo-long delivers its video if it has one. */
  lemma ScreenRefusesFiltered(op: Operation, download: string -> Download)
    requires op.done && op.error.None? && Filtered(op)
    ensures Classify(Http(200, Json(op)), true, download) == Failed(Blocked)
    ensures VideoUri(op).Some? ==>
              Classify(Http(200, Json(op)), false, download) == Done(Deliver(VideoUri(op).value, download(VideoUri(op).value)))
  {
  }

  /** A video that is found is reported as success whatever happens to its download:
      the data URL when the download works, the URI itself when it does not. */
  lemma FoundVideoIsDelivered(op: Operation, screen: bool, download: string -> Download)
    requires op.done && op.error.None? && !(screen && Filtered(op)) && VideoUri(op).Some?
    ensures var uri := VideoUri(op).value;
            var r := Classify(Http(200, Json(op)), screen, download);
            && r.Done? && r.Success()
            && (download(uri).Downloaded? && IsOk(download(uri).status) ==>
                  r.videoUri == DataUrl(OrElse(download(uri).contentType, DefaultMime), download(uri).base64))
            && (!(download(uri).Downloaded? && IsOk(download(uri).status)) ==> r.videoUri == uri)
  {
  }

  /** The official location wins over the fallbacks whenever it holds a URI. */
  lemma OfficialUriFirst(samples: seq<Option<string>>, generated: Option<seq<Option<string>>>, videos: Option<seq<Option<string>>>)
    requires |samples| > 0 && Truthy(samples[0])
    ensures VideoUri(Operation(true, None, Some(OpResponse(Some(VideoResponse(None, Some(samples))), generated, videos))))
            == samples[0]
  {
  }
}

=== FILE: workspace.dfy ===
/** The state transformations of the main page (app/page.tsx): the activity log, the
    product groups, the request built for one generation, the gallery of generated
    media with its automatic ZIP batches, and the outcome of one step of the background
    video poll. React's state setters, timers, `confirm` dialogs and downloads are not
    modelled; the user's answer to a dialog, the clock and the outcome of building a
    ZIP are parameters. */
module Workspace {
  import opened Base
  import opened Text
  import opened Decimal
  import Tables

  // ------------------------------------------------------------------ activity log

  /** The log keeps this many lines. */
  const MaxLog: nat := 20

  /** A log line: the time of day, then the message. */
  function LogEntry(time: string, message: string): string {
    "[" + time + "] " + message
  }

  /** `addLog`: the new line goes first and the oldest lines beyond the bound drop off. */
  function AddLog(logs: seq<string>, time: string, message: string): (r: seq<string>)
    ensures |r| == if |logs| < MaxLog then |logs| + 1 else MaxLog
    ensures r[0] == LogEntry(time, message)
    ensures r[1..] == logs[..|r| - 1]
  {
    [LogEntry(time, message)] + logs[..if |logs| < MaxLog - 1 then |logs| else MaxLog - 1]
  }

  /** A run of log events, each a time and a message, applied oldest first. */
  function AddLogs(logs: seq<string>, events: seq<(string, string)>): (r: seq<string>)
    ensures |logs| <= MaxLog ==> |r| <= MaxLog
    decreases |events|
  {
    if events == [] then logs
    else AddLogs(AddLog(logs, events[0].0, events[0].1), events[1..])
  }

  /** The lines of a run of events, newest first. */
  function NewestFirst(events: seq<(string, string)>): (r: seq<string>)
    ensures |r| == |events|
    decreases |events|
  {
    if events == [] then []
    else NewestFirst(events[1..]) + [LogEntry(events[0].0, events[0].1)]
  }

  /** After any run of events the log holds the twenty most recent lines, newest first,
      followed by whatever of the earlier log still fits. */
  lemma {:induction false} LogKeepsLatest(logs: seq<string>, events: seq<(string, string)>)
    requires |logs| <= MaxLog
    ensures AddLogs(logs, events) == Tables.Limit(NewestFirst(events) + logs, MaxLog)
    decreases |events|
  {
    if events != [] {
      var e := LogEntry(events[0].0, events[0].1);
      var next := AddLog(logs, events[0].0, events[0].1);
      assert next == Tables.Limit([e] + logs, MaxLog);
      LogKeepsLatest(next, events[1..]);
      Tables.LimitOfAppend(NewestFirst(events[1..]), [e] + logs, MaxLog);
      assert NewestFirst(events[1..]) + ([e] + logs) == NewestFirst(events) + logs;
    }
  }

  // ------------------------------------------------------------------ product groups

  /** An uploaded product image: its file name and its (compressed) data URL. */
  datatype Image = Image(name: string, url: string)

  /** A named group of product images. */
  datatype Group = Group(name: string, images: seq<Image>)

  /** The `productGroups` object: its entries in insertion order. */
  type Groups = seq<Group>

  /** No two entries share a name, as for the keys of an object. */
  predicate DistinctNames(gs: Groups) {
    forall i, j :: 0 <= i < j < |gs| ==> gs[i].name != gs[j].name
  }

  predicate Has(gs: Groups, name: string) {
    exists i :: 0 <= i < |gs| && gs[i].name == name
  }

  /** `productGroups[name]`. */
  function Lookup(gs: Groups, name: string): (r: Option<seq<Image>>)
    ensures r.Some? <==> Has(gs, name)
    decreases |gs|
  {
    if gs == [] then None
    else if gs[0].name == name then Some(gs[0].images)
    else Lookup(gs[1..], name)
  }

  datatype CreateError = BlankName | NameTaken

  datatype Creation = Refused(reason: CreateError) | Created(groups: Groups)

  /** The properties every plain object inherits from `Object.prototype`. Reading any
      of them from `productGroups` gives a truthy value (a function, or the prototype
      itself for `__proto__`). */
  const InheritedNames: set<string> := {
    "constructor", "toString", "toLocaleString", "valueOf", "hasOwnProperty",
    "isPrototypeOf", "propertyIsEnumerable", "__proto__", "__defineGetter__",
    "__defineSetter__", "__lookupGetter__", "__lookupSetter__"
  }

  /** `productGroups[name]` is truthy: an own key (its value is an array, truthy even
      when empty) or an inherited property. */
  predicate Taken(gs: Groups, name: string) {
    Has(gs, name) || name in InheritedNames
  }

  /** `createNewGroup`: a name that is blank once trimmed, or whose lookup in
      `productGroups` is truthy, is refused; any other name, untrimmed, is added as a
      new key with no images, after the existing ones. */
  function CreateGroup(gs: Groups, name: string): (r: Creation)
    ensures r.Refused? <==> Trim(name) == "" || Taken(gs, name)
    ensures r.Refused? ==> (r.reason == BlankName <==> Trim(name) == "")
    ensures r.Created? ==> |r.groups| == |gs| + 1 && r.groups[..|gs|] == gs
    ensures r.Created? ==> r.groups[|gs|] == Group(name, [])
  {
    if Trim(name) == "" then Refused(BlankName)
    else if Lookup(gs, name).Some? || name in InheritedNames then Refused(NameTaken)
    else Created(gs + [Group(name, [])])
  }

  /** A name inherited from `Object.prototype` is refused as taken even when no group
      exists. */
  lemma InheritedNameRefused()
    ensures CreateGroup([], "constructor") == Refused(NameTaken)
    ensures CreateGroup([], "toString") == Refused(NameTaken)
  {
    TrimOfTrimmed("constructor");
    TrimOfTrimmed("toString");
  }

  /** A created group is the only one with its name, starts empty, and asking for the
      same name again is refused as taken. */
  lemma CreatedGroupIsNew(gs: Groups, name: string)
    requires DistinctNames(gs)
    requires CreateGroup(gs, name).Created?
    ensures DistinctNames(CreateGroup(gs, name).groups)
    ensures Lookup(CreateGroup(gs, name).groups, name) == Some([])
    ensures CreateGroup(CreateGroup(gs, name).groups, name) == Refused(NameTaken)
  {
    var r := CreateGroup(gs, name).groups;
    assert r[|gs|] == Group(name, []);
    LookupLast(gs, Group(name, []));
  }

  /** Looking up the name of an entry appended after entries with other names finds it. */
  lemma {:induction false} LookupLast(gs: Groups, g: Group)
    requires !Has(gs, g.name)
    ensures Lookup(gs + [g], g.name) == Some(g.images)
    decreases |gs|
  {
    if gs != [] {
      assert (gs + [g])[1..] == gs[1..] + [g];
      assert !Has(gs[1..], g.name) by {
        forall i | 0 <= i < |gs[1..]| ensures gs[1..][i].name != g.name {
          assert gs[1..][i] == gs[i + 1];
        }
      }
      LookupLast(gs[1..], g);
    }
  }

  /** `deleteGroupImage`: every image with that name leaves that group. Asking for a
      group that is not a key fails, as reading `filter` of `undefined` throws. */
  function DeleteGroupImage(gs: Groups, group: string, image: string): (r: Option<Groups>)
    ensures r.Some? <==> Has(gs, group)
    ensures r.Some? ==> |r.value| == |gs|
    ensures r.Some? ==> forall i :: 0 <= i < |gs| ==> r.value[i].name == gs[i].name
    ensures r.Some? ==> forall i :: 0 <= i < |gs| && gs[i].name != group ==> r.value[i] == gs[i]
  {
    if Lookup(gs, group).None? then None
    else Some(seq(|gs|, i requires 0 <= i < |gs| =>
      if gs[i].name == group then Group(group, WithoutImage(gs[i].images, image)) else gs[i]))
  }

  /** Whether an image is kept by the deletion of `image`. */
  function NotNamed(image: string): Image -> bool {
    (x: Image) => x.name != image
  }

  /** The images not named `image`, in order. */
  function WithoutImage(images: seq<Image>, image: string): (r: seq<Image>)
    ensures forall x :: x in r <==> x in images && x.name != image
    ensures |r| <= |images|
  {
    Tables.Filter(images, NotNamed(image))
  }

  /** After the deletion no image of that group carries the name, every other image of
      the group is still there, and a second deletion changes nothing. */
  lemma DeleteImageIsComplete(gs: Groups, group: string, image: string)
    requires DistinctNames(gs) && Has(gs, group)
    ensures Lookup(DeleteGroupImage(gs, group, image).value, group) == Some(WithoutImage(Lookup(gs, group).value, image))
    ensures DeleteGroupImage(DeleteGroupImage(gs, group, image).value, group, image) == DeleteGroupImage(gs, group, image)
  {
    var r := DeleteGroupImage(gs, group, image).value;
    var i := LookupIndex(gs, group);
    assert r[i] == Group(group, WithoutImage(gs[i].images, image));
    LookupAt(r, i);
    var r2 := DeleteGroupImage(r, group, image).value;
    Tables.FilterIdempotent(gs[i].images, NotNamed(image));
    assert WithoutImage(r[i].images, image) == r[i].images;
    forall j | 0 <= j < |r| ensures r2[j] == r[j] {
      if j != i {
        assert gs[j].name != group;
      }
    }
    assert r2 == r;
  }

  /** The position of the entry a lookup finds. */
  lemma LookupIndex(gs: Groups, name: string) returns (i: nat)
    requires DistinctNames(gs) && Has(gs, name)
    ensures i < |gs| && gs[i].name == name && Lookup(gs, name) == Some(gs[i].images)
  {
    i :| i < |gs| && gs[i].name == name;
    LookupAt(gs, i);
  }

  /** With distinct names, a lookup finds the entry with that name. */
  lemma {:induction false} LookupAt(gs: Groups, i: nat)
    requires i < |gs|
    requires forall j :: 0 <= j < i ==> gs[j].name != gs[i].name
    ensures Lookup(gs, gs[i].name) == Some(gs[i].images)
    decreases i
  {
    if i > 0 {
      LookupAt(gs[1..], i - 1);
    }
  }

  /** `deleteGroup`: once confirmed, the entry with that name goes and the others stay
      in order; when the dialog is dismissed nothing changes. */
  function DeleteGroup(gs: Groups, name: string, confirmed: bool): (r: Groups)
    ensures confirmed ==> !Has(r, name)
    ensures confirmed ==> forall g :: g in r <==> g in gs && g.name != name
    ensures !confirmed ==> r == gs
  {
    if confirmed then
      var r := Tables.Filter(gs, (g: Group) => g.name != name);
      assert forall i :: 0 <= i < |r| ==> r[i] in r;
      r
    else gs
  }

  /** Deleting a group leaves every other group's images as they were. */
  lemma {:induction false} DeleteGroupKeepsOthers(gs: Groups, name: string, other: string)
    requires other != name
    ensures Lookup(DeleteGroup(gs, name, true), other) == Lookup(gs, other)
    decreases |gs|
  {
    if gs != [] {
      DeleteGroupKeepsOthers(gs[1..], name, other);
      var p := (g: Group) => g.name != name;
      if p(gs[0]) {
        assert Tables.Filter(gs, p) == [gs[0]] + Tables.Filter(gs[1..], p);
        assert ([gs[0]] + Tables.Filter(gs[1..], p))[1..] == Tables.Filter(gs[1..], p);
      } else {
        assert Tables.Filter(gs, p) == Tables.Filter(gs[1..], p);
      }
    }
  }

  // ------------------------------------------------------------------ one generation request

  /** The product images sent with one request are capped around this total. */
  const MaxImages: nat := 10

  /** The number of images summed over all groups. */
  function TotalImages(gs: Groups): (n: nat)
    ensures gs == [] ==> n == 0
    decreases |gs|
  {
    if gs == [] then 0 else |gs[0].images| + TotalImages(gs[1..])
  }

  /** `Math.ceil(10 / count)`: the least share that, given to every group, reaches ten. */
  function Share(count: nat): (c: nat)
    requires count > 0
    ensures c * count >= MaxImages
    ensures (c - 1) * count < MaxImages
  {
    var c := (MaxImages + count - 1) / count;
    var r := (MaxImages + count - 1) % count;
    assert MaxImages + count - 1 == c * count + r;
    assert (c - 1) * count == c * count - count;
    c
  }

  datatype Start = NoProductImages | Request(groups: Groups)

  /** `generateSingle` up to the request: with no product image at all it refuses;
      otherwise every group, in order, is cut to its first `Share(count)` images. */
  function StartGeneration(gs: Groups): (r: Start)
    ensures r.NoProductImages? <==> TotalImages(gs) == 0
    ensures r.Request? ==> |r.groups| == |gs| > 0
    ensures r.Request? ==> forall i :: 0 <= i < |gs| ==>
      r.groups[i] == Group(gs[i].name, Tables.Limit(gs[i].images, Share(|gs|)))
  {
    if TotalImages(gs) == 0 then NoProductImages
    else Request(seq(|gs|, i requires 0 <= i < |gs| => Group(gs[i].name, Tables.Limit(gs[i].images, Share(|gs|)))))
  }

  /** Every group cut to at most `cap` images. */
  function Capped(gs: Groups, cap: nat): (r: Groups)
    ensures |r| == |gs|
    decreases |gs|
  {
    if gs == [] then [] else [Group(gs[0].name, Tables.Limit(gs[0].images, cap))] + Capped(gs[1..], cap)
  }

  /** Capping every group at `cap` sends at most `cap` images per group, and never
      more than the groups hold. */
  lemma {:induction false} CappedTotal(gs: Groups, cap: nat)
    ensures TotalImages(Capped(gs, cap)) <= cap * |gs|
    ensures TotalImages(Capped(gs, cap)) <= TotalImages(gs)
    decreases |gs|
  {
    if gs != [] {
      CappedTotal(gs[1..], cap);
      var r := Capped(gs, cap);
      assert r[1..] == Capped(gs[1..], cap);
      assert TotalImages(r) == |r[0].images| + TotalImages(r[1..]);
      assert |r[0].images| <= cap && |r[0].images| <= |gs[0].images|;
      MulSucc(cap, |gs[1..]|);
    }
  }

  lemma MulSucc(a: nat, n: nat)
    ensures a * (n + 1) == a * n + a
  {
  }

  /** Capping cuts nothing when every group already fits. */
  lemma {:induction false} CappedFits(gs: Groups, cap: nat)
    requires forall i :: 0 <= i < |gs| ==> |gs[i].images| <= cap
    ensures Capped(gs, cap) == gs
    decreases |gs|
  {
    if gs != [] {
      assert forall i :: 0 <= i < |gs[1..]| ==> |gs[1..][i].images| <= cap by {
        forall i | 0 <= i < |gs[1..]| ensures |gs[1..][i].images| <= cap {
          assert gs[1..][i] == gs[i + 1];
        }
      }
      CappedFits(gs[1..], cap);
      assert Capped(gs, cap) == [gs[0]] + gs[1..];
    }
  }

  /** The request is exactly the capped groups, so it holds fewer than ten images plus
      one per group — more than ten when the count does not divide ten — and never more
      than was uploaded. */
  lemma RequestBound(gs: Groups)
    requires StartGeneration(gs).Request?
    ensures StartGeneration(gs).groups == Capped(gs, Share(|gs|))
    ensures TotalImages(StartGeneration(gs).groups) < MaxImages + |gs|
    ensures TotalImages(StartGeneration(gs).groups) <= TotalImages(gs)
  {
    var r := StartGeneration(gs).groups;
    var c := Capped(gs, Share(|gs|));
    assert r == c by {
      CappedAt(gs, Share(|gs|));
    }
    CappedTotal(gs, Share(|gs|));
  }

  /** The `i`-th group of `Capped`. */
  lemma {:induction false} CappedAt(gs: Groups, cap: nat)
    ensures forall i :: 0 <= i < |gs| ==> Capped(gs, cap)[i] == Group(gs[i].name, Tables.Limit(gs[i].images, cap))
    decreases |gs|
  {
    if gs != [] {
      CappedAt(gs[1..], cap);
      assert forall i :: 1 <= i < |gs| ==> Capped(gs, cap)[i] == Capped(gs[1..], cap)[i - 1];
    }
  }

  /** Three groups of four images: each keeps four, and twelve images are sent. */
  lemma ThreeGroupsSendTwelve(a: Image)
    ensures var g := [a, a, a, a];
      var gs := [Group("x", g), Group("y", g), Group("z", g)];
      TotalImages(StartGeneration(gs).groups) == 12
  {
    var g := [a, a, a, a];
    var gs := [Group("x", g), Group("y", g), Group("z", g)];
    assert Share(3) == 4;
    var r := StartGeneration(gs).groups;
    assert r[0].images == g && r[1].images == g && r[2].images == g;
    assert r[1..][1..] == [r[2]] && [r[2]][1..] == [];
    assert TotalImages([r[2]]) == 4;
    assert TotalImages(r[1..]) == 8;
  }

  // ------------------------------------------------------------------ generated media and ZIP batches

  /** A generated medium kept in the gallery; `mediaType` is "video" or "image". */
  datatype Media = Media(url: string, prompt: string, timestamp: int, mediaType: Option<string>)

  /** A medium is put in the archive as a video when it says so or is a video data URL. */
  predicate IsVideo(m: Media) {
    m.mediaType == Some("video") || StartsWith(m.url, "data:video")
  }

  /** The name of the `i`-th (from 0) entry of a batch archive. */
  function ZipName(i: nat, m: Media): (name: string)
    ensures IsVideo(m) ==> StartsWith(name, "video-") && EndsWith(name, ".mp4")
    ensures !IsVideo(m) ==> StartsWith(name, "image-") && EndsWith(name, ".png")
  {
    (if IsVideo(m) then "video-" else "image-") + NatToDecimal(i + 1) + (if IsVideo(m) then ".mp4" else ".png")
  }

  /** The data stored for an entry: the second comma-separated piece of the URL, which
      is missing when the URL has no comma. */
  function Payload(url: string): (p: Option<string>)
    ensures p.Some? <==> ',' in url
  {
    var parts := Split(url, ',');
    if |parts| >= 2 then Some(parts[1])
    else
      assert parts == [url];
      None
  }

  /** The payload of a data URL is its base64 text. */
  lemma PayloadOfDataUrl(mime: string, base64: string)
    requires ',' !in mime && ',' !in base64
    ensures Payload(DataUrl(mime, base64)) == Some(base64)
  {
    var head := "data:" + mime + ";base64";
    assert ',' !in head by {
      assert head == "data:" + mime + ";base64";
    }
    assert DataUrl(mime, base64) == head + [','] + base64;
    SplitCons(head, ',', base64);
  }

  datatype Entry = Entry(name: string, payload: Option<string>)

  /** The entries of an archive, one per medium in gallery order. */
  function ZipEntries(ms: seq<Media>): (r: seq<Entry>)
    ensures |r| == |ms|
    ensures forall i :: 0 <= i < |ms| ==> r[i].name == ZipName(i, ms[i]) && r[i].payload == Payload(ms[i].url)
  {
    seq(|ms|, i requires 0 <= i < |ms| => Entry(ZipName(i, ms[i]), Payload(ms[i].url)))
  }

  /** No two entries of an archive share a name. */
  lemma ZipNamesDistinct(i: nat, a: Media, j: nat, b: Media)
    requires i != j
    ensures ZipName(i, a) != ZipName(j, b)
  {
    if IsVideo(a) == IsVideo(b) {
      var ext := if IsVideo(a) then ".mp4" else ".png";
      NumberedNamesDiffer(if IsVideo(a) then "video-" else "image-", i + 1, ext, j + 1, ext);
    } else {
      assert ZipName(i, a)[0] != ZipName(j, b)[0];
    }
  }

  /** A downloaded archive: its file name and its entries. */
  datatype Archive = Archive(name: string, entries: seq<Entry>)

  function ArchiveName(batch: nat): string {
    "meta-ads-batch-" + NatToDecimal(batch) + ".zip"
  }

  /** The gallery fills up to this many media before it is archived. */
  const BatchSize: nat := 20

  /** The gallery, newest first, and the number of the next batch archive. */
  datatype Session = Session(items: seq<Media>, batch: nat)

  /** Adding one medium: the archive built, if this addition triggered one, and the
      session once the archive is settled. */
  datatype Added = Added(archive: Option<Archive>, session: Session)

  /** A new medium goes in front. When the gallery reaches exactly twenty, those twenty
      are archived; when the archive is built the gallery empties and the batch number
      moves on, and when building it fails the twenty stay. The archive is named after
      `named`, the batch number the adding closure captured: `generateSingle` and
      `pollOnce` read `batchCount` from the render that created them, and the automatic
      loop keeps the closure of the render that switched it on, so `named` can lag
      behind `s.batch`. The counter itself is advanced from its latest value. */
  function AddMedia(s: Session, m: Media, zipOk: bool, named: nat): (r: Added)
    ensures r.archive.Some? <==> |s.items| + 1 == BatchSize
    ensures r.archive.Some? ==> r.archive.value == Archive(ArchiveName(named), ZipEntries([m] + s.items))
    ensures r.archive.Some? && zipOk ==> r.session == Session([], s.batch + 1)
    ensures !(r.archive.Some? && zipOk) ==> r.session == Session([m] + s.items, s.batch)
  {
    var updated := [m] + s.items;
    if |updated| == BatchSize then
      Added(Some(Archive(ArchiveName(named), ZipEntries(updated))),
            if zipOk then Session([], s.batch + 1) else Session(updated, s.batch))
    else Added(None, Session(updated, s.batch))
  }

  /** A run of additions by one closure, which captured batch number `named`, each
      archive built with the same outcome `zipOk`. */
  function AddAll(s: Session, ms: seq<Media>, zipOk: bool, named: nat): (r: Session)
    decreases |ms|
  {
    if ms == [] then s else AddAll(AddMedia(s, ms[0], zipOk, named).session, ms[1..], zipOk, named)
  }

  /** The archives a run of additions produces, in order. */
  function Archives(s: Session, ms: seq<Media>, zipOk: bool, named: nat): (r: seq<Archive>)
    decreases |ms|
  {
    if ms == [] then []
    else
      var a := AddMedia(s, ms[0], zipOk, named);
      (if a.archive.Some? then [a.archive.value] else []) + Archives(a.session, ms[1..], zipOk, named)
  }

  /** When every archive builds, additions come out in batches of exactly twenty: the
      gallery holds the remainder and the batch number counts the archives. */
  lemma {:induction false} BatchesOfTwenty(s: Session, ms: seq<Media>, named: nat)
    requires |s.items| < BatchSize
    ensures |AddAll(s, ms, true, named).items| == (|s.items| + |ms|) % BatchSize
    ensures AddAll(s, ms, true, named).batch == s.batch + (|s.items| + |ms|) / BatchSize
    ensures |Archives(s, ms, true, named)| == (|s.items| + |ms|) / BatchSize
    decreases |ms|
  {
    if ms != [] {
      var next := AddMedia(s, ms[0], true, named).session;
      BatchesOfTwenty(next, ms[1..], named);
      var k := |s.items| + |ms|;
      if |s.items| + 1 == BatchSize {
        assert k == BatchSize + |ms[1..]|;
        assert k % BatchSize == |ms[1..]| % BatchSize;
        assert k / BatchSize == 1 + |ms[1..]| / BatchSize;
      } else {
        assert |next.items| + |ms[1..]| == k;
      }
    }
  }

  /** Every archive of one run carries the name of the batch number its closure
      captured, however far the counter has moved on meanwhile. */
  lemma {:induction false} RunArchivesShareName(s: Session, ms: seq<Media>, zipOk: bool, named: nat)
    ensures forall a :: a in Archives(s, ms, zipOk, named) ==> a.name == ArchiveName(named)
    decreases |ms|
  {
    if ms != [] {
      RunArchivesShareName(AddMedia(s, ms[0], zipOk, named).session, ms[1..], zipOk, named);
    }
  }

  /** Forty media in one automatic run from a fresh first batch: two archives are
      downloaded, both as "meta-ads-batch-1.zip", while the counter reaches 3. */
  lemma FortyMediaTwoArchivesOneName(ms: seq<Media>)
    requires |ms| == 2 * BatchSize
    ensures var r := Archives(Session([], 1), ms, true, 1);
            |r| == 2 && r[0].name == r[1].name == ArchiveName(1)
    ensures AddAll(Session([], 1), ms, true, 1).batch == 3
  {
    BatchesOfTwenty(Session([], 1), ms, 1);
    RunArchivesShareName(Session([], 1), ms, true, 1);
    var r := Archives(Session([], 1), ms, true, 1);
    assert r[0] in r && r[1] in r;
  }

  /** Once an archive fails to build, the gallery stays at twenty or more and no later
      addition archives anything: the failed batch is never retried by itself. */
  lemma {:induction false} FailedBatchIsNotRetried(s: Session, ms: seq<Media>, named: nat)
    requires |s.items| >= BatchSize
    ensures Archives(s, ms, false, named) == []
    ensures AddAll(s, ms, false, named).items == Reversed(ms) + s.items
    decreases |ms|
  {
    if ms != [] {
      var next := AddMedia(s, ms[0], false, named).session;
      FailedBatchIsNotRetried(next, ms[1..], named);
      assert Reversed(ms[1..]) + ([ms[0]] + s.items) == Reversed(ms) + s.items;
    }
  }

  /** The media of a run, newest first. */
  function Reversed(ms: seq<Media>): (r: seq<Media>)
    ensures |r| == |ms|
    decreases |ms|
  {
    if ms == [] then [] else Reversed(ms[1..]) + [ms[0]]
  }

  // ------------------------------------------------------------------ the generation reply

  /** The fields of the `/api/generate` reply that the page reads. */
  datatype GenerateData = GenerateData(success: bool, videoOperation: Option<string>,
                                       imageUrl: Option<string>, prompt: string,
                                       mediaType: Option<string>, message: string,
                                       error: Option<string>)

  /** A video still being rendered, to be polled in the background. */
  datatype VideoJob = VideoJob(operation: string, prompt: string)

  /** What one generation leads to: an error shown (which also stops automatic mode),
      a background poll, or a new medium for the gallery. */
  datatype Generated = GenerationFailed(message: string) | StartPolling(job: VideoJob) | Produced(media: Media)

  const GenerateFallback: string := "Erreur génération"

  /** The reply handling of `generateSingle`. A reply that is not JSON fails with the
      parser's message; an error status fails with the reply's `error`, or a fallback;
      an unsuccessful reply fails with its `message`. A successful reply with an
      operation and no media address starts polling; any other gives a medium whose
      type defaults to "image". */
  function OnGenerated(status: nat, data: Body<GenerateData>, now: int): (r: Generated)
    ensures data.NotJson? ==> r == GenerationFailed(data.parseError)
    ensures data.Json? && !IsOk(status) ==> r == GenerationFailed(OrElse(data.value.error, GenerateFallback))
    ensures r.StartPolling? <==> (data.Json? && IsOk(status) && data.value.success
                                  && Truthy(data.value.videoOperation) && !Truthy(data.value.imageUrl))
    ensures r.Produced? ==> r.media.mediaType.Some? && r.media.prompt == data.value.prompt
    // a reply the server marks unsuccessful shows its message
    ensures data.Json? && IsOk(status) && !data.value.success ==> r == GenerationFailed(data.value.message)
    // a successful reply that does not start polling is a medium stamped now, at the
    // reply's address, typed as the reply says or as an image
    ensures data.Json? && IsOk(status) && data.value.success && !r.StartPolling? ==>
              && r.Produced?
              && r.media.url == data.value.imageUrl.GetOr("")
              && r.media.timestamp == now
              && r.media.mediaType == Some(OrElse(data.value.mediaType, "image"))
    ensures r.Produced? ==> data.Json? && IsOk(status) && data.value.success
  {
    match data
    case NotJson(e) => GenerationFailed(e)
    case Json(d) =>
      if !IsOk(status) then GenerationFailed(OrElse(d.error, GenerateFallback))
      else if !d.success then GenerationFailed(d.message)
      else if Truthy(d.videoOperation) && !Truthy(d.imageUrl) then StartPolling(VideoJob(d.videoOperation.value, d.prompt))
      else Produced(Media(d.imageUrl.GetOr(""), d.prompt, now, Some(OrElse(d.mediaType, "image"))))
  }

  /** A produced medium is archived as a video exactly when the reply typed it "video"
      or its address is a video data URL. */
  lemma ProducedArchivedByType(status: nat, d: GenerateData, now: int, i: nat)
    requires OnGenerated(status, Json(d), now).Produced?
    ensures var m := OnGenerated(status, Json(d), now).media;
      EndsWith(ZipName(i, m), ".mp4") <==> (d.mediaType == Some("video") || StartsWith(m.url, "data:video"))
  {
    var m := OnGenerated(status, Json(d), now).media;
    var name := ZipName(i, m);
    if !IsVideo(m) {
      assert name[|name| - 4..] == ".png";
    }
  }

  // ------------------------------------------------------------------ background video poll

  /** The fields of the `/api/veo-poll` reply that the page reads; the flags are their
      truthiness. */
  datatype PollData = PollData(success: bool, done: bool, videoUri: Option<string>, pending: bool)

  /** One poll: nothing when the poll was cancelled, the finished medium, or a new
      poll after a delay, or the end of polling after an error. */
  datatype PollStep = Cancelled | Ready(media: Media) | PollAgain(delayMs: nat) | GiveUp

  /** Delay before polling a video still rendering. */
  const PendingDelayMs: nat := 12000

  /** Delay before polling again after the request itself failed. */
  const RetryDelayMs: nat := 15000

  /** `pollOnce`: a thrown request or unreadable reply (`Err`) is retried after 15 s; a
      finished video becomes a video medium with the job's prompt; a reply still pending
      is polled again after 12 s; anything else ends the poll. */
  function PollOnce(stopped: bool, job: VideoJob, reply: Result<PollData>, now: int): (r: PollStep)
    ensures r.Cancelled? <==> stopped
    ensures r.Ready? <==> (!stopped && reply.Ok? && reply.value.success && reply.value.done && Truthy(reply.value.videoUri))
    ensures r.Ready? ==> r.media == Media(reply.value.videoUri.value, job.prompt, now, Some("video"))
    ensures r.PollAgain? ==> (r.delayMs == RetryDelayMs <==> reply.Err?)
    ensures r.PollAgain? ==> r.delayMs == PendingDelayMs || r.delayMs == RetryDelayMs
  {
    if stopped then Cancelled
    else match reply
      case Err(_) => PollAgain(RetryDelayMs)
      case Ok(d) =>
        if d.success && d.done && Truthy(d.videoUri) then Ready(Media(d.videoUri.value, job.prompt, now, Some("video")))
        else if d.pending then PollAgain(PendingDelayMs)
        else GiveUp
  }

  /** Whether polling goes on after a step. */
  predicate KeepsPolling(r: PollStep) {
    r.PollAgain?
  }

  /** Polling goes on exactly while the request fails or the video is reported pending
      without being ready; a finished video always lands in the archive as a video. */
  lemma PollContinuesIff(stopped: bool, job: VideoJob, reply: Result<PollData>, now: int, i: nat)
    ensures KeepsPolling(PollOnce(stopped, job, reply, now)) <==>
      (!stopped && (reply.Err? || (reply.value.pending
        && !(reply.value.success && reply.value.done && Truthy(reply.value.videoUri)))))
    ensures PollOnce(stopped, job, reply, now).Ready? ==>
      ZipName(i, PollOnce(stopped, job, reply, now).media) == "video-" + NatToDecimal(i + 1) + ".mp4"
  {
  }
}
